=== FILE: README.md ===
# Canvas drawing template — a Dafny model of its core

The repository is a Rust + WebAssembly web-application template. This project models its core as pure functions over immutable data and proves properties about them:

- **The drawing state** (`base` crate): an ordered list of circles. Each circle is added at a point, with a random radius in [10, 50] and a colour `rgb(R, G, B)` whose channels are in [100, 255]. Shapes compare equal within a tolerance of `1e-9`.
- **The application object** (`app` crate): the state, the canvas buffer size, the optional 2D context and the last animation-frame id. It covers context initialisation, canvas resizing with rounding and a saturating `u32` cast, frame rendering (clear, then one filled circle per shape), the two input listeners (mouse-down adds a circle at the mapped point, the button clears), the render loop that reschedules itself, the handle exported to JavaScript, and `mount_app`.
- **The CLI planners** (`cli` crate): the argument lists of `cargo test -p base`, `wasm-pack test`, `wasm-pack build` and `pnpm test:e2e`. It also models which suites the `test` subcommand runs, and in which order.
- **The setup script** (`setup.py`): the project-name validator, `to_title_case`, `str.replace` and `replace_in_file`, the README setup-block removal, the confirmation menu with its toggles, the interactive and automated sessions, and `run_selected_actions` with its validation, gating and finalisation.
- **The end-to-end console filter** (`e2e_tests/consoleUtils.js`): `getCriticalConsoleErrors`.

## How the host is modelled

Everything outside the program becomes a parameter, and the host's side effects are recorded as data:

- **Browser, file system and PATH answers.** These are parameters: the 2D-context reply, the frame-request reply, whether `addEventListener` throws, the file contents, and which commands are on the PATH.
- **Subprocess results.** Each is a boolean.
- **The random generator.** Each draw is a `Sample` constrained to the generator's ranges.
- **Host calls made.** These are recorded as traces: draw commands, frame requests, the `console.error` of a failed render and the steps of a setup run.

## Model

| member | source | states |
|---|---|---|
| State.ShapeEqReflexive | base/src/state.rs:19-27 | every shape equals itself under the tolerance-based equality |
| State.ShapeEqSymmetric | base/src/state.rs:19-27 | tolerance-based shape equality is symmetric |
| State.ShapeEqNotTransitive | base/src/state.rs:19-27 | the `1e-9` tolerance makes shape equality intransitive: there are three shapes a≈b, b≈c with a≉c |
| State.StateEqReflexive | base/src/state.rs:33-36 | every drawing state equals itself under the derived equality |
| State.StateEqSymmetric | base/src/state.rs:33-36 | the derived state equality (pairwise shape equality) is symmetric |
| State.New | base/src/state.rs:39-41 | a new state has no shapes |
| State.AddShape | base/src/state.rs:44-58 | appends exactly one shape at (x, y) with the sampled radius, keeps every earlier shape, the colour text parses back to the sampled channels, and the new shape lies in the generator's ranges |
| State.ParseRgbColor | base/src/state.rs:50 | the colour text `rgb(R, G, B)` reads back to its three channels |
| State.RgbColorInjective | base/src/state.rs:50 | different channel triples never give the same colour text |
| State.ClearShapes | base/src/state.rs:61-63 | clearing leaves no shapes |
| State.ClearShapesIdempotent | base/src/state.rs:61-63 | clearing twice equals clearing once, and a cleared state equals a new one |
| State.AddShapeRespectsStateEq | base/src/state.rs:44-58 | adding the same point and sample to equal states gives equal states |
| State.AddShapesAppends | base/src/state.rs:44-58 | n successive adds append one shape per click, in call order, after the existing shapes |
| State.AddShapesFromNew | base/src/state.rs:39-58 | from a new state, n adds give exactly the shapes of the n clicks in order |
| State.AddShapesWellFormed | base/src/state.rs:44-58 | every shape of a state built by adds is within the generator's ranges |
| DrawingApp.New | app/src/drawing_app.rs:21-29 | a new application has no shapes, no context and no frame id, and keeps the canvas |
| DrawingApp.InitializeRenderer | app/src/drawing_app.rs:31-40 | succeeds exactly when the host gives a 2D context, then binds it; otherwise the application is unchanged, and a missing context fails with "Failed to get 2D context" |
| DrawingApp.RoundToU32Nearest | app/src/drawing_app.rs:46-47 | rounding an in-range layout size lands within half a pixel |
| DrawingApp.RoundToU32Whole | app/src/drawing_app.rs:46-47 | a whole-pixel layout size is kept exactly |
| DrawingApp.ResizeCanvas | app/src/drawing_app.rs:44-53 | the buffer takes the rounded layout size, and is written exactly when that size differs; the shapes, context and frame id are untouched |
| DrawingApp.ResizeCanvasIdempotent | app/src/drawing_app.rs:44-53 | a second resize against the same layout writes nothing |
| DrawingApp.PaintShapes | app/src/drawing_app.rs:71-82 | painting fails, with the host's exception, exactly when some radius is negative; otherwise it issues four calls per shape |
| DrawingApp.PaintShapesAt | app/src/drawing_app.rs:71-82 | shape i is painted by calls 4i..4i+3: begin path, full arc at its centre and radius, fill style of its colour, fill |
| DrawingApp.RenderFrame | app/src/drawing_app.rs:55-85 | without a context: draws nothing and fails with "Rendering context not initialized"; with one: clears the whole buffer first and fails only on a negative radius |
| DrawingApp.PaintShapesDecodes | app/src/drawing_app.rs:71-82 | the paint trace decodes back to exactly the shapes, in insertion order |
| DrawingApp.RenderFrameDrawsState | app/src/drawing_app.rs:55-85 | a bound frame clears the full buffer, then draws exactly the state's shapes in order |
| DrawingApp.WellFormedRenders | app/src/drawing_app.rs:55-85 | a state built by adds always renders without error, in 1 + 4n calls |
| DrawingApp.AddCircleAtPoint | app/src/drawing_app.rs:87-90 | one shape appended at (x, y) and the earlier shapes kept; context, canvas and frame id unchanged |
| DrawingApp.ClearCanvas | app/src/drawing_app.rs:92-95 | no shapes remain; context, canvas and frame id unchanged |
| DrawingApp.GetDrawingState | app/src/drawing_app.rs:97-100 | the exported copy is the state itself, shape for shape, and so also equal under the tolerance comparison |
| EventListeners.MapPoint | app/src/event_listeners.rs:23-26 | the mapped point is the client offset scaled by buffer size over layout size, on each axis |
| EventListeners.UnmapMapPoint | app/src/event_listeners.rs:23-26 | for a non-empty buffer, mapping is invertible: unmapping the mapped point returns the click |
| EventListeners.MapPointCorners | app/src/event_listeners.rs:23-26 | the layout's top-left corner maps to buffer (0, 0) and its bottom-right corner to (width, height) |
| EventListeners.MapPointTranslation | app/src/event_listeners.rs:23-26 | when the buffer has the layout size, mapping is a pure translation |
| EventListeners.MapPointAfterResize | app/src/event_listeners.rs:23-26 | after a resize, a click inside the canvas lands within half a buffer pixel of its CSS offset |
| EventListeners.OnMouseDown | app/src/event_listeners.rs:20-28 | the mouse-down handler appends one shape at the mapped point; nothing else changes |
| EventListeners.OnClear | app/src/event_listeners.rs:34-36 | the clear handler empties the shapes; nothing else changes |
| EventListeners.SetupEventListeners | app/src/event_listeners.rs:13-41 | succeeds exactly when both registrations are accepted, leaving the mousedown then the click listener; the first refusal stops the setup |
| EventListeners.HandleEventsCount | app/src/event_listeners.rs:20-36 | over any event sequence, each mouse-down adds exactly one shape and each clear empties the state |
| EventListeners.MouseDownsOnly | app/src/event_listeners.rs:20-28 | without clears, n mouse-downs add exactly n shapes |
| Rendering.Tick | app/src/rendering.rs:21-31 | a tick resizes first (the tick's only buffer write), logs a render error without stopping, and ends with exactly one request of the same closure; the returned id is stored, and a refused request aborts the tick; its trace is the resize's buffer write, if any, followed by the frame of the resized application, whose canvas keeps the size just written; shapes and context are untouched |
| Rendering.TickDrawsState | app/src/rendering.rs:22-25 | with a bound context and no negative radius, a tick's first draw clears the canvas at the size of the laid-out rectangle, and the draws after it paint exactly the stored shapes, in order |
| Rendering.StartRenderLoop | app/src/rendering.rs:13-38 | the first frame is requested once, and the call returns the loop handle exactly when the request succeeds |
| Rendering.RunTicksKeepsScheduling | app/src/rendering.rs:21-31 | while every request succeeds the loop never stops, whatever rendering does: one request per tick, the last id stored, the shapes untouched |
| Rendering.RunTicksStopsAfterAbort | app/src/rendering.rs:29 | after a failed request no later tick runs |
| AppHandle.InitializeRenderer | app/src/app_handle.rs:30-32 | passes the application's initialisation result through and keeps the listeners and the loop |
| AppHandle.Start | app/src/app_handle.rs:36-41 | on success the loop handle is stored; on failure the handle is unchanged and the error is returned |
| AppHandle.AddCircleAtPoint | app/src/app_handle.rs:45-47 | appends exactly one shape at (x, y); the listeners, loop, context and canvas are kept |
| AppHandle.ClearCanvas | app/src/app_handle.rs:51-53 | empties the shapes; the listeners, loop, context and canvas are kept |
| AppHandle.GetDrawingState | app/src/app_handle.rs:57-59 | returns the current state itself, shape for shape, and so also equal under the tolerance comparison |
| Mount.MountApp | app/src/mount.rs:11-34 | a missing container fails with its message, before any listener; the mount succeeds exactly when DOM creation and both listeners succeed, giving an empty application with both listeners and no loop |
| Mount.MountFailureLeavesElements | app/src/mount.rs:16-23 | a listener failure after DOM creation leaves the elements on the page and the canvas listener registered with the browser (its closure is dropped by the early return) |
| Mount.MountAddCircleScenario | app/src/mount.rs:11-34 | mount then add at (50, 50): the exported state holds exactly that one shape |
| Mount.MountAddTwoClearScenario | app/src/mount.rs:11-34 | mount, add two, clear: no shapes remain |
| Mount.RenderNeedsInitialize | app/src/mount.rs:19 | before the renderer is initialised, rendering a mounted application fails |
| TestRunner.BaseTestsCommand | cli/src/test_runner.rs:6-18 | `cargo test -p base`, in the current directory, with no extra environment |
| TestRunner.BrowserFlag | cli/src/test_runner.rs:35-39 | a flag exists exactly for chrome, firefox or safari in any ASCII case, and is `--` followed by the lower-cased name |
| TestRunner.AppTestsCommand | cli/src/test_runner.rs:20-60 | missing `wasm-pack` is reported first; the command exists exactly for a supported browser; an unsupported one is reported by name; the arguments are `test`, the browser flag and an optional `--headless`, run in the app directory with `RUST_LOG=warn` |
| TestRunner.AppTestsCaseInsensitive | cli/src/test_runner.rs:35-39 | any spelling of a browser name gives the same command as its lower-case form |
| TestCmd.TestPlan | cli/src/commands/test_cmd.rs:12-30 | base tests run unless only `--app` is given, and come first; app tests run unless only `--base` is given, in a named browser or in the default list |
| TestCmd.DefaultBrowserOrder | cli/src/commands/test_cmd.rs:23-27 | without a named browser, app tests go to chrome, then firefox, then safari on macOS only |
| TestCmd.RunSuites | cli/src/commands/test_cmd.rs:15-30 | suites run in order, each spawning its own command; the first failure stops the run; when every suite has a command and none fails, the run passes having spawned one command per suite |
| TestCmd.RunSuitesAllPass | cli/src/commands/test_cmd.rs:15-30 | when no suite fails, exactly the suites' commands are spawned, in order, and the run passes |
| TestCmd.RunSuitesStopsAtError | cli/src/commands/test_cmd.rs:15-30 | a suite without a command stops the run with its error, after the commands of the suites before it |
| TestCmd.RunSuitesStopsAtFailure | cli/src/commands/test_cmd.rs:15-30 | a failing command is the last one spawned, after those of the suites before it, and its failure is the result |
| TestCmd.BaseRunsFirst | cli/src/commands/test_cmd.rs:15-17 | base tests are spawned before any app test, and a failed base run spawns nothing else |
| TestCmd.UnsupportedBrowserSpawnsNoAppTest | cli/src/commands/test_cmd.rs:20-21 | an unsupported named browser fails before any app test is spawned |
| Build.ModeArgs | cli/src/build.rs:36-43 | debug mode adds `--dev`; release adds `--release --features "default wee_alloc"` |
| Build.BuildCommand | cli/src/build.rs:5-57 | missing `wasm-pack` comes first, then a non-UTF-8 output directory; otherwise the web-target build command with the mode flags, run in the crate directory |
| Build.BuildModesExclusive | cli/src/build.rs:36-43 | `--dev` and `--release` never both appear |
| E2eCmd.ModeFlag | cli/src/commands/e2e_cmd.rs:18-24 | at most one mode flag: `--ui` over `--debug` over `--headed` |
| E2eCmd.E2eCommand | cli/src/commands/e2e_cmd.rs:16-43 | `pnpm test:e2e` in the workspace root with `CI=true`: the mode flag, then `--project <name>` if given, then the pass-through arguments unchanged |
| E2eCmd.DecodeE2eCommand | cli/src/commands/e2e_cmd.rs:16-33 | the built argument list reads back to the chosen mode, project and pass-through arguments |
| ProjectName.PatternMatchesIffKebab | setup.py:61 | the pattern's automaton accepts exactly the lower-case hyphen-separated names |
| ProjectName.PythonMatchesIff | setup.py:61 | `re.match` with `$` accepts exactly the valid names and the valid names followed by one newline |
| ProjectName.ValidateProjectName | setup.py:59-65 | as written: returns the name unchanged exactly when `re.match` accepts it |
| ProjectName.ValidateAcceptsTrailingNewline | setup.py:59-65 | as written, "app\n" is accepted although it is not a valid name |
| ProjectName.ValidateProjectNameStrict | setup.py:59-65 | corrected: accepts exactly the valid names, which contain no newline and no space |
| ProjectName.StrictAgreesWithoutNewline | setup.py:59-65 | the two validators agree on every name that does not end in a newline |
| ProjectName.EnterName | setup.py:144-151 | the stripped answer is empty, or accepted exactly when it is a valid name |
| ProjectName.Capitalize | setup.py:69 | `str.capitalize` on ASCII letters: first character upper case, the rest lower case |
| ProjectName.TitleCaseWords | setup.py:67-69 | the title's space-separated words are the capitalised hyphen-separated words, as many as there are hyphens plus one, and the length is kept |
| ProjectName.KebabOfTitle | setup.py:67-69 | a valid name survives the trip to its title and back |
| Strings.JoinSplit | setup.py:69 | joining the pieces of a split restores the string |
| Strings.SplitJoin | setup.py:69 | splitting a join of separator-free pieces gives the pieces back |
| Strings.Strip | setup.py:144 | `str.strip`: a contiguous slice of the input with only white space cut at either end and none left there; all-white-space input becomes empty, and input without white space is kept |
| Strings.StripUnique | setup.py:144 | any slice that cuts only white space and keeps none at its ends is the stripped text |
| Strings.StripIdempotent | setup.py:144 | stripping twice is stripping once |
| TextEdit.ReplaceAllAtFind | setup.py:81 | `str.replace` keeps the text before the first occurrence, writes the new text there and continues after the occurrence |
| TextEdit.ReplaceAllAbsent | setup.py:79-81 | text without the old string is unchanged |
| TextEdit.ReplaceAllSame | setup.py:81 | replacing a string by itself changes nothing |
| TextEdit.ReplaceFromLength | setup.py:81 | each replaced occurrence changes the length by the difference of the two strings' lengths |
| TextEdit.ReplaceInFile | setup.py:71-87 | a missing or unreadable file fails; text without the old string succeeds unwritten; otherwise the replaced text is written when the file is writable, and the edit fails when it is not |
| TextEdit.ReplaceInFileContents | setup.py:71-87 | after a successful edit the file holds the replaced text; after a failed one (missing, unreadable, or refused for writing) it is unchanged |
| TextEdit.RemoveFirstBlock | setup.py:99-100 | the first setup block is removed up to the first end marker after it, with one following newline; the text before it is kept |
| TextEdit.RemoveUnclosedBlock | setup.py:99-100 | a first start marker with no end marker after it leaves the text unchanged |
| TextEdit.RemoveBlocksNoMarker | setup.py:99-100 | text without a start marker is unchanged |
| SetupActions.CleanReadmeFile | setup.py:89-108 | a missing README is success without writing; a read, writable one gets its setup blocks removed; anything else fails |
| SetupActions.AllSelected | setup.py:158-162 | the menu starts with every action selected |
| SetupActions.Toggle | setup.py:196-198 | a toggle flips its own action and no other |
| SetupActions.ToggleTwice | setup.py:196-198 | toggling the same action twice restores the selection |
| SetupActions.TogglesCommute | setup.py:196-198 | toggles of different actions commute |
| SetupActions.Menu | setup.py:194-206 | `t`/`u`/`i` flip their action, `b` goes back, `g` runs, `q` quits, and anything else changes nothing; answers are read lower-cased and stripped |
| SetupActions.MenuChangesAtMostOne | setup.py:194-198 | an answer that stays in the menu changes at most one action |
| SetupActions.MenuNormal | setup.py:194 | an answer and its normalised form have the same effect |
| SetupActions.DetectTools | setup.py:218-220 | `npm` is looked up only when `pnpm` is missing |
| SetupActions.Rename | setup.py:283-289 | both files are edited, the README even when the package.json edit failed; the stage succeeds exactly when both succeed, and each file holds its replaced text exactly when its edit succeeded |
| SetupActions.InstallNodeDependencies | setup.py:122-131 | succeeds exactly when pnpm is present (or npm installs it) and `pnpm install` succeeds; `pnpm install` runs only when pnpm is available |
| SetupActions.RunSelectedActions | setup.py:264-318 | validation refuses a selected action whose tool is missing before anything runs; the script deletes itself exactly when every action succeeded; without the rename, package.json is untouched |
| SetupActions.RunOrderedAndGated | setup.py:280-302 | a run takes its steps in the script's order, each at most once, and each only after every earlier action step succeeded |
| SetupActions.RunSuccessIff | setup.py:280-315 | a validated run reports success exactly when every action step it took succeeded |
| SetupActions.RunCompletesSelected | setup.py:283-302 | a fully successful run carried out every selected action |
| SetupActions.RunRenamedFiles | setup.py:283-289 | after a fully successful run with the rename, package.json and the README hold the new name and title |
| SetupActions.RunWithoutRename | setup.py:283-309 | without the rename a successful run only cleans the README |
| SetupActions.RunAllows | setup.py:283-309 | a run takes only the steps of selected actions, besides the cleanup and the deletion |
| SetupActions.ConfirmMenu | setup.py:156-209 | as written: the menu reads answers until `b`, `g`, `q` or end of input; going back leaves fewer lines; a report comes from a run of the selected actions |
| SetupActions.ConfirmMenuGoEnds | setup.py:200-203 | as written, `g` ends the menu with the run's report, whatever the report |
| SetupActions.ConfirmMenuEndsOnRefusal | setup.py:200-203 | as written, `g` with cargo missing and every action selected ends the menu with a refused run |
| SetupActions.ConfirmMenuFixed | setup.py:156-209 | corrected: the menu ends with a report only when the run passed validation |
| SetupActions.MenusAgree | setup.py:156-209 | with cargo and pnpm or npm on the PATH, the menu as written and the corrected menu end alike |
| SetupActions.ConfirmMenuFixedRetries | setup.py:200-203 | corrected: after a refused run the menu goes on reading answers with the same selection |
| SetupActions.ReadName | setup.py:135-154 | the name prompt returns a valid name, with fewer lines left; it returns nothing exactly when no answer is accepted |
| SetupActions.ReadNameFirstAccepted | setup.py:142-151 | the name prompt returns the first accepted answer and exactly the lines after it |
| SetupActions.InteractiveSession | setup.py:211-238 | as written: a finished interactive session has a valid name and the report of a run of some selection, which may have been refused |
| SetupActions.InteractiveSessionEndsOnRefusal | setup.py:233-238 | as written: answering `g` first with cargo missing ends the session with the refused run |
| SetupActions.InteractiveSessionFixed | setup.py:211-238 | corrected: a finished session has a valid name and a run that passed validation |
| SetupActions.SessionsAgree | setup.py:211-238 | with cargo and pnpm or npm on the PATH, the session as written and the corrected session end alike |
| SetupActions.AutomatedSession | setup.py:240-262 | the automated run happens exactly when `--yes` was given or the answer is `y` or `yes` in any case; it runs every action |
| SetupActions.ChooseMode | setup.py:339-345 | as written: no argument or an empty one gives the interactive mode; a valid name, possibly followed by one newline, gives the automated mode with that argument; anything else exits |
| SetupActions.ChooseModeStrict | setup.py:339-345 | corrected: the automated mode starts only with a name of the documented form |
| SetupActions.ChooseModeAcceptsTrailingNewline | setup.py:339-342 | as written, `app` plus a newline starts the automated mode with the newline in the name; the corrected choice exits |
| SetupActions.ChooseModesAgree | setup.py:339-345 | both choices agree on every argument that does not end in a newline |
| ConsoleUtils.CriticalErrors | e2e_tests/consoleUtils.js:15-23 | every kept message is an error that does not mention `favicon.ico` |
| ConsoleUtils.CriticalIsFilter | e2e_tests/consoleUtils.js:15-23 | the two successive filters equal one filter by "error and not benign" |
| ConsoleUtils.CriticalCounts | e2e_tests/consoleUtils.js:15-23 | every critical message is kept as often as it was logged, and nothing else is kept |
| ConsoleUtils.CriticalSubsequence | e2e_tests/consoleUtils.js:15-23 | the critical errors appear in the order they were logged |
| ConsoleUtils.CriticalIdempotent | e2e_tests/consoleUtils.js:15-23 | filtering the critical errors again changes nothing |
| ConsoleUtils.CriticalAppend | e2e_tests/consoleUtils.js:15-23 | the messages of two phases are filtered phase by phase |

## Error paths the code does not have

- **No degenerate-layout error.** `app/src/event_listeners.rs:23-24` divides the canvas size by the layout width and height without a guard. A non-zero layout (`rect.width > 0.0`) is therefore a precondition of the point mapping, not an error path.
- **A failed mount is not undone.** `mount_app` creates the DOM elements before registering the listeners (`app/src/mount.rs:16-23`). A listener failure returns an error but leaves the elements on the page (`Mount.MountFailureLeavesElements`). When the button listener is refused, the canvas listener stays registered with the browser. Its closure, though, is dropped on the early return at `app/src/event_listeners.rs:38`, so a later mouse-down on the canvas calls a closure that no longer exists.
- **`main` uses the as-written validator.** `setup.py:339-342` checks the command-line name with `validate_project_name`, which accepts a name ending in one newline (see Findings). `SetupActions.ChooseMode` models that; `SetupActions.ChooseModeStrict` uses the corrected validator.
- **The interactive name prompt is unaffected.** It strips its answer first (`setup.py:144`), so a trailing newline never reaches the validator.

## Left out

- **Terminal I/O:** printing, colours, `clear_screen` and the "Press Enter" pauses. The pauses at `setup.py:273`, `277` and `318` are reached from inside the menu's `try` (`setup.py:193-209`), where end of input prints "Setup cancelled." and exits with status 0; the model does not consume a line for them. The one pause outside any `try`, `setup.py:232` before the name prompt, would end the script with a traceback at end of input; that path is not modelled.
- **Interrupts:** `KeyboardInterrupt` is not modelled. End of input ends the menu and the name prompt as `Cancelled`.
- **Subprocesses** (`cargo upgrade`, `npm install -g pnpm`, `pnpm install`, `wasm-pack`, `cargo test`, `pnpm test:e2e`): each is reduced to whether it succeeded. Their output is not modelled.
- **PATH re-check in `action_ensure_pnpm`.** The function checks the PATH again. The model assumes the PATH does not change between detection and installation.
- **`delete_script`:** a boolean saying whether the deletion works. It prints a warning on failure and never fails the run.
- **File encodings:** a file that cannot be read as UTF-8 is the `Unreadable` case. The `writable` flag says whether `open(path, 'w')` succeeds; a refused open leaves the file as it was.
- **Floating point:** `f64` is modelled as `real`, so rounding error, NaN and infinities are not. `RoundToU32` models `round` and the saturating `as u32` cast on reals.
- **Random generator:** its draws are `Sample` parameters constrained to its ranges.
- **Host objects:** the canvas, the 2D context, the DOM and `requestAnimationFrame` are replies and recorded call traces. `serde` export of the drawing state is a value copy.
- **Closure lifetime:** dropping the handle and the disposal of the self-referencing render-loop closure are not modelled. The closure keeps itself alive through a reference cycle, so it is never released.
- **Other code not part of this model:**
  - the static development server (`cli/src/server.rs`) and the file check of `cli/src/commands/serve_cmd.rs`;
  - process spawning and its status check (`cli/src/process_runner.rs`);
  - the one-line delegates and dispatch in `cli/src/commands/dev_cmd.rs`, `cli/src/commands/build_cmd.rs` and `cli/src/main.rs`;
  - the manifest-directory lookup of `cli/src/paths.rs`;
  - argument parsing with clap (`cli/src/args.rs`);
  - the JavaScript glue and end-to-end test set-up (`static/js/appManager.js`, `static/main.js`, `e2e_tests/testUtils.js`, `playwright.config.js`);
  - the start-up hook and allocator of `app/src/lib.rs`, the frame-request helper of `app/src/utils.rs`, and the placeholder `base/src/logic.rs`;
  - the element-building details of `app/src/dom_creation.rs`, whose outcome is the `DomReply` parameter.
- TextEdit.ReplaceInFileContents: a write at `setup.py:83` that fails after the truncating `open(file_path, 'w')` at `setup.py:82` (a full disk, an exhausted quota, a failing flush on close) leaves the file empty or partly written while the function returns False; the model treats every write failure as a refused open, so a failed edit leaves the file unchanged.
- SetupActions.Rename: for the same reason, its promise that a failed edit leaves `package.json` or the README as it was covers only a refused open, not a write that fails after `setup.py:82` truncated the file.
- SetupActions.CleanReadmeFile: a write at `setup.py:102` that fails after the truncating open at `setup.py:101` leaves the README empty or partly written; the model's unwritable README is left unchanged.
- **Informational console output:** the `console.log` calls of `add_circle_at_point` ("Adding circle at (x, y)", `app/src/drawing_app.rs:88`), `clear_canvas` ("Clearing all shapes.", `app/src/drawing_app.rs:93`) and `start` ("Starting render loop...", `app/src/app_handle.rs:37`) are not recorded; only the `console.error` of a failed render is part of the tick trace.
- Mount.MountApp: a `DomException` reply sets `domCreated` to false, although `app/src/dom_creation.rs:39-40` may already have attached the toolbar when the second append throws; which elements a partial creation leaves is not modelled.
- **Unicode case mapping:** lower-casing and capitalisation act on ASCII letters only; `str.strip` uses Python's white-space set.
- **Project name argument:** `SetupActions.ChooseMode` and `SetupActions.ChooseModeStrict` decide only the mode. The argparse layer that yields the optional argument is not modelled.

## Findings

| source | as written | input that shows it | evidently intended | confidence | as-written member | corrected member |
|---|---|---|---|---|---|---|
| setup.py:61 | `re.match` with a `$` anchor, which also matches just before a final newline | the command-line name "app\n" is accepted, and the newline is written into package.json's name field | accept only names that fully match the pattern | high (not executed) | SetupActions.ChooseModeAcceptsTrailingNewline | SetupActions.ChooseModeStrict |
| setup.py:200-203, 271-278 | after a refused run, the menu returns "done", which ends the interactive session | cargo missing, all actions selected, answer "g": the message says "Press Enter to return to the menu..." but the script exits without running anything | return to the menu after a validation refusal | high (not executed) | SetupActions.InteractiveSessionEndsOnRefusal | SetupActions.InteractiveSessionFixed |

=== FILE: app_handle.dfy ===
/** The handle given to JavaScript: it owns the application, the two listener
    closures and, once started, the render-loop handle. Each exported method
    delegates to the application or to the render loop. */
module AppHandle {
  import opened Wrappers
  import opened State
  import opened DrawingApp
  import opened EventListeners
  import opened Rendering

  datatype Handle = Handle(app: App, listeners: seq<Listener>, renderLoop: Option<RenderLoop>)

  /** The handle after a fallible call, the call's result, and what it asked of the host. */
  datatype HandleStep = HandleStep(handle: Handle, outcome: Outcome<JsError>, calls: seq<HostCall>)

  /** `initializeRenderer`: the application's own initialisation, result passed through. */
  function InitializeRenderer(h: Handle, reply: ContextReply): (r: HandleStep)
    ensures r.outcome == DrawingApp.InitializeRenderer(h.app, reply).outcome
    ensures r.handle.app == DrawingApp.InitializeRenderer(h.app, reply).app
    ensures r.outcome.Pass? <==> reply == Context2d
    ensures r.outcome.Pass? ==> r.handle.app.contextBound
    ensures r.outcome.Fail? ==> r.handle == h
    ensures r.handle.listeners == h.listeners && r.handle.renderLoop == h.renderLoop
    ensures r.calls == []
  {
    var s := DrawingApp.InitializeRenderer(h.app, reply);
    HandleStep(h.(app := s.app), s.outcome, [])
  }

  /** `start`: starts the render loop and keeps its handle; on failure the stored handle is kept as it was. */
  function Start(h: Handle, callback: nat, reply: Option<int>): (r: HandleStep)
    ensures r.calls == [RequestFrame(callback)]
    ensures reply.Some? ==> r.outcome == Pass && r.handle == h.(renderLoop := Some(RenderLoop(callback)))
    ensures reply.None? ==> r.outcome == Fail(HostException) && r.handle == h
    ensures r.handle.app == h.app
  {
    var started := StartRenderLoop(callback, reply);
    match started.result
    case Ok(loop) => HandleStep(h.(renderLoop := Some(loop)), Pass, started.calls)
    case Err(e) => HandleStep(h, Fail(e), started.calls)
  }

  /** `addCircleAtPoint`: one shape appended at `(x, y)`, nothing else changed. */
  function AddCircleAtPoint(h: Handle, x: real, y: real, d: Sample): (r: Handle)
    requires ValidSample(d)
    ensures |r.app.state.shapes| == |h.app.state.shapes| + 1
    ensures r.app.state.shapes[..|h.app.state.shapes|] == h.app.state.shapes
    ensures r.app.state.shapes[|h.app.state.shapes|].x == x && r.app.state.shapes[|h.app.state.shapes|].y == y
    ensures GeneratedShape(r.app.state.shapes[|h.app.state.shapes|])
    ensures r.listeners == h.listeners && r.renderLoop == h.renderLoop
    ensures r.app.contextBound == h.app.contextBound && r.app.canvas == h.app.canvas
  {
    h.(app := DrawingApp.AddCircleAtPoint(h.app, x, y, d))
  }

  /** `clearCanvas`: every shape removed, nothing else changed. */
  function ClearCanvas(h: Handle): (r: Handle)
    ensures |r.app.state.shapes| == 0
    ensures r.listeners == h.listeners && r.renderLoop == h.renderLoop
    ensures r.app.contextBound == h.app.contextBound && r.app.canvas == h.app.canvas
  {
    h.(app := DrawingApp.ClearCanvas(h.app))
  }

  /** `getDrawingState`: the current shapes, exported as a copy. */
  function GetDrawingState(h: Handle): (s: DrawingState)
    ensures s == h.app.state
    ensures StateEq(s, h.app.state)
    ensures |s.shapes| == |h.app.state.shapes|
  {
    DrawingApp.GetDrawingState(h.app)
  }
}

=== FILE: build.dfy ===
/** Argument construction of the WASM build: `wasm-pack build` for the web
    target into the output directory, in debug or release mode. */
module Build {
  import opened Wrappers
  import opened CliCommand

  const ReleaseFeatures: string := "default wee_alloc"

  /** The mode flags that follow the seven fixed arguments. */
  function ModeArgs(debugMode: bool): (m: seq<string>)
    ensures debugMode ==> m == ["--dev"]
    ensures !debugMode ==> m == ["--release", "--features", ReleaseFeatures]
  {
    if debugMode then ["--dev"] else ["--release", "--features", ReleaseFeatures]
  }

  /** The build command. `wasm-pack` must be installed, checked first; then the
      output directory must be valid UTF-8 to be passed as an argument. */
  function BuildCommand(cratePath: Path, outDir: Path, debugMode: bool, hasWasmPack: bool): (r: Result<Command, CliError>)
    ensures !hasWasmPack ==> r == Err(WasmPackMissing)
    ensures hasWasmPack && outDir.text.None? ==> r == Err(NonUtf8OutDir)
    ensures r.Ok? <==> hasWasmPack && outDir.text.Some?
    ensures r.Ok? ==>
      && r.value.program == "wasm-pack"
      && r.value.dir == Some(cratePath)
      && r.value.env == []
      && |r.value.args| == (if debugMode then 8 else 10)
      && r.value.args[..7] == ["build", "--target", "web", "--out-dir", outDir.text.value, "--out-name", "app"]
      && ("--dev" in r.value.args[7..] <==> debugMode)
      && ("--release" in r.value.args[7..] <==> !debugMode)
      && (!debugMode ==> r.value.args[8..] == ["--features", ReleaseFeatures])
  {
    if !hasWasmPack then Err(WasmPackMissing)
    else
      match outDir.text
      case None => Err(NonUtf8OutDir)
      case Some(out) =>
        var fixed := ["build", "--target", "web", "--out-dir", out, "--out-name", "app"];
        var args := fixed + ModeArgs(debugMode);
        assert args[..7] == fixed && args[7..] == ModeArgs(debugMode);
        Ok(Command("wasm-pack", args, Some(cratePath), []))
  }

  /** The mode flags never both appear among the flags after the output name. */
  lemma BuildModesExclusive(cratePath: Path, outDir: Path, debugMode: bool)
    requires outDir.text.Some?
    ensures var args := BuildCommand(cratePath, outDir, debugMode, true).value.args;
      !("--dev" in args[7..] && "--release" in args[7..])
  {
  }
}

=== FILE: cli_command.dfy ===
/** The process invocations the CLI builds. Spawning the process and checking
    its exit status are not modelled: a planner's result is the command it
    would run, and a run's outcome per spawned command is a parameter. */
module CliCommand {
  import opened Wrappers

  /** A filesystem path, with its text when the path is valid UTF-8. */
  datatype Path = Path(text: Option<string>)

  /** A program, its arguments, its working directory and extra environment variables, in order. */
  datatype Command = Command(program: string, args: seq<string>, dir: Option<Path>, env: seq<(string, string)>)

  datatype CliError =
    | WasmPackMissing              // `wasm-pack --version` could not be run
    | UnsupportedBrowser(name: string)
    | NonUtf8OutDir
    | CommandFailed(command: Command)
}

=== FILE: console_utils.dfy ===
/** The end-to-end tests' console filter: of the messages the browser logged, the
    critical errors are those of type `error` whose text does not mention
    `favicon.ico` (a missing favicon is a known, harmless 404). */
module ConsoleUtils {
  import opened Strings

  /** A console message as the browser reports it: its text and its type. */
  datatype ConsoleMessage = ConsoleMessage(text: string, kind: string)

  predicate IsError(m: ConsoleMessage) {
    m.kind == "error"
  }

  /** The known harmless errors. */
  predicate Benign(m: ConsoleMessage) {
    Contains(m.text, "favicon.ico")
  }

  predicate Critical(m: ConsoleMessage) {
    IsError(m) && !Benign(m)
  }

  /** `a` is `b` with some elements left out, the rest in their order. */
  predicate Subsequence<T(==)>(a: seq<T>, b: seq<T>)
    decreases |b|
  {
    || |a| == 0
    || (|b| > 0 && ((a[0] == b[0] && Subsequence(a[1..], b[1..])) || Subsequence(a, b[1..])))
  }

  /** The elements satisfying `keep`, in their order: JavaScript's `Array.prototype.filter`. */
  function Filter<T>(s: seq<T>, keep: T -> bool): (r: seq<T>)
    ensures |r| <= |s|
    ensures forall k :: 0 <= k < |r| ==> keep(r[k]) && r[k] in s
    decreases |s|
  {
    if |s| == 0 then []
    else (if keep(s[0]) then [s[0]] else []) + Filter(s[1..], keep)
  }

  /** What the filter keeps: every element satisfying `keep`, as often as it occurs, and
      nothing else. */
  lemma {:induction false} FilterCounts<T>(s: seq<T>, keep: T -> bool, x: T)
    ensures multiset(Filter(s, keep))[x] == if keep(x) then multiset(s)[x] else 0
    decreases |s|
  {
    if |s| > 0 {
      FilterCounts(s[1..], keep, x);
      assert s == [s[0]] + s[1..];
      assert multiset(s) == multiset([s[0]]) + multiset(s[1..]);
    }
  }

  /** The filter keeps the order: its result is a subsequence of its input. */
  lemma {:induction false} FilterSubsequence<T>(s: seq<T>, keep: T -> bool)
    ensures Subsequence(Filter(s, keep), s)
    decreases |s|
  {
    if |s| > 0 {
      FilterSubsequence(s[1..], keep);
      var rest := Filter(s[1..], keep);
      if keep(s[0]) {
        assert Filter(s, keep) == [s[0]] + rest;
        assert ([s[0]] + rest)[1..] == rest;
      } else {
        assert Filter(s, keep) == rest;
      }
    }
  }

  /** Filtering distributes over concatenation. */
  lemma {:induction false} FilterAppend<T>(a: seq<T>, b: seq<T>, keep: T -> bool)
    ensures Filter(a + b, keep) == Filter(a, keep) + Filter(b, keep)
    decreases |a|
  {
    if |a| == 0 {
      assert a + b == b;
    } else {
      FilterAppend(a[1..], b, keep);
      assert (a + b)[1..] == a[1..] + b;
    }
  }

  /** Filtering what satisfies `keep` changes nothing. */
  lemma {:induction false} FilterAllKept<T>(s: seq<T>, keep: T -> bool)
    requires forall k :: 0 <= k < |s| ==> keep(s[k])
    ensures Filter(s, keep) == s
    decreases |s|
  {
    if |s| > 0 {
      FilterAllKept(s[1..], keep);
    }
  }

  /** Filtering twice by `p` then `q` is filtering once by both. */
  lemma {:induction false} FilterFilter<T>(s: seq<T>, p: T -> bool, q: T -> bool, both: T -> bool)
    requires forall x :: both(x) == (p(x) && q(x))
    ensures Filter(Filter(s, p), q) == Filter(s, both)
    decreases |s|
  {
    if |s| > 0 {
      FilterFilter(s[1..], p, q, both);
      FilterAppend(if p(s[0]) then [s[0]] else [], Filter(s[1..], p), q);
    }
  }

  /** `getCriticalConsoleErrors`: the errors, then those not known to be harmless. */
  function CriticalErrors(messages: seq<ConsoleMessage>): (r: seq<ConsoleMessage>)
    ensures forall k :: 0 <= k < |r| ==> IsError(r[k]) && !Benign(r[k])
    ensures |r| <= |messages|
  {
    Filter(Filter(messages, IsError), m => !Benign(m))
  }

  /** The critical errors are exactly the messages that are errors and not harmless. */
  lemma CriticalIsFilter(messages: seq<ConsoleMessage>)
    ensures CriticalErrors(messages) == Filter(messages, Critical)
  {
    FilterFilter(messages, IsError, m => !Benign(m), Critical);
  }

  /** Every critical message is kept, as often as it was logged; nothing else is. */
  lemma CriticalCounts(messages: seq<ConsoleMessage>, m: ConsoleMessage)
    ensures multiset(CriticalErrors(messages))[m] == if Critical(m) then multiset(messages)[m] else 0
    ensures m in CriticalErrors(messages) <==> m in messages && Critical(m)
  {
    CriticalIsFilter(messages);
    FilterCounts(messages, Critical, m);
  }

  /** The critical errors appear in the order they were logged. */
  lemma CriticalSubsequence(messages: seq<ConsoleMessage>)
    ensures Subsequence(CriticalErrors(messages), messages)
  {
    CriticalIsFilter(messages);
    FilterSubsequence(messages, Critical);
  }

  /** Filtering the critical errors again changes nothing. */
  lemma CriticalIdempotent(messages: seq<ConsoleMessage>)
    ensures CriticalErrors(CriticalErrors(messages)) == CriticalErrors(messages)
  {
    var r := CriticalErrors(messages);
    CriticalIsFilter(r);
    FilterAllKept(r, Critical);
  }

  /** The messages of two test phases are filtered phase by phase. */
  lemma CriticalAppend(a: seq<ConsoleMessage>, b: seq<ConsoleMessage>)
    ensures CriticalErrors(a + b) == CriticalErrors(a) + CriticalErrors(b)
  {
    CriticalIsFilter(a + b);
    CriticalIsFilter(a);
    CriticalIsFilter(b);
    FilterAppend(a, b, Critical);
  }
}

=== FILE: drawing_app.dfy ===
/** The core application object of the `app` crate: the drawing state, the
    optional 2D rendering context, the canvas backing-buffer size and the last
    animation-frame id, with the operations the render loop and the event
    handlers call.

    The canvas and its context are not objects here: the context is a flag
    (bound or not), the buffer is its size, and drawing is a trace of the
    2D-context calls made, in order. */
module DrawingApp {
  import opened Wrappers
  import opened State

  /** Largest value of a Rust `u32`, the type of the canvas buffer dimensions. */
  const U32Max: nat := 0xFFFF_FFFF

  /** The buffer size a newly created canvas element has (HTML standard: 300 by 150). */
  const DefaultCanvasWidth: nat := 300
  const DefaultCanvasHeight: nat := 150

  const NotInitializedMessage: string := "Rendering context not initialized"
  const NoContextMessage: string := "Failed to get 2D context"

  /** A canvas backing-buffer size in pixels. */
  datatype Size = Size(width: nat, height: nat)

  /** A bounding client rectangle, in CSS pixels. */
  datatype Rect = Rect(left: real, top: real, width: real, height: real)

  /** An error value: a message built by the application, or a value the host supplied.
      `HostException` stands for any such host value: an exception the host threw, or, when
      a cast fails, the object that could not be cast, returned as the error. */
  datatype JsError = Message(text: string) | HostException

  /** How the host answers a request for a 2D context. */
  datatype ContextReply =
    | ContextThrows     // `getContext` threw
    | NoContext         // `getContext` returned null
    | OtherContext      // the returned object is not a 2D context; it becomes the error
    | Context2d         // a 2D rendering context

  datatype App = App(
    state: DrawingState,
    contextBound: bool,
    canvas: Size,
    frameId: Option<int>)

  /** One call on the 2D rendering context. `Arc` is a full circle, angle 0 to 2 pi. */
  datatype DrawCommand =
    | ClearRect(x: real, y: real, width: real, height: real)
    | BeginPath
    | Arc(cx: real, cy: real, radius: real)
    | SetFillStyle(color: string)
    | Fill

  /** What one `render_frame` call drew, and whether it returned an error. */
  datatype Frame = Frame(drawn: seq<DrawCommand>, outcome: Outcome<JsError>)

  /** The application state after a fallible operation, and its result. */
  datatype Step = Step(app: App, outcome: Outcome<JsError>)

  /** The application state after `resize_canvas`, and whether the buffer size was written. */
  datatype Resized = Resized(app: App, written: bool)

  /** A new application: no shapes, no context, no animation frame yet. */
  function New(canvas: Size): (a: App)
    ensures |a.state.shapes| == 0 && WellFormed(a.state)
    ensures !a.contextBound
    ensures a.frameId.None?
    ensures a.canvas == canvas
  {
    App(State.New(), false, canvas, None)
  }

  /** Binds the 2D context when the host provides one; any failure leaves the application as it was. */
  function InitializeRenderer(app: App, reply: ContextReply): (r: Step)
    ensures reply == Context2d <==> r.outcome.Pass?
    ensures r.outcome.Pass? ==> r.app == app.(contextBound := true)
    ensures r.outcome.Fail? ==> r.app == app
    ensures reply == NoContext ==> r.outcome == Fail(Message(NoContextMessage))
  {
    match reply
    case ContextThrows => Step(app, Fail(HostException))
    case NoContext => Step(app, Fail(Message(NoContextMessage)))
    case OtherContext => Step(app, Fail(HostException))
    case Context2d => Step(app.(contextBound := true), Pass)
  }

  /** Rust's `f64::round` followed by a saturating `as u32` cast. For every real
      this equals the floor of `w + 1/2` clamped to [0, U32Max]: negative values
      round to a non-positive number and saturate to 0 either way. */
  function RoundToU32(w: real): (n: nat)
    ensures n <= U32Max
  {
    var k := (w + 0.5).Floor;
    if k < 0 then 0 else if k > U32Max then U32Max else k
  }

  /** A layout size in range rounds to a whole number at most half a pixel away. */
  lemma RoundToU32Nearest(w: real)
    requires 0.0 <= w <= U32Max as real
    ensures -0.5 < RoundToU32(w) as real - w <= 0.5
  {
  }

  /** A whole-pixel layout size is kept exactly. */
  lemma RoundToU32Whole(n: nat)
    requires n <= U32Max
    ensures RoundToU32(n as real) == n
  {
    assert (n as real + 0.5).Floor == n;
  }

  /** Sets the buffer to the rounded layout size, writing only when it differs. */
  function ResizeCanvas(app: App, layout: Rect): (r: Resized)
    ensures r.app.canvas == Size(RoundToU32(layout.width), RoundToU32(layout.height))
    ensures r.app.state == app.state && r.app.contextBound == app.contextBound
    ensures r.app.frameId == app.frameId
    ensures r.written <==> app.canvas != r.app.canvas
    ensures !r.written ==> r.app == app
  {
    var target := Size(RoundToU32(layout.width), RoundToU32(layout.height));
    if app.canvas != target then Resized(app.(canvas := target), true)
    else Resized(app, false)
  }

  /** Resizing twice against the same layout writes nothing the second time. */
  lemma ResizeCanvasIdempotent(app: App, layout: Rect)
    ensures !ResizeCanvas(ResizeCanvas(app, layout).app, layout).written
    ensures ResizeCanvas(ResizeCanvas(app, layout).app, layout).app == ResizeCanvas(app, layout).app
  {
  }

  /** The four context calls that paint one shape as a filled circle. */
  function ShapeCommands(s: Shape): seq<DrawCommand> {
    [BeginPath, Arc(s.x, s.y, s.radius), SetFillStyle(s.color), Fill]
  }

  predicate NonNegativeRadii(shapes: seq<Shape>) {
    forall i :: 0 <= i < |shapes| ==> shapes[i].radius >= 0.0
  }

  /** Paints the shapes in order. The host's `arc` throws on a negative radius,
      which ends the frame with that exception after the path was begun. */
  function PaintShapes(shapes: seq<Shape>): (f: Frame)
    ensures f.outcome.Fail? <==> !NonNegativeRadii(shapes)
    ensures f.outcome.Fail? ==> f.outcome == Fail(HostException)
    ensures NonNegativeRadii(shapes) ==> |f.drawn| == 4 * |shapes|
    decreases |shapes|
  {
    if |shapes| == 0 then Frame([], Pass)
    else if shapes[0].radius < 0.0 then Frame([BeginPath], Fail(HostException))
    else
      var rest := PaintShapes(shapes[1..]);
      assert NonNegativeRadii(shapes) <==> NonNegativeRadii(shapes[1..]);
      Frame(ShapeCommands(shapes[0]) + rest.drawn, rest.outcome)
  }

  /** The i-th shape is painted by calls 4i to 4i+3: begin a path, a full arc
      with the shape's centre and radius, its colour as fill style, fill. */
  lemma {:induction false} PaintShapesAt(shapes: seq<Shape>, i: nat)
    requires NonNegativeRadii(shapes) && i < |shapes|
    ensures |PaintShapes(shapes).drawn| == 4 * |shapes|
    ensures PaintShapes(shapes).drawn[4 * i] == BeginPath
    ensures PaintShapes(shapes).drawn[4 * i + 1] == Arc(shapes[i].x, shapes[i].y, shapes[i].radius)
    ensures PaintShapes(shapes).drawn[4 * i + 2] == SetFillStyle(shapes[i].color)
    ensures PaintShapes(shapes).drawn[4 * i + 3] == Fill
    decreases i
  {
    var rest := PaintShapes(shapes[1..]);
    assert PaintShapes(shapes).drawn == ShapeCommands(shapes[0]) + rest.drawn;
    if i > 0 {
      PaintShapesAt(shapes[1..], i - 1);
    }
  }

  /** Clears the whole buffer and paints every shape, or fails without drawing when no context is bound. */
  function RenderFrame(app: App): (f: Frame)
    ensures !app.contextBound ==> f.drawn == [] && f.outcome == Fail(Message(NotInitializedMessage))
    ensures app.contextBound ==>
      |f.drawn| >= 1 && f.drawn[0] == ClearRect(0.0, 0.0, app.canvas.width as real, app.canvas.height as real)
    ensures app.contextBound && NonNegativeRadii(app.state.shapes) ==>
      f.outcome == Pass && |f.drawn| == 1 + 4 * |app.state.shapes|
    ensures app.contextBound ==> (f.outcome.Fail? <==> !NonNegativeRadii(app.state.shapes))
  {
    if !app.contextBound then Frame([], Fail(Message(NotInitializedMessage)))
    else
      var p := PaintShapes(app.state.shapes);
      Frame([ClearRect(0.0, 0.0, app.canvas.width as real, app.canvas.height as real)] + p.drawn, p.outcome)
  }

  /** Reads a paint trace back as the circles it draws, four calls per circle. */
  function DecodeCircles(cmds: seq<DrawCommand>): Option<seq<Shape>>
    decreases |cmds|
  {
    if |cmds| == 0 then Some([])
    else if |cmds| >= 4 && cmds[0] == BeginPath && cmds[1].Arc? && cmds[2].SetFillStyle? && cmds[3] == Fill then
      match DecodeCircles(cmds[4..])
      case None => None
      case Some(rest) => Some([Shape(cmds[1].cx, cmds[1].cy, cmds[1].radius, cmds[2].color)] + rest)
    else None
  }

  /** Painting draws exactly the shapes of the state, in insertion order. */
  lemma {:induction false} PaintShapesDecodes(shapes: seq<Shape>)
    requires NonNegativeRadii(shapes)
    ensures DecodeCircles(PaintShapes(shapes).drawn) == Some(shapes)
    decreases |shapes|
  {
    if |shapes| > 0 {
      PaintShapesDecodes(shapes[1..]);
      var cmds := PaintShapes(shapes).drawn;
      assert cmds == ShapeCommands(shapes[0]) + PaintShapes(shapes[1..]).drawn;
      assert cmds[4..] == PaintShapes(shapes[1..]).drawn;
      assert [shapes[0]] + shapes[1..] == shapes;
    }
  }

  /** A rendered frame clears first and then draws every shape, in insertion order. */
  lemma RenderFrameDrawsState(app: App)
    requires app.contextBound && NonNegativeRadii(app.state.shapes)
    ensures RenderFrame(app).outcome == Pass
    ensures RenderFrame(app).drawn[0] == ClearRect(0.0, 0.0, app.canvas.width as real, app.canvas.height as real)
    ensures DecodeCircles(RenderFrame(app).drawn[1..]) == Some(app.state.shapes)
  {
    PaintShapesDecodes(app.state.shapes);
    assert RenderFrame(app).drawn[1..] == PaintShapes(app.state.shapes).drawn;
  }

  /** Shapes made by `add_shape` have radius at least 10, so their frame never fails. */
  lemma WellFormedRenders(app: App)
    requires app.contextBound && WellFormed(app.state)
    ensures RenderFrame(app).outcome == Pass
    ensures |RenderFrame(app).drawn| == 1 + 4 * |app.state.shapes|
  {
    assert NonNegativeRadii(app.state.shapes) by {
      forall i | 0 <= i < |app.state.shapes|
        ensures app.state.shapes[i].radius >= 0.0
      {
        assert GeneratedShape(app.state.shapes[i]);
      }
    }
  }

  /** Appends exactly one shape at `(x, y)`; nothing else changes. */
  function AddCircleAtPoint(app: App, x: real, y: real, d: Sample): (r: App)
    requires ValidSample(d)
    ensures |r.state.shapes| == |app.state.shapes| + 1
    ensures r.state.shapes[..|app.state.shapes|] == app.state.shapes
    ensures r.state.shapes[|app.state.shapes|].x == x && r.state.shapes[|app.state.shapes|].y == y
    ensures GeneratedShape(r.state.shapes[|app.state.shapes|])
    ensures r.contextBound == app.contextBound && r.canvas == app.canvas && r.frameId == app.frameId
  {
    app.(state := AddShape(app.state, x, y, d))
  }

  /** Removes every shape; nothing else changes. */
  function ClearCanvas(app: App): (r: App)
    ensures |r.state.shapes| == 0
    ensures r.contextBound == app.contextBound && r.canvas == app.canvas && r.frameId == app.frameId
  {
    app.(state := ClearShapes(app.state))
  }

  /** A copy of the current shapes, as exported to the host. */
  function GetDrawingState(app: App): (s: DrawingState)
    ensures s == app.state
    ensures StateEq(s, app.state)
    ensures |s.shapes| == |app.state.shapes|
  {
    app.state
  }
}

=== FILE: e2e_cmd.dfy ===
/** Argument construction of the `e2e` subcommand: `pnpm test:e2e` with at most
    one mode flag, an optional Playwright project and pass-through arguments. */
module E2eCmd {
  import opened Wrappers
  import opened CliCommand

  /** The mode flag, if any: `--ui` wins over `--debug`, which wins over `--headed`. */
  function ModeFlag(ui: bool, debug: bool, headed: bool): (f: seq<string>)
    ensures |f| <= 1
    ensures |f| == 1 <==> ui || debug || headed
    ensures ui ==> f == ["--ui"]
    ensures !ui && debug ==> f == ["--debug"]
    ensures !ui && !debug && headed ==> f == ["--headed"]
  {
    if ui then ["--ui"] else if debug then ["--debug"] else if headed then ["--headed"] else []
  }

  function ProjectArgs(project: Option<string>): (p: seq<string>)
    ensures project.None? ==> p == []
    ensures project.Some? ==> p == ["--project", project.value]
  {
    match project
    case None => []
    case Some(name) => ["--project", name]
  }

  /** The `pnpm` command for the end-to-end tests, run in the workspace root with `CI=true`. */
  function E2eCommand(workspaceRoot: Path, ui: bool, debug: bool, headed: bool,
                      project: Option<string>, extra: seq<string>): (c: Command)
    ensures c.program == "pnpm" && c.dir == Some(workspaceRoot) && c.env == [("CI", "true")]
    ensures |c.args| == 1 + (if ui || debug || headed then 1 else 0) + (if project.Some? then 2 else 0) + |extra|
    ensures c.args[0] == "test:e2e"
    ensures c.args[|c.args| - |extra|..] == extra
    ensures c.args[1..1 + |ModeFlag(ui, debug, headed)|] == ModeFlag(ui, debug, headed)
    ensures var m := |ModeFlag(ui, debug, headed)|;
      project.Some? ==> c.args[1 + m] == "--project" && c.args[2 + m] == project.value
  {
    var mode := ModeFlag(ui, debug, headed);
    var proj := ProjectArgs(project);
    var args := ["test:e2e"] + mode + proj + extra;
    assert args[1..1 + |mode|] == mode;
    assert args[|args| - |extra|..] == extra;
    Command("pnpm", args, Some(workspaceRoot), [("CI", "true")])
  }

  /** Reads a mode flag, a project and the pass-through arguments back out of the
      argument list. Exact whenever the pass-through arguments do not themselves
      begin with a mode flag or `--project` (they follow those positions). */
  function DecodeE2eArgs(args: seq<string>): Option<(seq<string>, Option<string>, seq<string>)> {
    if |args| == 0 || args[0] != "test:e2e" then None
    else
      var rest := args[1..];
      var mode := DecodeMode(rest);
      var rest2 := rest[|mode|..];
      if |rest2| >= 2 && rest2[0] == "--project" then Some((mode, Some(rest2[1]), rest2[2..]))
      else Some((mode, None, rest2))
  }

  /** Flags that the decoder would read as a mode flag or a project. */
  predicate Reserved(arg: string) {
    arg in ["--ui", "--debug", "--headed", "--project"]
  }

  /** Building the argument list and reading it back recovers the chosen mode,
      project and pass-through arguments, when the latter start with no reserved flag. */
  lemma DecodeE2eCommand(root: Path, ui: bool, debug: bool, headed: bool, project: Option<string>, extra: seq<string>)
    requires |extra| > 0 ==> !Reserved(extra[0])
    ensures DecodeE2eArgs(E2eCommand(root, ui, debug, headed, project, extra).args)
      == Some((ModeFlag(ui, debug, headed), project, extra))
  {
    var mode := ModeFlag(ui, debug, headed);
    var tail := ProjectArgs(project) + extra;
    assert E2eCommand(root, ui, debug, headed, project, extra).args == ["test:e2e"] + (mode + tail);
    DecodeParts(mode, project, extra);
  }

  /** The decoder on an argument list of the built shape. */
  lemma DecodeParts(mode: seq<string>, project: Option<string>, extra: seq<string>)
    requires mode == [] || (|mode| == 1 && mode[0] in ["--ui", "--debug", "--headed"])
    requires |extra| > 0 ==> !Reserved(extra[0])
    ensures DecodeE2eArgs(["test:e2e"] + (mode + (ProjectArgs(project) + extra))) == Some((mode, project, extra))
  {
    var tail := ProjectArgs(project) + extra;
    var args := ["test:e2e"] + (mode + tail);
    assert args[1..] == mode + tail;
    assert DecodeMode(mode + tail) == mode by {
      DecodeModeOf(mode, tail, project, extra);
    }
    assert (mode + tail)[|mode|..] == tail;
    DecodeProjectOf(project, extra);
  }

  /** The mode flag the decoder reads at the front of `rest`. */
  function DecodeMode(rest: seq<string>): (mode: seq<string>)
    ensures |mode| <= |rest|
  {
    if |rest| > 0 && rest[0] in ["--ui", "--debug", "--headed"] then [rest[0]] else []
  }

  lemma DecodeModeOf(mode: seq<string>, tail: seq<string>, project: Option<string>, extra: seq<string>)
    requires mode == [] || (|mode| == 1 && mode[0] in ["--ui", "--debug", "--headed"])
    requires tail == ProjectArgs(project) + extra
    requires |extra| > 0 ==> !Reserved(extra[0])
    ensures DecodeMode(mode + tail) == mode
  {
    if |mode| == 1 {
      assert (mode + tail)[0] == mode[0];
    } else if |tail| > 0 {
      assert (mode + tail)[0] == tail[0];
      if project.None? {
        assert tail[0] == extra[0];
      }
    }
  }

  lemma DecodeProjectOf(project: Option<string>, extra: seq<string>)
    requires |extra| > 0 ==> !Reserved(extra[0])
    ensures var tail := ProjectArgs(project) + extra;
      (|tail| >= 2 && tail[0] == "--project") <==> project.Some?
    ensures project.Some? ==> (ProjectArgs(project) + extra)[1] == project.value
    ensures project.Some? ==> (ProjectArgs(project) + extra)[2..] == extra
    ensures project.None? ==> ProjectArgs(project) + extra == extra
  {
    var tail := ProjectArgs(project) + extra;
    if project.Some? {
      assert tail[2..] == extra;
    } else if |tail| > 0 {
      assert tail[0] == extra[0];
    }
  }
}

=== FILE: event_listeners.dfy ===
/** The two input listeners the application registers: a mouse-down on the
    canvas adds a circle at the mouse position, mapped from CSS pixels into canvas
    buffer pixels; a click on the clear button removes every circle.

    Listener registration is modelled by whether the host accepts each
    `addEventListener` call. */
module EventListeners {
  import opened Wrappers
  import opened State
  import opened DrawingApp

  /** A point in canvas-buffer pixels. */
  datatype Point = Point(x: real, y: real)

  /** Maps a mouse position (integer client coordinates) into buffer space:
      the offset from the rectangle's corner, scaled by buffer size over layout size. */
  function MapPoint(clientX: int, clientY: int, rect: Rect, canvas: Size): (p: Point)
    requires rect.width > 0.0 && rect.height > 0.0
    ensures p.x * rect.width == (clientX as real - rect.left) * canvas.width as real
    ensures p.y * rect.height == (clientY as real - rect.top) * canvas.height as real
  {
    var scaleX := canvas.width as real / rect.width;
    var scaleY := canvas.height as real / rect.height;
    var p := Point((clientX as real - rect.left) * scaleX, (clientY as real - rect.top) * scaleY);
    assert p.x * rect.width == (clientX as real - rect.left) * (scaleX * rect.width);
    assert p.y * rect.height == (clientY as real - rect.top) * (scaleY * rect.height);
    p
  }

  /** The inverse transform, from buffer space back to client coordinates. */
  function UnmapPoint(p: Point, rect: Rect, canvas: Size): (c: (real, real))
    requires canvas.width > 0 && canvas.height > 0
  {
    (rect.left + p.x * rect.width / canvas.width as real,
     rect.top + p.y * rect.height / canvas.height as real)
  }

  lemma DivCancel(a: real, w: real)
    requires w != 0.0
    ensures a * w / w == a
  {
  }

  /** Mapping a click and mapping it back returns the click, whenever the buffer is not empty. */
  lemma UnmapMapPoint(clientX: int, clientY: int, rect: Rect, canvas: Size)
    requires rect.width > 0.0 && rect.height > 0.0
    requires canvas.width > 0 && canvas.height > 0
    ensures UnmapPoint(MapPoint(clientX, clientY, rect, canvas), rect, canvas) == (clientX as real, clientY as real)
  {
    var p := MapPoint(clientX, clientY, rect, canvas);
    var w, h := canvas.width as real, canvas.height as real;
    DivCancel(clientX as real - rect.left, w);
    DivCancel(clientY as real - rect.top, h);
    assert p.x * rect.width / w == clientX as real - rect.left;
    assert p.y * rect.height / h == clientY as real - rect.top;
    var c := UnmapPoint(p, rect, canvas);
    assert c.0 == rect.left + (clientX as real - rect.left);
    assert c.1 == rect.top + (clientY as real - rect.top);
  }

  /** The rectangle's top-left corner maps to buffer (0, 0) and its bottom-right corner to (width, height). */
  lemma MapPointCorners(clientX: int, clientY: int, rect: Rect, canvas: Size)
    requires rect.width > 0.0 && rect.height > 0.0
    ensures clientX as real == rect.left && clientY as real == rect.top ==>
      MapPoint(clientX, clientY, rect, canvas) == Point(0.0, 0.0)
    ensures clientX as real == rect.left + rect.width && clientY as real == rect.top + rect.height ==>
      MapPoint(clientX, clientY, rect, canvas) == Point(canvas.width as real, canvas.height as real)
  {
    var p := MapPoint(clientX, clientY, rect, canvas);
    if clientX as real == rect.left + rect.width && clientY as real == rect.top + rect.height {
      assert p.x * rect.width == rect.width * canvas.width as real;
      assert p.y * rect.height == rect.height * canvas.height as real;
    }
  }

  /** When the buffer has exactly the layout size, mapping is a pure translation. */
  lemma MapPointTranslation(clientX: int, clientY: int, rect: Rect, canvas: Size)
    requires rect.width > 0.0 && rect.height > 0.0
    requires canvas.width as real == rect.width && canvas.height as real == rect.height
    ensures MapPoint(clientX, clientY, rect, canvas) == Point(clientX as real - rect.left, clientY as real - rect.top)
  {
    var p := MapPoint(clientX, clientY, rect, canvas);
    assert (p.x - (clientX as real - rect.left)) * rect.width == 0.0;
    assert (p.y - (clientY as real - rect.top)) * rect.height == 0.0;
  }

  lemma MulLe(a: real, b: real, c: real)
    requires a <= b && c >= 0.0
    ensures a * c <= b * c
  {
    assert (b - a) * c >= 0.0;
  }

  lemma MulLt(a: real, b: real, c: real)
    requires a < b && c > 0.0
    ensures a * c < b * c
  {
    assert (b - a) * c > 0.0;
  }

  /** The error between the mapped and the CSS offset, for one axis: at most
      the buffer-versus-layout size difference, for an offset inside the rectangle. */
  lemma ScaledOffsetError(offset: real, layout: real, buffer: real, mapped: real)
    requires layout > 0.0 && 0.0 <= offset <= layout
    requires mapped * layout == offset * buffer
    requires -0.5 < buffer - layout <= 0.5
    ensures -0.5 <= mapped - offset <= 0.5
  {
    var e, m := buffer - layout, mapped - offset;
    assert m * layout == offset * e;
    if e >= 0.0 {
      MulLe(offset, layout, e);
      MulLe(e, 0.5, layout);
      assert layout * e == e * layout;
      calc {
        m * layout;
      ==
        offset * e;
      <=
        layout * e;
      <=
        0.5 * layout;
      }
      if m > 0.5 { MulLt(0.5, m, layout); }
      MulLe(0.0, offset, e);
      if m < 0.0 { MulLt(m, 0.0, layout); }
    } else {
      MulLe(offset, layout, -e);
      MulLe(-0.5, e, layout);
      assert layout * -e == -(e * layout);
      assert offset * -e == -(offset * e);
      calc {
        m * layout;
      ==
        offset * e;
      >=
        e * layout;
      >=
        -0.5 * layout;
      }
      if m < -0.5 { MulLt(m, -0.5, layout); }
      MulLe(0.0, offset, -e);
      if m > 0.0 { MulLt(0.0, m, layout); }
    }
  }

  /** After `resize_canvas`, a click inside the canvas lands within half a buffer pixel
      of its CSS offset, which is what the end-to-end test's one-pixel tolerance relies on. */
  lemma MapPointAfterResize(clientX: int, clientY: int, rect: Rect, app: App)
    requires 0.0 < rect.width <= U32Max as real && 0.0 < rect.height <= U32Max as real
    requires rect.left <= clientX as real <= rect.left + rect.width
    requires rect.top <= clientY as real <= rect.top + rect.height
    ensures var p := MapPoint(clientX, clientY, rect, ResizeCanvas(app, rect).app.canvas);
      && -0.5 <= p.x - (clientX as real - rect.left) <= 0.5
      && -0.5 <= p.y - (clientY as real - rect.top) <= 0.5
  {
    var canvas := ResizeCanvas(app, rect).app.canvas;
    var p := MapPoint(clientX, clientY, rect, canvas);
    RoundToU32Nearest(rect.width);
    RoundToU32Nearest(rect.height);
    ScaledOffsetError(clientX as real - rect.left, rect.width, canvas.width as real, p.x);
    ScaledOffsetError(clientY as real - rect.top, rect.height, canvas.height as real, p.y);
  }

  /** The mouse-down handler: map the mouse position with the current buffer size and add one circle there. */
  function OnMouseDown(app: App, clientX: int, clientY: int, rect: Rect, d: Sample): (r: App)
    requires rect.width > 0.0 && rect.height > 0.0
    requires ValidSample(d)
    ensures |r.state.shapes| == |app.state.shapes| + 1
    ensures r.state.shapes[..|app.state.shapes|] == app.state.shapes
    ensures var p := r.state.shapes[|app.state.shapes|];
      && p.x * rect.width == (clientX as real - rect.left) * app.canvas.width as real
      && p.y * rect.height == (clientY as real - rect.top) * app.canvas.height as real
    ensures r.contextBound == app.contextBound && r.canvas == app.canvas && r.frameId == app.frameId
  {
    var p := MapPoint(clientX, clientY, rect, app.canvas);
    AddCircleAtPoint(app, p.x, p.y, d)
  }

  /** The clear-button handler. */
  function OnClear(app: App): (r: App)
    ensures |r.state.shapes| == 0
    ensures r.contextBound == app.contextBound && r.canvas == app.canvas && r.frameId == app.frameId
  {
    ClearCanvas(app)
  }

  // ---------------------------------------------------------------------------
  // Registration

  datatype Target = CanvasElement | ClearButton

  datatype Handler = MouseDownHandler | ClearHandler

  /** One `addEventListener` registration on the host. */
  datatype Listener = Listener(target: Target, eventType: string, handler: Handler)

  /** The listeners the host holds after setup, and whether setup succeeded. */
  datatype Registration = Registration(registered: seq<Listener>, outcome: Outcome<JsError>)

  const MouseDownListener: Listener := Listener(CanvasElement, "mousedown", MouseDownHandler)
  const ClearListener: Listener := Listener(ClearButton, "click", ClearHandler)

  /** Registers the canvas listener, then the button listener; the first refusal
      by the host is returned as the error and nothing more is registered. */
  function SetupEventListeners(canvasAccepts: bool, buttonAccepts: bool): (r: Registration)
    ensures r.outcome.Pass? <==> canvasAccepts && buttonAccepts
    ensures r.outcome.Pass? ==> r.registered == [MouseDownListener, ClearListener]
    ensures r.outcome.Fail? ==> r.outcome.error == HostException && |r.registered| <= 1
    ensures !canvasAccepts ==> r.registered == []
    ensures |r.registered| <= 2
  {
    if !canvasAccepts then Registration([], Fail(HostException))
    else if !buttonAccepts then Registration([MouseDownListener], Fail(HostException))
    else Registration([MouseDownListener, ClearListener], Pass)
  }

  // ---------------------------------------------------------------------------
  // Event sequences

  /** An input event delivered to one of the two listeners. */
  datatype InputEvent =
    | CanvasMouseDown(clientX: int, clientY: int, rect: Rect, sample: Sample)
    | ClearClick

  predicate ValidEvent(e: InputEvent) {
    e.CanvasMouseDown? ==> e.rect.width > 0.0 && e.rect.height > 0.0 && ValidSample(e.sample)
  }

  predicate ValidEvents(events: seq<InputEvent>) {
    forall k :: 0 <= k < |events| ==> ValidEvent(events[k])
  }

  function HandleEvent(app: App, e: InputEvent): App
    requires ValidEvent(e)
  {
    match e
    case CanvasMouseDown(cx, cy, rect, d) => OnMouseDown(app, cx, cy, rect, d)
    case ClearClick => OnClear(app)
  }

  /** The events delivered one after another, in order. */
  function HandleEvents(app: App, events: seq<InputEvent>): App
    requires ValidEvents(events)
    decreases |events|
  {
    if |events| == 0 then app
    else HandleEvent(HandleEvents(app, events[..|events| - 1]), events[|events| - 1])
  }

  /** The shape count an event sequence leaves, from `n` shapes: each mouse-down adds one,
      each clear resets to zero. */
  function ExpectedCount(n: nat, events: seq<InputEvent>): nat
    decreases |events|
  {
    if |events| == 0 then n
    else if events[|events| - 1].ClearClick? then 0
    else ExpectedCount(n, events[..|events| - 1]) + 1
  }

  /** Every mouse-down adds exactly one shape (no debouncing) and every clear empties the state. */
  lemma {:induction false} HandleEventsCount(app: App, events: seq<InputEvent>)
    requires ValidEvents(events)
    ensures |HandleEvents(app, events).state.shapes| == ExpectedCount(|app.state.shapes|, events)
    ensures HandleEvents(app, events).contextBound == app.contextBound
    ensures HandleEvents(app, events).canvas == app.canvas
    decreases |events|
  {
    if |events| > 0 {
      HandleEventsCount(app, events[..|events| - 1]);
    }
  }

  /** The number of mouse-downs in a sequence. */
  function MouseDowns(events: seq<InputEvent>): nat
    decreases |events|
  {
    if |events| == 0 then 0
    else MouseDowns(events[..|events| - 1]) + (if events[|events| - 1].CanvasMouseDown? then 1 else 0)
  }

  /** Without a clear, n mouse-downs add exactly n shapes. */
  lemma {:induction false} MouseDownsOnly(app: App, events: seq<InputEvent>)
    requires ValidEvents(events)
    requires forall k :: 0 <= k < |events| ==> events[k].CanvasMouseDown?
    ensures |HandleEvents(app, events).state.shapes| == |app.state.shapes| + MouseDowns(events)
    ensures MouseDowns(events) == |events|
    decreases |events|
  {
    if |events| > 0 {
      MouseDownsOnly(app, events[..|events| - 1]);
    }
  }
}

=== FILE: mount.dfy ===
/** `mount_app`, the entry point the page calls: create the canvas and the
    clear button inside the page's container, create the application, register
    the two listeners and return a handle with no render loop yet. */
module Mount {
  import opened Wrappers
  import opened Strings
  import opened State
  import opened DrawingApp
  import opened EventListeners
  import opened Rendering
  import AppHandle

  /** The id of the page element the application is mounted into. */
  const ContainerId: string := "main-app-container"

  /** How the page answers the request to build the application's elements. */
  datatype DomReply =
    | ContainerMissing   // no element with the container id
    | DomException       // creating or appending an element threw
    | DomCreated         // canvas and button created and attached

  /** What mounting left behind on the page, and the handle or the error. */
  datatype Mounted = Mounted(domCreated: bool, registered: seq<Listener>, result: Result<AppHandle.Handle, JsError>)

  function ContainerMissingMessage(): string {
    "Container element '" + ContainerId + "' not found"
  }

  /** Mounts the application. DOM creation must succeed before anything is
      registered; a listener failure is returned as the error. */
  function MountApp(dom: DomReply, canvasAccepts: bool, buttonAccepts: bool): (m: Mounted)
    ensures dom == ContainerMissing ==> m.result == Err(Message(ContainerMissingMessage())) && m.registered == []
    ensures dom == DomException ==> m.result == Err(HostException) && m.registered == []
    ensures dom == DomCreated && !(canvasAccepts && buttonAccepts) ==> m.result.Err?
    ensures m.result.Ok? <==> dom == DomCreated && canvasAccepts && buttonAccepts
    ensures m.result.Ok? ==>
      && |m.result.value.app.state.shapes| == 0
      && !m.result.value.app.contextBound
      && m.result.value.app.frameId.None?
      && m.result.value.app.canvas == Size(DefaultCanvasWidth, DefaultCanvasHeight)
      && m.result.value.renderLoop.None?
      && m.result.value.listeners == [MouseDownListener, ClearListener]
      && m.registered == m.result.value.listeners
  {
    match dom
    case ContainerMissing => Mounted(false, [], Err(Message(ContainerMissingMessage())))
    case DomException => Mounted(false, [], Err(HostException))
    case DomCreated =>
      var app := DrawingApp.New(Size(DefaultCanvasWidth, DefaultCanvasHeight));
      var reg := SetupEventListeners(canvasAccepts, buttonAccepts);
      match reg.outcome
      case Fail(e) => Mounted(true, reg.registered, Err(e))
      case Pass => Mounted(true, reg.registered, Ok(AppHandle.Handle(app, reg.registered, None)))
  }

  /** A listener failure after the elements were created leaves them on the page, and a
      refused button listener leaves the canvas listener registered with the browser. The
      early return drops that listener's closure, so the registration outlives the code it
      points to. */
  lemma MountFailureLeavesElements()
    ensures MountApp(DomCreated, true, false).domCreated
    ensures MountApp(DomCreated, true, false).result.Err?
    ensures MountApp(DomCreated, true, false).registered == [MouseDownListener]
  {
  }

  /** Mount, then `addCircleAtPoint(50, 50)`: the exported state holds exactly one
      shape, at (50, 50), with radius in [10, 50] and an `rgb(` colour. */
  lemma MountAddCircleScenario(d: Sample)
    requires ValidSample(d)
    ensures var m := MountApp(DomCreated, true, true);
      m.result.Ok? &&
      var s := AppHandle.GetDrawingState(AppHandle.AddCircleAtPoint(m.result.value, 50.0, 50.0, d));
      && |s.shapes| == 1
      && s.shapes[0].x == 50.0 && s.shapes[0].y == 50.0
      && 10.0 <= s.shapes[0].radius <= 50.0
      && "rgb(" <= s.shapes[0].color
  {
    var h := MountApp(DomCreated, true, true).result.value;
    var s := AppHandle.GetDrawingState(AppHandle.AddCircleAtPoint(h, 50.0, 50.0, d));
    assert GeneratedShape(s.shapes[0]);
  }

  /** Mount, add two circles, clear: no shapes remain. */
  lemma MountAddTwoClearScenario(d1: Sample, d2: Sample)
    requires ValidSample(d1) && ValidSample(d2)
    ensures var m := MountApp(DomCreated, true, true);
      m.result.Ok? &&
      var h := AppHandle.AddCircleAtPoint(AppHandle.AddCircleAtPoint(m.result.value, 10.0, 10.0, d1), 20.0, 20.0, d2);
      |AppHandle.GetDrawingState(h).shapes| == 2 && |AppHandle.GetDrawingState(AppHandle.ClearCanvas(h)).shapes| == 0
  {
  }

  /** Before `initializeRenderer`, rendering a mounted application fails with the
      not-initialised error and draws nothing; afterwards it clears and draws. */
  lemma RenderNeedsInitialize(reply: ContextReply)
    ensures var m := MountApp(DomCreated, true, true);
      m.result.Ok? &&
      RenderFrame(m.result.value.app) == Frame([], Fail(Message(NotInitializedMessage))) &&
      var i := AppHandle.InitializeRenderer(m.result.value, reply);
      (reply == Context2d ==> RenderFrame(i.handle.app).outcome == Pass) &&
      (reply != Context2d ==> RenderFrame(i.handle.app).outcome == Fail(Message(NotInitializedMessage)))
  {
    var h := MountApp(DomCreated, true, true).result.value;
    var i := AppHandle.InitializeRenderer(h, reply);
    if reply == Context2d {
      WellFormedRenders(i.handle.app);
    }
  }
}

=== FILE: project_name.dfy ===
/** The setup script's project-name handling: the name validator (the regular
    language `[a-z0-9]+(-[a-z0-9]+)*` as Python's `re.match` with a `$` anchor
    accepts it), the interactive name prompt, and the kebab-case to Title Case
    conversion used for the README heading. */
module ProjectName {
  import opened Wrappers
  import opened Strings

  /** A character of the class `[a-z0-9]`. */
  predicate IsNameChar(c: char) {
    IsAsciiLower(c) || IsDigit(c)
  }

  /** Declarative form of the name language: lower-case letters, digits and
      hyphens, not empty, no hyphen at either end, no two hyphens in a row. */
  predicate KebabName(s: string) {
    && |s| > 0
    && (forall i :: 0 <= i < |s| ==> IsNameChar(s[i]) || s[i] == '-')
    && s[0] != '-' && s[|s| - 1] != '-'
    && (forall i :: 0 <= i < |s| - 1 ==> !(s[i] == '-' && s[i + 1] == '-'))
  }

  /** What may follow inside a word: name characters and single hyphens, not ending in a hyphen. */
  predicate WordTail(s: string) {
    && (forall i :: 0 <= i < |s| ==> IsNameChar(s[i]) || s[i] == '-')
    && (|s| > 0 ==> s[|s| - 1] != '-')
    && (forall i :: 0 <= i < |s| - 1 ==> !(s[i] == '-' && s[i + 1] == '-'))
  }

  /** The regular expression's two positions: before a `[a-z0-9]+` run (at the
      start, or after a hyphen), or inside one. */
  datatype Phase = ExpectWord | InWord

  /** Runs the pattern's automaton from `phase` over `s`; true when it ends inside a word. */
  function Scan(phase: Phase, s: string): bool
    decreases |s|
  {
    if |s| == 0 then phase == InWord
    else if IsNameChar(s[0]) then Scan(InWord, s[1..])
    else if s[0] == '-' && phase == InWord then Scan(ExpectWord, s[1..])
    else false
  }

  /** The whole string is in the language of `[a-z0-9]+(-[a-z0-9]+)*`. */
  predicate PatternMatches(s: string) {
    Scan(ExpectWord, s)
  }

  /** The automaton accepts exactly the declarative language, from either phase. */
  lemma {:induction false} ScanLanguage(phase: Phase, s: string)
    ensures phase == ExpectWord ==> (Scan(phase, s) <==> KebabName(s))
    ensures phase == InWord ==> (Scan(phase, s) <==> WordTail(s))
    decreases |s|
  {
    if |s| > 0 {
      ScanLanguage(InWord, s[1..]);
      ScanLanguage(ExpectWord, s[1..]);
      assert forall i :: 1 <= i < |s| ==> s[i] == s[1..][i - 1];
    }
  }

  lemma PatternMatchesIffKebab(s: string)
    ensures PatternMatches(s) <==> KebabName(s)
  {
    ScanLanguage(ExpectWord, s);
  }

  /** Python `re.match(r'^[a-z0-9]+(-[a-z0-9]+)*$', s)` succeeds: `$` matches at
      the end, and also just before one final newline. */
  predicate PythonMatches(s: string) {
    PatternMatches(s) || (|s| > 0 && s[|s| - 1] == '\n' && PatternMatches(s[..|s| - 1]))
  }

  lemma PythonMatchesIff(s: string)
    ensures PythonMatches(s) <==> KebabName(s) || (|s| > 0 && s[|s| - 1] == '\n' && KebabName(s[..|s| - 1]))
  {
    PatternMatchesIffKebab(s);
    if |s| > 0 {
      PatternMatchesIffKebab(s[..|s| - 1]);
    }
  }

  /** The validator as written: the name, unchanged, when the pattern matches; otherwise nothing. */
  function ValidateProjectName(name: string): (r: Option<string>)
    ensures r.Some? <==> KebabName(name) || (|name| > 0 && name[|name| - 1] == '\n' && KebabName(name[..|name| - 1]))
    ensures r.Some? ==> r.value == name
  {
    PythonMatchesIff(name);
    if PythonMatches(name) then Some(name) else None
  }

  /** The validator accepts a name with a trailing newline, which is not a name of the
      documented form: passed on the command line, it is written verbatim into the
      `name` field of `package.json`, where a raw newline is not valid JSON. */
  lemma ValidateAcceptsTrailingNewline()
    ensures ValidateProjectName("app\n") == Some("app\n")
    ensures !KebabName("app\n")
  {
    assert "app\n"[..3] == "app";
    assert KebabName("app");
    assert "app\n"[3] == '\n';
  }

  /** The validator as evidently intended (a full match, as `re.fullmatch` or a `\Z` anchor
      gives): exactly the names of the documented form are accepted. */
  function ValidateProjectNameStrict(name: string): (r: Option<string>)
    ensures r.Some? <==> KebabName(name)
    ensures r.Some? ==> r.value == name && '\n' !in name && ' ' !in name
  {
    PatternMatchesIffKebab(name);
    if PatternMatches(name) then Some(name) else None
  }

  /** The two validators agree on every name that does not end in a newline. */
  lemma StrictAgreesWithoutNewline(name: string)
    requires |name| == 0 || name[|name| - 1] != '\n'
    ensures ValidateProjectName(name) == ValidateProjectNameStrict(name)
  {
  }

  /** One answer to the interactive name prompt, after stripping white space. */
  datatype NameEntry = EmptyName | InvalidName | AcceptedName(name: string)

  /** The interactive prompt: the stripped line must be non-empty and valid. Stripping
      removes any trailing newline, so a name accepted here always has the documented form. */
  function EnterName(line: string): (r: NameEntry)
    ensures r == EmptyName <==> Strip(line) == ""
    ensures r.AcceptedName? <==> KebabName(Strip(line))
    ensures r.AcceptedName? ==> r.name == Strip(line) && KebabName(r.name)
  {
    var name := Strip(line);
    if |name| == 0 then EmptyName
    else
      match ValidateProjectName(name)
      case None => InvalidName
      case Some(n) => AcceptedName(n)
  }

  /** Python `str.capitalize()` on the ASCII letters: first character upper case, the rest lower case. */
  function Capitalize(w: string): (r: string)
    ensures |r| == |w|
    ensures |w| > 0 ==> r[0] == UpperChar(w[0])
    ensures forall i :: 1 <= i < |w| ==> r[i] == LowerChar(w[i])
  {
    if |w| == 0 then "" else [UpperChar(w[0])] + Lower(w[1..])
  }

  function CapitalizeAll(words: seq<string>): (r: seq<string>)
    ensures |r| == |words|
    ensures forall k :: 0 <= k < |words| ==> r[k] == Capitalize(words[k])
  {
    seq(|words|, k requires 0 <= k < |words| => Capitalize(words[k]))
  }

  /** `to_title_case`: split on hyphens, capitalise each word, join with spaces. */
  function ToTitleCase(kebab: string): string {
    Join(CapitalizeAll(Split(kebab, '-')), ' ')
  }

  /** The words of the title are the capitalised hyphen-separated words, as many as
      there were, and the title is as long as the name. */
  lemma TitleCaseWords(kebab: string)
    requires ' ' !in kebab
    ensures Split(ToTitleCase(kebab), ' ') == CapitalizeAll(Split(kebab, '-'))
    ensures |Split(ToTitleCase(kebab), ' ')| == CountChar(kebab, '-') + 1
    ensures |ToTitleCase(kebab)| == |kebab|
  {
    var words := Split(kebab, '-');
    var caps := CapitalizeAll(words);
    forall k | 0 <= k < |words|
      ensures ' ' !in caps[k]
    {
      assert forall i :: 0 <= i < |words[k]| ==> words[k][i] != ' ' by {
        forall i | 0 <= i < |words[k]|
          ensures words[k][i] != ' '
        {
          JoinSplit(kebab, '-');
          WordInJoin(words, '-', k, i);
        }
      }
    }
    SplitJoin(caps, ' ');
    SplitCount(kebab, '-');
    JoinSameLength(caps, words, ' ', '-');
    JoinSplit(kebab, '-');
  }

  /** Every character of a piece occurs in the join of the pieces. */
  lemma {:induction false} WordInJoin(parts: seq<string>, sep: char, k: nat, i: nat)
    requires |parts| >= 1 && k < |parts| && i < |parts[k]|
    ensures parts[k][i] in Join(parts, sep)
    decreases k
  {
    if k == 0 {
      if |parts| > 1 {
        assert Join(parts, sep)[i] == parts[0][i];
      }
    } else {
      WordInJoin(parts[1..], sep, k - 1, i);
      assert parts[1..][k - 1] == parts[k];
      var rest := Join(parts[1..], sep);
      var j :| 0 <= j < |rest| && rest[j] == parts[k][i];
      assert Join(parts, sep)[|parts[0]| + 1 + j] == rest[j];
    }
  }

  /** The inverse conversion: lower-case each space-separated word and join with hyphens. */
  function ToKebabCase(title: string): string {
    var words := Split(title, ' ');
    Join(seq(|words|, k requires 0 <= k < |words| => Lower(words[k])), '-')
  }

  /** Lower-casing undoes capitalisation of a word without capital letters. */
  lemma LowerCapitalize(w: string)
    requires forall i :: 0 <= i < |w| ==> !IsAsciiUpper(w[i])
    ensures Lower(Capitalize(w)) == w
  {
    if |w| > 0 {
      LowerUpper(w[0]);
    }
  }

  /** The hyphen-separated words of a valid name hold only name characters. */
  lemma KebabWords(name: string)
    requires KebabName(name)
    ensures ' ' !in name
    ensures forall k, i :: 0 <= k < |Split(name, '-')| && 0 <= i < |Split(name, '-')[k]| ==>
      IsNameChar(Split(name, '-')[k][i])
  {
    var words := Split(name, '-');
    JoinSplit(name, '-');
    forall k, i | 0 <= k < |words| && 0 <= i < |words[k]|
      ensures IsNameChar(words[k][i])
    {
      WordInJoin(words, '-', k, i);
    }
    assert forall i :: 0 <= i < |name| ==> name[i] != ' ';
  }

  /** A valid project name survives the trip to its title and back. */
  lemma KebabOfTitle(name: string)
    requires KebabName(name)
    ensures ToKebabCase(ToTitleCase(name)) == name
  {
    KebabWords(name);
    TitleCaseWords(name);
    var words := Split(name, '-');
    var caps := Split(ToTitleCase(name), ' ');
    assert caps == CapitalizeAll(words);
    var lowered := seq(|caps|, k requires 0 <= k < |caps| => Lower(caps[k]));
    forall k | 0 <= k < |words|
      ensures lowered[k] == words[k]
    {
      LowerCapitalize(words[k]);
    }
    assert lowered == words;
    JoinSplit(name, '-');
  }
}

=== FILE: rendering.dfy ===
/** The render loop: one closure, requested from the host's animation-frame
    scheduler, which on every tick resizes the canvas, renders a frame (an error
    is only logged) and requests the next frame with itself.

    The closure is identified by a number, the host's calls are recorded as a
    trace, and the host's answer to each frame request (an id, or a refusal) is
    a parameter. */
module Rendering {
  import opened Wrappers
  import opened State
  import opened DrawingApp

  /** The handle the loop returns: it holds the loop closure, named by `callback`. */
  datatype RenderLoop = RenderLoop(callback: nat)

  /** One call the loop makes on the host. */
  datatype HostCall =
    | SetBufferSize(size: Size)
    | Draw(command: DrawCommand)
    | ConsoleError(error: JsError)
    | RequestFrame(callback: nat)

  /** A tick either stored the id of its frame request, or the request failed and
      unwrapping it aborted the tick, so no further frame is scheduled. */
  datatype TickStatus = Rescheduled(id: int) | Aborted

  datatype TickResult = TickResult(app: App, calls: seq<HostCall>, status: TickStatus)

  /** The number of frame requests in a trace. */
  function Requests(calls: seq<HostCall>): nat
    decreases |calls|
  {
    if |calls| == 0 then 0
    else Requests(calls[..|calls| - 1]) + (if calls[|calls| - 1].RequestFrame? then 1 else 0)
  }

  lemma {:induction false} RequestsAppend(a: seq<HostCall>, b: seq<HostCall>)
    ensures Requests(a + b) == Requests(a) + Requests(b)
    decreases |b|
  {
    if |b| == 0 {
      assert a + b == a;
    } else {
      RequestsAppend(a, b[..|b| - 1]);
      assert (a + b)[..|a + b| - 1] == a + b[..|b| - 1];
    }
  }

  lemma {:induction false} NoRequests(calls: seq<HostCall>)
    requires NoRequest(calls)
    ensures Requests(calls) == 0
    decreases |calls|
  {
    if |calls| > 0 {
      NoRequests(calls[..|calls| - 1]);
    }
  }

  /** No call of the trace writes the canvas buffer size. */
  predicate NoResize(calls: seq<HostCall>) {
    forall k :: 0 <= k < |calls| ==> !calls[k].SetBufferSize?
  }

  /** No call of the trace requests a frame. */
  predicate NoRequest(calls: seq<HostCall>) {
    forall k :: 0 <= k < |calls| ==> !calls[k].RequestFrame?
  }

  lemma NoResizeAppend(a: seq<HostCall>, b: seq<HostCall>)
    requires NoResize(a) && NoResize(b)
    ensures NoResize(a + b)
  {
    forall k | 0 <= k < |a + b|
      ensures !(a + b)[k].SetBufferSize?
    {
      if k >= |a| {
        assert (a + b)[k] == b[k - |a|];
      }
    }
  }

  lemma NoRequestAppend(a: seq<HostCall>, b: seq<HostCall>)
    requires NoRequest(a) && NoRequest(b)
    ensures NoRequest(a + b)
  {
    forall k | 0 <= k < |a + b|
      ensures !(a + b)[k].RequestFrame?
    {
      if k >= |a| {
        assert (a + b)[k] == b[k - |a|];
      }
    }
  }

  /** The draw calls of a frame, as host calls. */
  function Draws(drawn: seq<DrawCommand>): (calls: seq<HostCall>)
    ensures |calls| == |drawn|
    ensures forall k :: 0 <= k < |drawn| ==> calls[k] == Draw(drawn[k])
    ensures NoResize(calls) && NoRequest(calls)
  {
    seq(|drawn|, k requires 0 <= k < |drawn| => Draw(drawn[k]))
  }

  /** The console call logging a failed render, if the render failed. */
  function Logged(frame: Frame): (calls: seq<HostCall>)
    ensures NoResize(calls) && NoRequest(calls)
    ensures frame.outcome.Fail? ==> ConsoleError(frame.outcome.error) in calls
  {
    if frame.outcome.Fail? then [ConsoleError(frame.outcome.error)] else []
  }

  /** The host calls of a tick after the resize: the frame's draw calls, the logged
      render error if any, the next frame request. */
  function FrameCalls(frame: Frame, callback: nat): (calls: seq<HostCall>)
    ensures |calls| > 0 && calls[|calls| - 1] == RequestFrame(callback)
    ensures NoResize(calls)
    ensures Requests(calls) == 1
    ensures frame.outcome.Fail? ==> ConsoleError(frame.outcome.error) in calls
    ensures calls == Draws(frame.drawn) + Logged(frame) + [RequestFrame(callback)]
  {
    var body := Draws(frame.drawn) + Logged(frame);
    NoResizeAppend(Draws(frame.drawn), Logged(frame));
    NoResizeAppend(body, [RequestFrame(callback)]);
    NoRequestAppend(Draws(frame.drawn), Logged(frame));
    NoRequests(body);
    RequestsAppend(body, [RequestFrame(callback)]);
    assert Requests([RequestFrame(callback)]) == 1 by {
      assert [RequestFrame(callback)][..0] == [];
    }
    body + [RequestFrame(callback)]
  }

  /** The buffer write of a resize, if it wrote one. */
  function ResizeCall(resized: Resized): (calls: seq<HostCall>)
    ensures |calls| == if resized.written then 1 else 0
  {
    if resized.written then [SetBufferSize(resized.app.canvas)] else []
  }

  /** The host calls of one tick, in order: the buffer resize if one is written,
      then the frame's calls. */
  function TickCalls(resized: Resized, frame: Frame, callback: nat): (calls: seq<HostCall>)
    ensures |calls| > 0 && calls[|calls| - 1] == RequestFrame(callback)
    ensures resized.written ==> calls[0] == SetBufferSize(resized.app.canvas)
    ensures NoResize(calls[1..])
    ensures !resized.written ==> !calls[0].SetBufferSize?
    ensures Requests(calls) == 1
    ensures frame.outcome.Fail? ==> ConsoleError(frame.outcome.error) in calls
  {
    var rest := FrameCalls(frame, callback);
    if resized.written then
      RequestsAppend([SetBufferSize(resized.app.canvas)], rest);
      assert Requests([SetBufferSize(resized.app.canvas)]) == 0 by {
        NoRequests([SetBufferSize(resized.app.canvas)]);
      }
      [SetBufferSize(resized.app.canvas)] + rest
    else rest
  }

  /** One tick of the loop closure: resize, render, log a render error, request the next frame. */
  function Tick(app: App, callback: nat, layout: Rect, reply: Option<int>): (r: TickResult)
    // exactly one frame request, the last call, with the same closure
    ensures |r.calls| > 0 && r.calls[|r.calls| - 1] == RequestFrame(callback)
    ensures Requests(r.calls) == 1
    // resizing comes first, and is the only buffer write of the tick
    ensures ResizeCanvas(app, layout).written ==> r.calls[0] == SetBufferSize(ResizeCanvas(app, layout).app.canvas)
    ensures NoResize(r.calls[1..])
    ensures !ResizeCanvas(app, layout).written ==> !r.calls[0].SetBufferSize?
    // a render error is logged, and does not stop the rescheduling
    ensures RenderFrame(ResizeCanvas(app, layout).app).outcome.Fail? ==>
      ConsoleError(RenderFrame(ResizeCanvas(app, layout).app).outcome.error) in r.calls
    ensures !app.contextBound ==> ConsoleError(Message(NotInitializedMessage)) in r.calls
    // the whole trace: the resize, then the calls of the resized application's frame
    ensures r.calls == ResizeCall(ResizeCanvas(app, layout)) + FrameCalls(RenderFrame(ResizeCanvas(app, layout).app), callback)
    // the canvas keeps the size the resize wrote
    ensures r.app.canvas == ResizeCanvas(app, layout).app.canvas
    // the stored frame id is the one this tick's request returned
    ensures reply.Some? ==> r.status == Rescheduled(reply.value) && r.app.frameId == Some(reply.value)
    ensures reply.None? ==> r.status == Aborted && r.app.frameId == app.frameId
    // the shapes and the context are untouched
    ensures r.app.state == app.state && r.app.contextBound == app.contextBound
  {
    var resized := ResizeCanvas(app, layout);
    var calls := TickCalls(resized, RenderFrame(resized.app), callback);
    match reply
    case Some(id) => TickResult(resized.app.(frameId := Some(id)), calls, Rescheduled(id))
    case None => TickResult(resized.app, calls, Aborted)
  }

  /** With a context and drawable shapes, a tick clears the whole resized buffer and then
      draws exactly the state's shapes, in order, and only then requests the next frame. */
  lemma TickDrawsState(app: App, callback: nat, layout: Rect, reply: Option<int>)
    requires app.contextBound && NonNegativeRadii(app.state.shapes)
    ensures var r := Tick(app, callback, layout, reply);
      var k := if ResizeCanvas(app, layout).written then 1 else 0;
      var paint := PaintShapes(app.state.shapes).drawn;
      && |r.calls| == k + 1 + |paint| + 1
      && r.calls[k] == Draw(ClearRect(0.0, 0.0, RoundToU32(layout.width) as real, RoundToU32(layout.height) as real))
      && r.calls[k + 1..k + 1 + |paint|] == Draws(paint)
      && DecodeCircles(paint) == Some(app.state.shapes)
  {
    var rs := ResizeCanvas(app, layout);
    FrameDrawsState(ResizeCall(rs), rs.app, callback);
  }

  /** The calls of a frame of a bound context with drawable shapes, after some prefix:
      the clear of the whole buffer, the paint calls of the shapes, the request. */
  lemma FrameDrawsState(pre: seq<HostCall>, app: App, callback: nat)
    requires app.contextBound && NonNegativeRadii(app.state.shapes)
    ensures var calls := pre + FrameCalls(RenderFrame(app), callback);
      var k := |pre|;
      var paint := PaintShapes(app.state.shapes).drawn;
      && |calls| == k + 1 + |paint| + 1
      && calls[k] == Draw(ClearRect(0.0, 0.0, app.canvas.width as real, app.canvas.height as real))
      && calls[k + 1..k + 1 + |paint|] == Draws(paint)
      && DecodeCircles(paint) == Some(app.state.shapes)
  {
    var f := RenderFrame(app);
    var paint := PaintShapes(app.state.shapes).drawn;
    assert f.drawn == [f.drawn[0]] + paint && f.outcome.Pass? by {
      RenderFrameDrawsState(app);
    }
    assert FrameCalls(f, callback) == Draws([f.drawn[0]] + paint) + [] + [RequestFrame(callback)];
    DrawsSplit(pre, f.drawn[0], paint, [RequestFrame(callback)]);
    assert DecodeCircles(paint) == Some(app.state.shapes) by {
      PaintShapesDecodes(app.state.shapes);
    }
  }

  /** Draw calls of a command followed by more commands, read back from a trace. */
  lemma DrawsSplit(pre: seq<HostCall>, first: DrawCommand, more: seq<DrawCommand>, post: seq<HostCall>)
    ensures var calls := pre + (Draws([first] + more) + [] + post); var k := |pre|;
      && |calls| == k + 1 + |more| + |post|
      && calls[k] == Draw(first) && calls[k + 1..k + 1 + |more|] == Draws(more)
  {
    var d := Draws([first] + more);
    var calls := pre + (d + [] + post);
    var k := |pre|;
    assert calls[k..k + 1 + |more|] == d;
    assert d[0] == Draw(first);
    assert d[1..] == Draws(more);
    assert calls[k + 1..k + 1 + |more|] == d[1..];
  }

  /** What starting the loop did on the host, and the handle it returned or the error. */
  datatype Started = Started(calls: seq<HostCall>, result: Result<RenderLoop, JsError>)

  /** Creates the loop closure and requests its first frame; the id of that request is not stored. */
  function StartRenderLoop(callback: nat, reply: Option<int>): (r: Started)
    ensures r.calls == [RequestFrame(callback)]
    ensures reply.Some? <==> r.result.Ok?
    ensures r.result.Ok? ==> r.result.value.callback == callback
    ensures reply.None? ==> r.result == Err(HostException)
  {
    if reply.Some? then Started([RequestFrame(callback)], Ok(RenderLoop(callback)))
    else Started([RequestFrame(callback)], Err(HostException))
  }

  /** The host's layout and frame-request answer for one tick. */
  datatype TickInput = TickInput(layout: Rect, reply: Option<int>)

  /** The loop after a run of ticks, the host calls made, and whether it is still scheduled. */
  datatype Run = Run(app: App, calls: seq<HostCall>, alive: bool)

  /** Ticks run one after another while the loop stays scheduled. */
  function RunTicks(app: App, callback: nat, inputs: seq<TickInput>): Run
    decreases |inputs|
  {
    if |inputs| == 0 then Run(app, [], true)
    else
      var prev := RunTicks(app, callback, inputs[..|inputs| - 1]);
      if !prev.alive then prev
      else
        var last := inputs[|inputs| - 1];
        var t := Tick(prev.app, callback, last.layout, last.reply);
        Run(t.app, prev.calls + t.calls, t.status.Rescheduled?)
  }

  /** While every frame request succeeds the loop never stops, whatever rendering does:
      one request per tick, the last id stored, the shapes untouched. */
  lemma {:induction false} RunTicksKeepsScheduling(app: App, callback: nat, inputs: seq<TickInput>)
    requires forall k :: 0 <= k < |inputs| ==> inputs[k].reply.Some?
    ensures RunTicks(app, callback, inputs).alive
    ensures Requests(RunTicks(app, callback, inputs).calls) == |inputs|
    ensures RunTicks(app, callback, inputs).app.state == app.state
    ensures RunTicks(app, callback, inputs).app.contextBound == app.contextBound
    ensures |inputs| > 0 ==> RunTicks(app, callback, inputs).app.frameId == inputs[|inputs| - 1].reply
    decreases |inputs|
  {
    if |inputs| > 0 {
      var init := inputs[..|inputs| - 1];
      RunTicksKeepsScheduling(app, callback, init);
      var prev := RunTicks(app, callback, init);
      var last := inputs[|inputs| - 1];
      var t := Tick(prev.app, callback, last.layout, last.reply);
      RequestsAppend(prev.calls, t.calls);
    }
  }

  /** A failed frame request stops the loop for good: later ticks never run. */
  lemma RunTicksStopsAfterAbort(app: App, callback: nat, inputs: seq<TickInput>, more: seq<TickInput>)
    requires !RunTicks(app, callback, inputs).alive
    ensures RunTicks(app, callback, inputs + more) == RunTicks(app, callback, inputs)
    decreases |more|
  {
    if |more| > 0 {
      RunTicksStopsAfterAbort(app, callback, inputs, more[..|more| - 1]);
      assert (inputs + more)[..|inputs + more| - 1] == inputs + more[..|more| - 1];
    } else {
      assert inputs + more == inputs;
    }
  }
}

=== FILE: setup_actions.dfy ===
/** The setup script's decisions: which mode it runs in, the action menu with its
    toggles, the validation of the selected actions against the tools found, and
    the success-gated sequence of steps that renames the project, installs the
    dependencies, cleans the README and deletes the script.

    The tools on the PATH, the files as found, whether each file can be written and
    whether each external command succeeds are inputs; the lines the user types are
    a finite sequence, and running out of them is the end of input, on which the
    script exits quietly. The pauses that only wait for Enter are not modelled. */
module SetupActions {
  import opened Wrappers
  import opened Strings
  import opened TextEdit
  import ProjectName

  const OldProjectName: string := "my-project-workspace"
  const OldProjectTitle: string := "Rust+WASM Web App Template"

  // ---------------------------------------------------------------------------
  // Actions and the menu

  /** The three actions the user can select. */
  datatype Action = RenameAction | CargoUpgradeAction | PnpmInstallAction

  datatype Actions = Actions(rename: bool, cargoUpgrade: bool, pnpmInstall: bool)

  function Selected(actions: Actions, a: Action): bool {
    match a
    case RenameAction => actions.rename
    case CargoUpgradeAction => actions.cargoUpgrade
    case PnpmInstallAction => actions.pnpmInstall
  }

  /** The menu starts with every action selected. */
  function AllSelected(): (actions: Actions)
    ensures forall a :: Selected(actions, a)
  {
    Actions(true, true, true)
  }

  /** Flips one action. */
  function Toggle(actions: Actions, a: Action): (r: Actions)
    ensures Selected(r, a) == !Selected(actions, a)
    ensures forall b :: b != a ==> Selected(r, b) == Selected(actions, b)
  {
    match a
    case RenameAction => actions.(rename := !actions.rename)
    case CargoUpgradeAction => actions.(cargoUpgrade := !actions.cargoUpgrade)
    case PnpmInstallAction => actions.(pnpmInstall := !actions.pnpmInstall)
  }

  /** Two selections are the same when they agree on every action. */
  lemma SelectionsEqual(x: Actions, y: Actions)
    requires forall a :: Selected(x, a) == Selected(y, a)
    ensures x == y
  {
    assert Selected(x, RenameAction) == Selected(y, RenameAction);
    assert Selected(x, CargoUpgradeAction) == Selected(y, CargoUpgradeAction);
    assert Selected(x, PnpmInstallAction) == Selected(y, PnpmInstallAction);
  }

  /** Toggling the same action twice restores the selection. */
  lemma ToggleTwice(actions: Actions, a: Action)
    ensures Toggle(Toggle(actions, a), a) == actions
  {
    SelectionsEqual(Toggle(Toggle(actions, a), a), actions);
  }

  /** Toggles of different actions commute. */
  lemma TogglesCommute(actions: Actions, a: Action, b: Action)
    ensures Toggle(Toggle(actions, a), b) == Toggle(Toggle(actions, b), a)
  {
    SelectionsEqual(Toggle(Toggle(actions, a), b), Toggle(Toggle(actions, b), a));
  }

  /** The menu key of each toggle. */
  function Key(a: Action): string {
    match a
    case RenameAction => "t"
    case CargoUpgradeAction => "u"
    case PnpmInstallAction => "i"
  }

  /** What one menu answer does. */
  datatype MenuStep = Stay(actions: Actions) | GoBack | Go | Quit

  /** The menu reads an answer lower-cased and stripped of surrounding white space. */
  function Choice(line: string): string {
    Strip(Lower(line))
  }

  /** One menu answer: a toggle key flips its action, `b` goes back to the name prompt,
      `g` runs the selected actions, `q` quits; any other answer redraws the menu. */
  function Menu(actions: Actions, line: string): (r: MenuStep)
    ensures forall a :: Choice(line) == Key(a) ==> r == Stay(Toggle(actions, a))
    ensures r == GoBack <==> Choice(line) == "b"
    ensures r == Go <==> Choice(line) == "g"
    ensures r == Quit <==> Choice(line) == "q"
    ensures Choice(line) !in ["t", "u", "i", "b", "g", "q"] ==> r == Stay(actions)
  {
    MenuChoice(actions, Choice(line))
  }

  /** The decision the menu takes on an answer already read. */
  function MenuChoice(actions: Actions, choice: string): (r: MenuStep)
    ensures forall a :: choice == Key(a) ==> r == Stay(Toggle(actions, a))
    ensures r == GoBack <==> choice == "b"
    ensures r == Go <==> choice == "g"
    ensures r == Quit <==> choice == "q"
    ensures choice !in ["t", "u", "i", "b", "g", "q"] ==> r == Stay(actions)
  {
    if choice == "t" then Stay(Toggle(actions, RenameAction))
    else if choice == "u" then Stay(Toggle(actions, CargoUpgradeAction))
    else if choice == "i" then Stay(Toggle(actions, PnpmInstallAction))
    else if choice == "b" then GoBack
    else if choice == "g" then Go
    else if choice == "q" then Quit
    else Stay(actions)
  }

  /** An answer that stays in the menu changes at most one action. */
  lemma MenuChangesAtMostOne(actions: Actions, line: string)
    requires Menu(actions, line).Stay?
    ensures Menu(actions, line).actions == actions
      || exists a :: Menu(actions, line).actions == Toggle(actions, a)
  {
    var c := Choice(line);
    if c == "t" {
      assert Menu(actions, line).actions == Toggle(actions, RenameAction);
    } else if c == "u" {
      assert Menu(actions, line).actions == Toggle(actions, CargoUpgradeAction);
    } else if c == "i" {
      assert Menu(actions, line).actions == Toggle(actions, PnpmInstallAction);
    }
  }

  /** Reading an answer is idempotent: an answer already lower-cased and stripped reads
      as itself, so case and surrounding blanks never change the menu's decision. */
  lemma ChoiceNormal(line: string)
    ensures Choice(Choice(line)) == Choice(line)
  {
    var l := Lower(line);
    StripNoUpper(l);
    var t := Strip(l);
    LowerNoUpper(t);
    StripStripped(t);
  }

  lemma MenuNormal(actions: Actions, line: string)
    ensures Menu(actions, Choice(line)) == Menu(actions, line)
  {
    ChoiceNormal(line);
  }

  // ---------------------------------------------------------------------------
  // Tools, steps and the run

  /** Which commands are on the PATH. */
  datatype OnPath = OnPath(cargo: bool, pnpm: bool, npm: bool)

  /** The tool flags the script passes on: `npm` is looked up only when `pnpm` is missing. */
  datatype Tools = Tools(hasCargo: bool, hasPnpm: bool, hasNpm: bool)

  function DetectTools(path: OnPath): (t: Tools)
    ensures t.hasCargo == path.cargo && t.hasPnpm == path.pnpm
    ensures t.hasNpm <==> !path.pnpm && path.npm
  {
    Tools(path.cargo, path.pnpm, if path.pnpm then false else path.npm)
  }

  /** Everything outside the script a run depends on. */
  datatype Env = Env(
    path: OnPath,
    packageJson: FileRead, packageJsonWritable: bool,
    readme: FileRead, readmeWritable: bool,
    cargoUpgradeOk: bool, npmInstallPnpmOk: bool, pnpmInstallOk: bool,
    scriptDeletable: bool)

  /** The steps of a run, in the order the script takes them. */
  datatype Step =
    | EditPackageJson
    | EditReadme
    | CargoUpgrade
    | InstallPnpm
    | PnpmInstall
    | CleanReadme
    | DeleteScript

  function Rank(s: Step): nat {
    match s
    case EditPackageJson => 0
    case EditReadme => 1
    case CargoUpgrade => 2
    case InstallPnpm => 3
    case PnpmInstall => 4
    case CleanReadme => 5
    case DeleteScript => 6
  }

  /** A step that was taken, and whether it succeeded. */
  datatype Ran = Ran(step: Step, ok: bool)

  /** The steps a selection allows: the two edits belong to the rename, `cargo upgrade`
      to its action, installing pnpm and `pnpm install` to the install action; the
      cleanup and the deletion to none. */
  predicate Allows(actions: Actions, s: Step) {
    match s
    case EditPackageJson => actions.rename
    case EditReadme => actions.rename
    case CargoUpgrade => actions.cargoUpgrade
    case InstallPnpm => actions.pnpmInstall
    case PnpmInstall => actions.pnpmInstall
    case CleanReadme => true
    case DeleteScript => true
  }

  /** The steps that carry out a selected action, as opposed to the final cleanup. */
  predicate ActionStep(s: Step) {
    s != CleanReadme && s != DeleteScript
  }

  /** Steps taken in the script's order, each at most once. */
  predicate InOrder(ran: seq<Ran>) {
    forall i, j :: 0 <= i < j < |ran| ==> Rank(ran[i].step) < Rank(ran[j].step)
  }

  /** Every step but the README edit is taken only after every earlier step, apart from
      the README cleanup, succeeded. */
  predicate Gated(ran: seq<Ran>) {
    forall i, j :: 0 <= j < i < |ran| && ran[i].step != EditReadme && ran[j].step != CleanReadme ==> ran[j].ok
  }

  /** The part of a run that carries out one action: the steps taken and whether the
      action succeeded. */
  datatype Stage = Stage(ran: seq<Ran>, ok: bool)

  /** `"name": "<name>"`, the line of `package.json` the rename rewrites. */
  function NameField(name: string): string {
    "\"name\": \"" + name + "\""
  }

  /** `# <title>`, the README heading the rename rewrites. */
  function Heading(title: string): string {
    "# " + title
  }

  /** The files after the rename. */
  datatype Renamed = Renamed(stage: Stage, packageJson: FileRead, readme: FileRead)

  /** The rename: both files are edited, the second even when the first edit failed. */
  function Rename(name: string, env: Env): (r: Renamed)
    ensures |r.stage.ran| == 2 && r.stage.ran[0].step == EditPackageJson && r.stage.ran[1].step == EditReadme
    ensures r.stage.ok <==> r.stage.ran[0].ok && r.stage.ran[1].ok
    // a successful edit leaves every occurrence replaced; a failed one (a refused open for
    // writing among the failures) leaves the file as it was
    ensures r.stage.ran[0].ok ==>
      env.packageJson.Read? && r.packageJson == Read(ReplaceAll(env.packageJson.text, NameField(OldProjectName), NameField(name)))
    ensures !r.stage.ran[0].ok ==> r.packageJson == env.packageJson
    ensures r.stage.ran[1].ok ==>
      env.readme.Read? && r.readme == Read(ReplaceAll(env.readme.text, Heading(OldProjectTitle), Heading(ProjectName.ToTitleCase(name))))
    ensures !r.stage.ran[1].ok ==> r.readme == env.readme
  {
    var e1 := ReplaceInFile(env.packageJson, NameField(OldProjectName), NameField(name), env.packageJsonWritable);
    var e2 := ReplaceInFile(env.readme, Heading(OldProjectTitle), Heading(ProjectName.ToTitleCase(name)), env.readmeWritable);
    ReplaceInFileContents(env.packageJson, NameField(OldProjectName), NameField(name), env.packageJsonWritable);
    ReplaceInFileContents(env.readme, Heading(OldProjectTitle), Heading(ProjectName.ToTitleCase(name)), env.readmeWritable);
    Renamed(Stage([Ran(EditPackageJson, e1.ok), Ran(EditReadme, e2.ok)], e1.ok && e2.ok),
      AfterEdit(env.packageJson, e1), AfterEdit(env.readme, e2))
  }

  /** The install action: pnpm is used when on the PATH; otherwise it is first installed
      with npm, which must be on the PATH; `pnpm install` runs only once pnpm is there. */
  function InstallNodeDependencies(env: Env): (r: Stage)
    ensures r.ok <==> (env.path.pnpm || (env.path.npm && env.npmInstallPnpmOk)) && env.pnpmInstallOk
    ensures Ran(PnpmInstall, true) in r.ran <==> r.ok
    ensures forall k :: 0 <= k < |r.ran| ==> r.ran[k].step == InstallPnpm || r.ran[k].step == PnpmInstall
    // with pnpm or npm on the PATH, the stage fails exactly when one of its commands fails
    ensures env.path.pnpm || env.path.npm ==> (r.ok <==> AllOk(r.ran))
  {
    AllOkPair(Ran(PnpmInstall, env.pnpmInstallOk), Ran(InstallPnpm, false));
    AllOkPair(Ran(InstallPnpm, false), Ran(PnpmInstall, env.pnpmInstallOk));
    AllOkPair(Ran(InstallPnpm, true), Ran(PnpmInstall, env.pnpmInstallOk));
    if env.path.pnpm then Stage([Ran(PnpmInstall, env.pnpmInstallOk)], env.pnpmInstallOk)
    else if !env.path.npm then Stage([], false)
    else if !env.npmInstallPnpmOk then Stage([Ran(InstallPnpm, false)], false)
    else Stage([Ran(InstallPnpm, true), Ran(PnpmInstall, env.pnpmInstallOk)], env.pnpmInstallOk)
  }

  /** The README cleanup: a missing README is nothing to do; an unreadable or unwritable
      one fails; otherwise the setup blocks are removed and the text written back. */
  function CleanReadmeFile(file: FileRead, writable: bool): (r: FileEdit)
    ensures file.Missing? ==> r == FileEdit(true, None)
    ensures r.written.Some? <==> file.Read? && writable
    ensures r.written.Some? ==> r.written.value == RemoveSetupBlocks(file.text)
    ensures r.ok <==> file.Missing? || r.written.Some?
  {
    match file
    case Missing => FileEdit(true, None)
    case Unreadable => FileEdit(false, None)
    case Read(text) => if writable then FileEdit(true, Some(RemoveSetupBlocks(text))) else FileEdit(false, None)
  }

  /** How a run ended: refused by validation, or carried out with or without errors. */
  datatype RunOutcome = CargoMissing | PnpmUnavailable | Completed(allSuccess: bool)

  /** The result of a run: how it ended, the steps taken, the two files afterwards and
      whether the script deleted itself. */
  datatype Report = Report(outcome: RunOutcome, ran: seq<Ran>, packageJson: FileRead, readme: FileRead, scriptDeleted: bool)

  /** Every step of the trace has a rank in `[lo, hi)`. */
  predicate RanksIn(ran: seq<Ran>, lo: nat, hi: nat) {
    forall k :: 0 <= k < |ran| ==> lo <= Rank(ran[k].step) < hi
  }

  /** Every step of the trace succeeded. */
  predicate AllOk(ran: seq<Ran>) {
    forall k :: 0 <= k < |ran| ==> ran[k].ok
  }

  lemma AllOkPair(x: Ran, y: Ran)
    ensures AllOk([x]) <==> x.ok
    ensures AllOk([x, y]) <==> x.ok && y.ok
  {
    assert [x][0] == x;
    assert [x, y][0] == x && [x, y][1] == y;
  }

  lemma AllOkAppend(a: seq<Ran>, b: seq<Ran>)
    requires AllOk(a) && AllOk(b)
    ensures AllOk(a + b)
  {
    forall k | 0 <= k < |a + b|
      ensures (a + b)[k].ok
    {
      if k >= |a| {
        assert (a + b)[k] == b[k - |a|];
      }
    }
  }

  /** A trace in order, gated, with ranks in `[lo, hi)`. */
  predicate WellRun(ran: seq<Ran>, lo: nat, hi: nat) {
    InOrder(ran) && Gated(ran) && RanksIn(ran, lo, hi)
  }

  /** The rename stage: carried out when selected, otherwise nothing happens. */
  function RenameStage(name: string, actions: Actions, env: Env): (r: Renamed)
    ensures !actions.rename ==> r == Renamed(Stage([], true), env.packageJson, env.readme)
    ensures WellRun(r.stage.ran, 0, 2)
    ensures r.stage.ok <==> AllOk(r.stage.ran)
    ensures AllowedBy(actions, r.stage.ran)
  {
    if actions.rename then Rename(name, env) else Renamed(Stage([], true), env.packageJson, env.readme)
  }

  /** The Rust stage: `cargo upgrade`, when selected and everything before succeeded. */
  function CargoStage(before: bool, actions: Actions, env: Env): (r: Stage)
    ensures r.ran == [] <==> !(before && actions.cargoUpgrade)
    ensures WellRun(r.ran, 2, 3)
    ensures r.ok <==> AllOk(r.ran)
    ensures AllowedBy(actions, r.ran)
  {
    AllOkPair(Ran(CargoUpgrade, env.cargoUpgradeOk), Ran(CargoUpgrade, env.cargoUpgradeOk));
    if before && actions.cargoUpgrade then Stage([Ran(CargoUpgrade, env.cargoUpgradeOk)], env.cargoUpgradeOk)
    else Stage([], true)
  }

  /** The Node stage: the install action, when selected and everything before succeeded. */
  function NodeStage(before: bool, actions: Actions, env: Env): (r: Stage)
    ensures !(before && actions.pnpmInstall) ==> r == Stage([], true)
    ensures WellRun(r.ran, 3, 5)
    ensures r.ok ==> AllOk(r.ran)
    ensures AllowedBy(actions, r.ran)
    ensures (before && actions.pnpmInstall ==> env.path.pnpm || env.path.npm) ==> (r.ok <==> AllOk(r.ran))
  {
    if before && actions.pnpmInstall then
      InstallWellRun(env);
      InstallNodeDependencies(env)
    else Stage([], true)
  }

  /** The install action's steps are in order and gated, and each is an install step. */
  lemma InstallWellRun(env: Env)
    ensures WellRun(InstallNodeDependencies(env).ran, 3, 5)
    ensures InstallNodeDependencies(env).ok ==> AllOk(InstallNodeDependencies(env).ran)
    ensures forall k :: 0 <= k < |InstallNodeDependencies(env).ran| ==>
      Allows(Actions(false, false, true), InstallNodeDependencies(env).ran[k].step)
  {
    var r := InstallNodeDependencies(env);
    assert forall k :: 0 <= k < |r.ran| ==> 3 <= Rank(r.ran[k].step) < 5;
  }

  /** Validation: a selected action whose tool is missing refuses the run. */
  function Validate(actions: Actions, tools: Tools): Option<RunOutcome> {
    if actions.cargoUpgrade && !tools.hasCargo then Some(CargoMissing)
    else if actions.pnpmInstall && !tools.hasPnpm && !tools.hasNpm then Some(PnpmUnavailable)
    else None
  }

  /** `run_selected_actions`: validation first, then the rename, the Rust upgrade and the
      Node install, each only while everything before it succeeded; on full success
      the README is cleaned (a failure there is only a warning) and the script deletes
      itself (likewise). */
  function RunSelectedActions(name: string, actions: Actions, env: Env): (r: Report)
    // validation refuses a selected action whose tool is missing, before anything runs
    ensures r.outcome == CargoMissing <==> actions.cargoUpgrade && !env.path.cargo
    ensures r.outcome == PnpmUnavailable <==>
      !(actions.cargoUpgrade && !env.path.cargo) && actions.pnpmInstall
      && !DetectTools(env.path).hasPnpm && !DetectTools(env.path).hasNpm
    ensures !r.outcome.Completed? ==>
      r.ran == [] && r.packageJson == env.packageJson && r.readme == env.readme && !r.scriptDeleted
    // the script deletes itself exactly when every selected action succeeded and deletion works
    ensures r.scriptDeleted <==> r.outcome == Completed(true) && env.scriptDeletable
    // files the run does not touch
    ensures !actions.rename ==> r.packageJson == env.packageJson
  {
    match Validate(actions, DetectTools(env.path))
    case Some(refusal) => Report(refusal, [], env.packageJson, env.readme, false)
    case None => Execute(name, actions, env)
  }

  /** The execution and finalization steps of a run that passed validation. */
  function Execute(name: string, actions: Actions, env: Env): Report {
    var renamed := RenameStage(name, actions, env);
    var cargo := CargoStage(renamed.stage.ok, actions, env);
    var node := NodeStage(renamed.stage.ok && cargo.ok, actions, env);
    var clean := CleanReadmeFile(renamed.readme, env.readmeWritable);
    var ran := Trace(renamed.stage, cargo, node, clean.ok, env.scriptDeletable);
    if renamed.stage.ok && cargo.ok && node.ok then
      Report(Completed(true), ran, renamed.packageJson, AfterEdit(renamed.readme, clean), env.scriptDeletable)
    else
      Report(Completed(false), ran, renamed.packageJson, renamed.readme, false)
  }

  /** The steps of a run that passed validation: the three stages, then, when all three
      succeeded, the README cleanup and the deletion. */
  function Trace(renamed: Stage, cargo: Stage, node: Stage, cleaned: bool, deleted: bool): seq<Ran> {
    var ran := renamed.ran + cargo.ran + node.ran;
    if renamed.ok && cargo.ok && node.ok then ran + [Ran(CleanReadme, cleaned), Ran(DeleteScript, deleted)]
    else ran
  }

  /** Stages that are each in order and gated, and that run only after the ones before
      succeeded, make a trace in order and gated. */
  lemma TraceWellRun(renamed: Stage, cargo: Stage, node: Stage, cleaned: bool, deleted: bool)
    requires WellRun(renamed.ran, 0, 2) && (renamed.ok ==> AllOk(renamed.ran))
    requires WellRun(cargo.ran, 2, 3) && (cargo.ok ==> AllOk(cargo.ran))
    requires WellRun(node.ran, 3, 5) && (node.ok ==> AllOk(node.ran))
    requires |cargo.ran| > 0 ==> renamed.ok
    requires |node.ran| > 0 ==> renamed.ok && cargo.ok
    ensures WellRun(Trace(renamed, cargo, node, cleaned, deleted), 0, 7)
  {
    AppendInOrderGated(renamed.ran, cargo.ran, 2, 3);
    if renamed.ok && cargo.ok {
      AllOkAppend(renamed.ran, cargo.ran);
    }
    AppendInOrderGated(renamed.ran + cargo.ran, node.ran, 3, 5);
    var ran := renamed.ran + cargo.ran + node.ran;
    if renamed.ok && cargo.ok && node.ok {
      AllOkAppend(renamed.ran + cargo.ran, node.ran);
      var final := [Ran(CleanReadme, cleaned), Ran(DeleteScript, deleted)];
      assert WellRun(final, 5, 7);
      AppendInOrderGated(ran, final, 5, 7);
    }
  }


  /** Two traces, each in order and gated, the second taken only after every step of the
      first succeeded, make a trace in order and gated. */
  lemma AppendInOrderGated(a: seq<Ran>, b: seq<Ran>, mid: nat, hi: nat)
    requires mid <= hi && WellRun(a, 0, mid) && WellRun(b, mid, hi)
    requires |b| > 0 ==> AllOk(a)
    requires forall j :: 0 <= j < |b| ==> b[j].step != EditReadme
    ensures WellRun(a + b, 0, hi)
  {
    var ab := a + b;
    forall i, j | 0 <= i < j < |ab|
      ensures Rank(ab[i].step) < Rank(ab[j].step)
    {
      if j < |a| {
        assert ab[i] == a[i] && ab[j] == a[j];
      } else if i < |a| {
        assert ab[i] == a[i] && ab[j] == b[j - |a|];
      } else {
        assert ab[i] == b[i - |a|] && ab[j] == b[j - |a|];
      }
    }
    forall i, j | 0 <= j < i < |ab| && ab[i].step != EditReadme && ab[j].step != CleanReadme
      ensures ab[j].ok
    {
      if i < |a| {
        assert ab[i] == a[i] && ab[j] == a[j];
      } else if j < |a| {
        assert ab[j] == a[j];
      } else {
        assert ab[i] == b[i - |a|] && ab[j] == b[j - |a|];
      }
    }
    forall k | 0 <= k < |ab|
      ensures 0 <= Rank(ab[k].step) < hi
    {
      if k < |a| {
        assert ab[k] == a[k];
      } else {
        assert ab[k] == b[k - |a|];
      }
    }
  }

  /** The steps of a run are taken in the script's order, each at most once, each only
      if its action is selected, and each (apart from the README edit, and apart from
      the cleanup's own failure) only after every earlier step succeeded. */
  lemma RunOrderedAndGated(name: string, actions: Actions, env: Env)
    ensures InOrder(RunSelectedActions(name, actions, env).ran)
    ensures Gated(RunSelectedActions(name, actions, env).ran)
  {
    if Validate(actions, DetectTools(env.path)).None? {
      var renamed := RenameStage(name, actions, env);
      var cargo := CargoStage(renamed.stage.ok, actions, env);
      var node := NodeStage(renamed.stage.ok && cargo.ok, actions, env);
      var clean := CleanReadmeFile(renamed.readme, env.readmeWritable);
      TraceWellRun(renamed.stage, cargo, node, clean.ok, env.scriptDeletable);
    }
  }

  /** A run that passed validation succeeded exactly when every action step it took
      succeeded, and it goes on to the cleanup and the deletion exactly then. */
  lemma RunSuccessIff(name: string, actions: Actions, env: Env)
    requires RunSelectedActions(name, actions, env).outcome.Completed?
    ensures var r := RunSelectedActions(name, actions, env);
      r.outcome.allSuccess <==> forall k :: 0 <= k < |r.ran| && ActionStep(r.ran[k].step) ==> r.ran[k].ok
    ensures var r := RunSelectedActions(name, actions, env);
      r.outcome.allSuccess <==> exists k :: 0 <= k < |r.ran| && r.ran[k].step == DeleteScript
  {
    var renamed := RenameStage(name, actions, env);
    var cargo := CargoStage(renamed.stage.ok, actions, env);
    var node := NodeStage(renamed.stage.ok && cargo.ok, actions, env);
    var clean := CleanReadmeFile(renamed.readme, env.readmeWritable);
    TraceSucceeds(renamed.stage, cargo, node, clean.ok, env.scriptDeletable);
  }

  /** A trace shows success exactly when every action step in it succeeded, and
      exactly when it reaches the deletion. */
  lemma TraceSucceeds(renamed: Stage, cargo: Stage, node: Stage, cleaned: bool, deleted: bool)
    requires RanksIn(renamed.ran, 0, 2) && (renamed.ok <==> AllOk(renamed.ran))
    requires RanksIn(cargo.ran, 2, 3) && (cargo.ok <==> AllOk(cargo.ran))
    requires RanksIn(node.ran, 3, 5) && (node.ok <==> AllOk(node.ran))
    ensures var t := Trace(renamed, cargo, node, cleaned, deleted);
      renamed.ok && cargo.ok && node.ok <==> forall k :: 0 <= k < |t| && ActionStep(t[k].step) ==> t[k].ok
    ensures var t := Trace(renamed, cargo, node, cleaned, deleted);
      renamed.ok && cargo.ok && node.ok <==> exists k :: 0 <= k < |t| && t[k].step == DeleteScript
  {
    var ran := renamed.ran + cargo.ran + node.ran;
    var t := Trace(renamed, cargo, node, cleaned, deleted);
    assert forall k :: 0 <= k < |ran| ==> ActionStep(ran[k].step) && ran[k].step != DeleteScript by {
      forall k | 0 <= k < |ran|
        ensures Rank(ran[k].step) < 5
      {
        if k < |renamed.ran| {
          assert ran[k] == renamed.ran[k];
        } else if k < |renamed.ran| + |cargo.ran| {
          assert ran[k] == cargo.ran[k - |renamed.ran|];
        } else {
          assert ran[k] == node.ran[k - |renamed.ran| - |cargo.ran|];
        }
      }
    }
    if renamed.ok && cargo.ok && node.ok {
      AllOkAppend(renamed.ran, cargo.ran);
      AllOkAppend(renamed.ran + cargo.ran, node.ran);
      assert t[|t| - 1].step == DeleteScript;
    } else if !renamed.ok {
      var k :| 0 <= k < |renamed.ran| && !renamed.ran[k].ok;
      assert t[k] == renamed.ran[k];
    } else if !cargo.ok {
      var k :| 0 <= k < |cargo.ran| && !cargo.ran[k].ok;
      assert t[|renamed.ran| + k] == cargo.ran[k];
    } else {
      var k :| 0 <= k < |node.ran| && !node.ran[k].ok;
      assert t[|renamed.ran| + |cargo.ran| + k] == node.ran[k];
    }
  }

  /** The last step of each action. */
  function FinalStep(a: Action): Step {
    match a
    case RenameAction => EditReadme
    case CargoUpgradeAction => CargoUpgrade
    case PnpmInstallAction => PnpmInstall
  }

  /** A fully successful run carried out every selected action. */
  lemma RunCompletesSelected(name: string, actions: Actions, env: Env, a: Action)
    requires RunSelectedActions(name, actions, env).outcome == Completed(true)
    requires Selected(actions, a)
    ensures Ran(FinalStep(a), true) in RunSelectedActions(name, actions, env).ran
  {
  }

  /** After a fully successful run with the rename selected, both files hold the new
      name, and the README has lost its setup blocks when it could be written. */
  lemma RunRenamedFiles(name: string, actions: Actions, env: Env)
    requires RunSelectedActions(name, actions, env).outcome == Completed(true)
    requires actions.rename
    ensures env.packageJson.Read? && env.readme.Read?
    ensures RunSelectedActions(name, actions, env).packageJson
      == Read(ReplaceAll(env.packageJson.text, NameField(OldProjectName), NameField(name)))
    ensures env.readmeWritable ==>
      RunSelectedActions(name, actions, env).readme == Read(RemoveSetupBlocks(ReplaceAll(env.readme.text, Heading(OldProjectTitle), Heading(ProjectName.ToTitleCase(name)))))
  {
  }

  /** Without the rename, a fully successful run only cleans the README. */
  lemma RunWithoutRename(name: string, actions: Actions, env: Env)
    requires RunSelectedActions(name, actions, env).outcome == Completed(true)
    requires !actions.rename
    ensures RunSelectedActions(name, actions, env).packageJson == env.packageJson
    ensures env.readme.Read? && env.readmeWritable ==>
      RunSelectedActions(name, actions, env).readme == Read(RemoveSetupBlocks(env.readme.text))
    ensures !env.readme.Read? ==> RunSelectedActions(name, actions, env).readme == env.readme
  {
  }

  /** Every step of the trace belongs to a selected action, or is the cleanup or the deletion. */
  predicate AllowedBy(actions: Actions, ran: seq<Ran>) {
    forall k :: 0 <= k < |ran| ==> Allows(actions, ran[k].step)
  }

  lemma AllowedTrace(actions: Actions, renamed: Stage, cargo: Stage, node: Stage, cleaned: bool, deleted: bool)
    requires AllowedBy(actions, renamed.ran) && AllowedBy(actions, cargo.ran) && AllowedBy(actions, node.ran)
    ensures AllowedBy(actions, Trace(renamed, cargo, node, cleaned, deleted))
  {
    var t := Trace(renamed, cargo, node, cleaned, deleted);
    forall k | 0 <= k < |t|
      ensures Allows(actions, t[k].step)
    {
      if k < |renamed.ran| {
        assert t[k] == renamed.ran[k];
      } else if k < |renamed.ran| + |cargo.ran| {
        assert t[k] == cargo.ran[k - |renamed.ran|];
      } else if k < |renamed.ran| + |cargo.ran| + |node.ran| {
        assert t[k] == node.ran[k - |renamed.ran| - |cargo.ran|];
      }
    }
  }

  /** A run takes only steps of the selected actions, besides the cleanup and the deletion. */
  lemma RunAllows(name: string, actions: Actions, env: Env)
    ensures AllowedBy(actions, RunSelectedActions(name, actions, env).ran)
  {
    if Validate(actions, DetectTools(env.path)).None? {
      ExecuteAllows(name, actions, env);
    }
  }

  lemma ExecuteAllows(name: string, actions: Actions, env: Env)
    ensures AllowedBy(actions, Execute(name, actions, env).ran)
  {
    var renamed := RenameStage(name, actions, env);
    var cargo := CargoStage(renamed.stage.ok, actions, env);
    var node := NodeStage(renamed.stage.ok && cargo.ok, actions, env);
    var clean := CleanReadmeFile(renamed.readme, env.readmeWritable);
    AllowedTrace(actions, renamed.stage, cargo, node, clean.ok, env.scriptDeletable);
  }

  // ---------------------------------------------------------------------------
  // The interactive menu and the session

  /** How the confirmation menu ends: back to the name prompt with the lines left,
      after a run, or cancelled (by `q` or at the end of input). */
  datatype MenuEnd = BackToName(rest: seq<string>) | Done(report: Report) | Cancelled

  /** The confirmation menu as written: `g` runs the selected actions and ends the menu
      whatever the run did, even when validation refused it and told the user they
      would return to the menu. */
  function ConfirmMenu(name: string, actions: Actions, lines: seq<string>, env: Env): (r: MenuEnd)
    ensures r.BackToName? ==> |r.rest| < |lines|
    ensures r.Done? ==> exists a :: r.report == RunSelectedActions(name, a, env)
    decreases |lines|
  {
    if |lines| == 0 then Cancelled
    else
      match Menu(actions, lines[0])
      case Stay(next) => ConfirmMenu(name, next, lines[1..], env)
      case GoBack => BackToName(lines[1..])
      case Go => Done(RunSelectedActions(name, actions, env))
      case Quit => Cancelled
  }

  /** The confirmation menu as the refusal message says it should behave: a run refused by
      validation returns to the menu with the same selection. */
  function ConfirmMenuFixed(name: string, actions: Actions, lines: seq<string>, env: Env): (r: MenuEnd)
    ensures r.BackToName? ==> |r.rest| < |lines|
    ensures r.Done? ==> r.report.outcome.Completed?
    ensures r.Done? ==> exists a :: r.report == RunSelectedActions(name, a, env)
    decreases |lines|
  {
    if |lines| == 0 then Cancelled
    else
      match Menu(actions, lines[0])
      case Stay(next) => ConfirmMenuFixed(name, next, lines[1..], env)
      case GoBack => BackToName(lines[1..])
      case Go =>
        var report := RunSelectedActions(name, actions, env);
        if report.outcome.Completed? then Done(report) else ConfirmMenuFixed(name, actions, lines[1..], env)
      case Quit => Cancelled
  }

  /** An environment without cargo on the PATH: the default selection is refused. */
  function NoCargo(env: Env): Env {
    env.(path := env.path.(cargo := false))
  }

  /** The menu answer `g`, as typed. */
  lemma ChoiceOfGo()
    ensures Choice("g") == "g"
  {
    var g := "g";
    assert !IsAsciiUpper(g[0]) && !IsSpace(g[0]);
    LowerNoUpper(g);
    StripStripped(g);
  }

  /** As written, answering `g` (see `ChoiceOfGo`) with `cargo` missing ends the menu with
      the refused run: the user never gets back to the menu to deselect the upgrade, as the
      refusal message promises. */
  lemma ConfirmMenuEndsOnRefusal(name: string, env: Env, lines: seq<string>)
    requires |lines| > 0 && Choice(lines[0]) == "g"
    ensures ConfirmMenu(name, AllSelected(), lines, NoCargo(env)) ==
      Done(Report(CargoMissing, [], env.packageJson, env.readme, false))
  {
    ConfirmMenuGoEnds(name, AllSelected(), lines, NoCargo(env));
  }

  /** As written, `g` always ends the menu with the run's report. */
  lemma ConfirmMenuGoEnds(name: string, actions: Actions, lines: seq<string>, env: Env)
    requires |lines| > 0 && Choice(lines[0]) == "g"
    ensures ConfirmMenu(name, actions, lines, env) == Done(RunSelectedActions(name, actions, env))
  {
  }

  /** Fixed, `g` on a selection that validation refuses goes on reading the menu with the
      same selection, so the user can deselect the action whose tool is missing. */
  lemma ConfirmMenuFixedRetries(name: string, actions: Actions, lines: seq<string>, env: Env)
    requires |lines| > 0 && Choice(lines[0]) == "g"
    requires !RunSelectedActions(name, actions, env).outcome.Completed?
    ensures ConfirmMenuFixed(name, actions, lines, env) == ConfirmMenuFixed(name, actions, lines[1..], env)
  {
  }

  /** The result of a whole session: the name chosen and the report of the run, or a
      cancellation. */
  datatype SessionEnd = SessionDone(name: string, report: Report) | SessionCancelled

  /** Line `k` is the first answer the name prompt accepts. */
  predicate FirstAccepted(lines: seq<string>, k: int) {
    && 0 <= k < |lines|
    && ProjectName.EnterName(lines[k]).AcceptedName?
    && forall j {:trigger ProjectName.EnterName(lines[j])} :: 0 <= j < k ==> !ProjectName.EnterName(lines[j]).AcceptedName?
  }

  /** The name prompt: lines are read until one, stripped, is a valid name; that name and
      the lines after it are the result, and nothing when no line is accepted
      (`ReadNameFirstAccepted` pins which line). */
  function ReadName(lines: seq<string>): (r: Option<(string, seq<string>)>)
    ensures r.None? <==> forall k {:trigger ProjectName.EnterName(lines[k])} :: 0 <= k < |lines| ==> !ProjectName.EnterName(lines[k]).AcceptedName?
    ensures r.Some? ==> ProjectName.KebabName(r.value.0) && |r.value.1| < |lines|
    decreases |lines|
  {
    if |lines| == 0 then None
    else
      match ProjectName.EnterName(lines[0])
      case AcceptedName(n) => Some((n, lines[1..]))
      case _ =>
        var r := ReadName(lines[1..]);
        ReadNameShift(lines, r.None?);
        r
  }

  /** A helper for `ReadName`: no line is accepted exactly when neither the first nor any
      later one is. */
  lemma ReadNameShift(lines: seq<string>, noneLater: bool)
    requires |lines| > 0 && !ProjectName.EnterName(lines[0]).AcceptedName?
    requires noneLater <==> forall k {:trigger ProjectName.EnterName(lines[1..][k])} :: 0 <= k < |lines[1..]| ==> !ProjectName.EnterName(lines[1..][k]).AcceptedName?
    ensures noneLater <==> forall k {:trigger ProjectName.EnterName(lines[k])} :: 0 <= k < |lines| ==> !ProjectName.EnterName(lines[k]).AcceptedName?
  {
    if noneLater {
      forall k | 1 <= k < |lines|
        ensures !ProjectName.EnterName(lines[k]).AcceptedName?
      {
        assert lines[k] == lines[1..][k - 1];
      }
    } else {
      var k :| 0 <= k < |lines[1..]| && ProjectName.EnterName(lines[1..][k]).AcceptedName?;
      assert lines[1..][k] == lines[k + 1];
    }
  }

  /** The name prompt returns the first accepted answer and exactly the lines after it. */
  lemma {:induction false} ReadNameFirstAccepted(lines: seq<string>, k: int)
    requires FirstAccepted(lines, k)
    ensures ReadName(lines) == Some((ProjectName.EnterName(lines[k]).name, lines[k + 1..]))
    decreases k
  {
    if k > 0 {
      FirstAcceptedTail(lines, k);
      ReadNameFirstAccepted(lines[1..], k - 1);
      ReadNameSkip(lines);
    }
  }

  /** A first accepted line after the first is the one before it in the rest of the lines. */
  lemma FirstAcceptedTail(lines: seq<string>, k: int)
    requires FirstAccepted(lines, k) && k > 0
    ensures FirstAccepted(lines[1..], k - 1) && !ProjectName.EnterName(lines[0]).AcceptedName?
    ensures lines[1..][k - 1] == lines[k] && lines[1..][k..] == lines[k + 1..]
  {
    forall j | 0 <= j < k - 1
      ensures !ProjectName.EnterName(lines[1..][j]).AcceptedName?
    {
      assert lines[1..][j] == lines[j + 1];
    }
  }

  /** A refused first line is skipped. */
  lemma ReadNameSkip(lines: seq<string>)
    requires |lines| > 0 && !ProjectName.EnterName(lines[0]).AcceptedName?
    ensures ReadName(lines) == ReadName(lines[1..])
  {
  }

  /** The interactive session as written: a name, then the menu, and back to the name on
      `b`; the run the menu starts ends the session, whatever its outcome. */
  function InteractiveSession(lines: seq<string>, env: Env): (r: SessionEnd)
    ensures r.SessionDone? ==> ProjectName.KebabName(r.name)
    ensures r.SessionDone? ==> exists a :: r.report == RunSelectedActions(r.name, a, env)
    decreases |lines|
  {
    match ReadName(lines)
    case None => SessionCancelled
    case Some((name, rest)) =>
      match ConfirmMenu(name, AllSelected(), rest, env)
      case BackToName(rest2) => InteractiveSession(rest2, env)
      case Done(report) => SessionDone(name, report)
      case Cancelled => SessionCancelled
  }

  /** The interactive session with the corrected menu: a session ends with a run only when
      validation let that run go ahead. */
  function InteractiveSessionFixed(lines: seq<string>, env: Env): (r: SessionEnd)
    ensures r.SessionDone? ==> ProjectName.KebabName(r.name) && r.report.outcome.Completed?
    ensures r.SessionDone? ==> exists a :: r.report == RunSelectedActions(r.name, a, env)
    decreases |lines|
  {
    match ReadName(lines)
    case None => SessionCancelled
    case Some((name, rest)) =>
      match ConfirmMenuFixed(name, AllSelected(), rest, env)
      case BackToName(rest2) => InteractiveSessionFixed(rest2, env)
      case Done(report) => SessionDone(name, report)
      case Cancelled => SessionCancelled
  }

  /** As written, a session whose first menu answer is `g` while `cargo` is missing ends
      with the refused run and the files untouched. */
  lemma InteractiveSessionEndsOnRefusal(lines: seq<string>, env: Env)
    requires ReadName(lines).Some?
    requires var rest := ReadName(lines).value.1; |rest| > 0 && Choice(rest[0]) == "g"
    ensures InteractiveSession(lines, NoCargo(env)) ==
      SessionDone(ReadName(lines).value.0, Report(CargoMissing, [], env.packageJson, env.readme, false))
  {
    var name := ReadName(lines).value.0;
    ConfirmMenuEndsOnRefusal(name, env, ReadName(lines).value.1);
  }

  /** When the tools are all there, validation never refuses a run. */
  predicate ToolsPresent(env: Env) {
    env.path.cargo && (env.path.pnpm || env.path.npm)
  }

  /** With the tools present, the menu as written and the corrected menu behave alike. */
  lemma {:induction false} MenusAgree(name: string, actions: Actions, lines: seq<string>, env: Env)
    requires ToolsPresent(env)
    ensures ConfirmMenu(name, actions, lines, env) == ConfirmMenuFixed(name, actions, lines, env)
    decreases |lines|
  {
    if |lines| > 0 {
      match Menu(actions, lines[0])
      case Stay(next) => MenusAgree(name, next, lines[1..], env);
      case GoBack =>
      case Go => assert RunSelectedActions(name, actions, env).outcome.Completed?;
      case Quit =>
    }
  }

  /** With the tools present, the session as written and the corrected session behave alike. */
  lemma {:induction false} SessionsAgree(lines: seq<string>, env: Env)
    requires ToolsPresent(env)
    ensures InteractiveSession(lines, env) == InteractiveSessionFixed(lines, env)
    decreases |lines|
  {
    match ReadName(lines)
    case None =>
    case Some((name, rest)) =>
      MenusAgree(name, AllSelected(), rest, env);
      match ConfirmMenu(name, AllSelected(), rest, env)
      case BackToName(rest2) => SessionsAgree(rest2, env);
      case Done(_) =>
      case Cancelled =>
  }

  // ---------------------------------------------------------------------------
  // The command line

  /** The confirmation answer of the automated mode: `y` or `yes` in any case, and
      nothing else (the answer is not stripped). */
  predicate Confirms(answer: string) {
    Lower(answer) == "y" || Lower(answer) == "yes"
  }

  /** The automated mode: unless `--yes` was given, the run waits for a confirming answer
      (none at the end of input); then every action is selected. */
  function AutomatedSession(name: string, skipConfirmation: bool, answer: Option<string>, env: Env): (r: SessionEnd)
    ensures r.SessionDone? <==> skipConfirmation || (answer.Some? && Confirms(answer.value))
    ensures r.SessionDone? ==> r.name == name && r.report == RunSelectedActions(name, AllSelected(), env)
  {
    if !skipConfirmation && (answer.None? || !Confirms(answer.value)) then SessionCancelled
    else SessionDone(name, RunSelectedActions(name, AllSelected(), env))
  }

  /** The mode the script picks from its optional argument. */
  datatype Mode = InteractiveMode | AutomatedMode(name: string) | InvalidNameExit

  /** What the validator as written accepts: a name of the documented form, possibly
      followed by one newline. */
  predicate TrailingNewlineOrName(a: string) {
    || ProjectName.KebabName(a)
    || (|a| > 0 && a[|a| - 1] == '\n' && ProjectName.KebabName(a[..|a| - 1]))
  }

  /** No argument, or an empty one, starts the interactive mode; a name the validator
      accepts the automated mode; anything else exits with status 1. The validator is the
      one the script has, so a name with one trailing newline goes through unchanged. */
  function ChooseMode(argument: Option<string>): (m: Mode)
    ensures m == InteractiveMode <==> argument.None? || argument.value == ""
    ensures m.AutomatedMode? <==> argument.Some? && TrailingNewlineOrName(argument.value)
    ensures m.AutomatedMode? ==> m.name == argument.value
  {
    if argument.None? || argument.value == "" then InteractiveMode
    else
      match ProjectName.ValidateProjectName(argument.value)
      case None => InvalidNameExit
      case Some(name) => AutomatedMode(name)
  }

  /** The mode chosen with the full-match validator: the automated mode runs only with a
      name of the documented form. */
  function ChooseModeStrict(argument: Option<string>): (m: Mode)
    ensures m == InteractiveMode <==> argument.None? || argument.value == ""
    ensures m.AutomatedMode? <==> argument.Some? && ProjectName.KebabName(argument.value)
    ensures m.AutomatedMode? ==> m.name == argument.value
  {
    if argument.None? || argument.value == "" then InteractiveMode
    else
      match ProjectName.ValidateProjectNameStrict(argument.value)
      case None => InvalidNameExit
      case Some(name) => AutomatedMode(name)
  }

  /** As written, `app` followed by a newline on the command line starts the automated
      mode with that newline in the name; with the full-match validator it exits. */
  lemma ChooseModeAcceptsTrailingNewline()
    ensures ChooseMode(Some("app\n")) == AutomatedMode("app\n")
    ensures ChooseModeStrict(Some("app\n")) == InvalidNameExit
  {
    ProjectName.ValidateAcceptsTrailingNewline();
  }

  /** The two choices agree on every argument that does not end in a newline. */
  lemma ChooseModesAgree(argument: Option<string>)
    requires argument.None? || |argument.value| == 0 || argument.value[|argument.value| - 1] != '\n'
    ensures ChooseMode(argument) == ChooseModeStrict(argument)
  {
    if argument.Some? {
      ProjectName.StrictAgreesWithoutNewline(argument.value);
    }
  }
}

=== FILE: state.dfy ===
/** The drawing state of the `base` crate: an ordered list of circles.

    `f64` fields are modelled as `real`. The random radius and colour channels
    that `add_shape` draws are passed in as a `Sample` whose ranges are the
    ones the generator guarantees. */
module State {
  import opened Wrappers
  import opened Strings

  /** The absolute tolerance `1e-9` used when comparing coordinates and radii. */
  const Epsilon: real := 0.000000001

  datatype Shape = Shape(x: real, y: real, radius: real, color: string)

  datatype DrawingState = DrawingState(shapes: seq<Shape>)

  /** One draw of the random generator: a radius and three colour channels. */
  datatype Sample = Sample(radius: real, red: nat, green: nat, blue: nat)

  /** The ranges the generator draws from: radius in [10, 50], each channel in [100, 255]. */
  predicate ValidSample(d: Sample) {
    && 10.0 <= d.radius <= 50.0
    && 100 <= d.red <= 255
    && 100 <= d.green <= 255
    && 100 <= d.blue <= 255
  }

  function Abs(r: real): real {
    if r < 0.0 then -r else r
  }

  /** Shape equality: coordinates and radius within `Epsilon`, colours identical. */
  predicate ShapeEq(a: Shape, b: Shape) {
    && Abs(a.x - b.x) < Epsilon
    && Abs(a.y - b.y) < Epsilon
    && Abs(a.radius - b.radius) < Epsilon
    && a.color == b.color
  }

  lemma ShapeEqReflexive(a: Shape)
    ensures ShapeEq(a, a)
  {
  }

  lemma ShapeEqSymmetric(a: Shape, b: Shape)
    ensures ShapeEq(a, b) <==> ShapeEq(b, a)
  {
  }

  /** The tolerance makes shape equality intransitive: three shapes spaced
      0.6 * Epsilon apart along x are pairwise equal neighbours but the outer two differ. */
  lemma ShapeEqNotTransitive()
    ensures exists a, b, c :: ShapeEq(a, b) && ShapeEq(b, c) && !ShapeEq(a, c)
  {
    var a := Shape(0.0, 0.0, 10.0, "rgb(100, 100, 100)");
    var b := a.(x := 0.0000000006);
    var c := a.(x := 0.0000000012);
    assert ShapeEq(a, b) && ShapeEq(b, c) && !ShapeEq(a, c);
  }

  /** Derived equality of drawing states: same length, pairwise equal shapes. */
  predicate StateEq(a: DrawingState, b: DrawingState) {
    && |a.shapes| == |b.shapes|
    && forall i :: 0 <= i < |a.shapes| ==> ShapeEq(a.shapes[i], b.shapes[i])
  }

  lemma StateEqReflexive(a: DrawingState)
    ensures StateEq(a, a)
  {
  }

  lemma StateEqSymmetric(a: DrawingState, b: DrawingState)
    ensures StateEq(a, b) <==> StateEq(b, a)
  {
  }

  // ---------------------------------------------------------------------------
  // Colours

  /** The colour text `rgb(R, G, B)` with each channel in decimal. */
  function RgbColor(red: nat, green: nat, blue: nat): string {
    "rgb(" + Decimal(red) + ", " + Decimal(green) + ", " + Decimal(blue) + ")"
  }

  /** Splits `s` into its longest all-digit prefix and the rest. */
  function TakeDigits(s: string): (r: (string, string))
    ensures r.0 + r.1 == s
    ensures AllDigits(r.0)
    ensures |r.1| == 0 || !IsDigit(r.1[0])
    decreases |s|
  {
    if |s| == 0 || !IsDigit(s[0]) then ("", s)
    else
      var (d, t) := TakeDigits(s[1..]);
      assert ([s[0]] + d) + t == [s[0]] + (d + t) == s;
      ([s[0]] + d, t)
  }

  lemma {:induction false} TakeDigitsOf(d: string, t: string)
    requires AllDigits(d)
    requires |t| == 0 || !IsDigit(t[0])
    ensures TakeDigits(d + t) == (d, t)
    decreases |d|
  {
    if |d| > 0 {
      TakeDigitsOf(d[1..], t);
      assert (d + t)[0] == d[0] && IsDigit(d[0]);
      assert (d + t)[1..] == d[1..] + t;
      assert [d[0]] + d[1..] == d;
    } else {
      assert d + t == t;
    }
  }

  /** Reads a decimal numeral followed by `terminator`; yields the number and what follows. */
  function ParseField(s: string, terminator: string): Option<(nat, string)> {
    var (d, t) := TakeDigits(s);
    if |d| == 0 || !(terminator <= t) then None
    else Some((ParseDecimal(d), t[|terminator|..]))
  }

  lemma ParseFieldOf(n: nat, terminator: string, rest: string)
    requires |terminator| > 0 && !IsDigit(terminator[0])
    ensures ParseField(Decimal(n) + terminator + rest, terminator) == Some((n, rest))
  {
    var d := Decimal(n);
    assert d + terminator + rest == d + (terminator + rest);
    TakeDigitsOf(d, terminator + rest);
    PrefixThenRest(terminator, rest);
    ParseDecimalOfDecimal(n);
  }

  lemma PrefixThenRest(p: string, rest: string)
    ensures p <= p + rest && (p + rest)[|p|..] == rest
  {
  }

  /** Reads the three channels back out of a colour of the form `rgb(R, G, B)`. */
  function ParseRgb(s: string): Option<(nat, nat, nat)> {
    if !("rgb(" <= s) then None
    else
      match ParseField(s[4..], ", ")
      case None => None
      case Some((r, t1)) =>
        match ParseField(t1, ", ")
        case None => None
        case Some((g, t2)) =>
          match ParseField(t2, ")")
          case None => None
          case Some((b, t3)) => if t3 == "" then Some((r, g, b)) else None
  }

  /** A formatted colour parses back to its three channels. */
  lemma ParseRgbColor(red: nat, green: nat, blue: nat)
    ensures ParseRgb(RgbColor(red, green, blue)) == Some((red, green, blue))
  {
    var a, b, c := Decimal(red), Decimal(green), Decimal(blue);
    var s := RgbColor(red, green, blue);
    assert s[4..] == a + ", " + (b + ", " + c + ")");
    ParseFieldOf(red, ", ", b + ", " + c + ")");
    assert b + ", " + c + ")" == b + ", " + (c + ")");
    ParseFieldOf(green, ", ", c + ")");
    assert c + ")" == c + ")" + "";
    ParseFieldOf(blue, ")", "");
  }

  /** Different channel triples never produce the same colour text. */
  lemma RgbColorInjective(r1: nat, g1: nat, b1: nat, r2: nat, g2: nat, b2: nat)
    requires RgbColor(r1, g1, b1) == RgbColor(r2, g2, b2)
    ensures r1 == r2 && g1 == g2 && b1 == b2
  {
    ParseRgbColor(r1, g1, b1);
    ParseRgbColor(r2, g2, b2);
  }

  // ---------------------------------------------------------------------------
  // Operations

  /** What every shape produced by `add_shape` satisfies. */
  predicate GeneratedShape(s: Shape) {
    && 10.0 <= s.radius <= 50.0
    && "rgb(" <= s.color
    && ParseRgb(s.color).Some?
    && var (r, g, b) := ParseRgb(s.color).value;
       100 <= r <= 255 && 100 <= g <= 255 && 100 <= b <= 255
  }

  /** Every shape of the state was produced by `add_shape`. */
  predicate WellFormed(s: DrawingState) {
    forall i :: 0 <= i < |s.shapes| ==> GeneratedShape(s.shapes[i])
  }

  function New(): (s: DrawingState)
    ensures |s.shapes| == 0
    ensures WellFormed(s)
  {
    DrawingState([])
  }

  /** Appends one circle at `(x, y)` whose radius and colour come from `d`. */
  function AddShape(s: DrawingState, x: real, y: real, d: Sample): (r: DrawingState)
    requires ValidSample(d)
    ensures |r.shapes| == |s.shapes| + 1
    ensures r.shapes[..|s.shapes|] == s.shapes
    ensures r.shapes[|s.shapes|].x == x && r.shapes[|s.shapes|].y == y
    ensures r.shapes[|s.shapes|].radius == d.radius
    ensures ParseRgb(r.shapes[|s.shapes|].color) == Some((d.red, d.green, d.blue))
    ensures GeneratedShape(r.shapes[|s.shapes|])
    ensures WellFormed(s) ==> WellFormed(r)
  {
    ParseRgbColor(d.red, d.green, d.blue);
    DrawingState(s.shapes + [Shape(x, y, d.radius, RgbColor(d.red, d.green, d.blue))])
  }

  /** Removes every shape. */
  function ClearShapes(s: DrawingState): (r: DrawingState)
    ensures |r.shapes| == 0
    ensures WellFormed(r)
  {
    DrawingState([])
  }

  lemma ClearShapesIdempotent(s: DrawingState)
    ensures ClearShapes(ClearShapes(s)) == ClearShapes(s)
    ensures StateEq(ClearShapes(s), New())
  {
  }

  /** Adding the same point and sample to equal states gives equal states. */
  lemma AddShapeRespectsStateEq(a: DrawingState, b: DrawingState, x: real, y: real, d: Sample)
    requires ValidSample(d)
    requires StateEq(a, b)
    ensures StateEq(AddShape(a, x, y, d), AddShape(b, x, y, d))
  {
    var ra, rb := AddShape(a, x, y, d), AddShape(b, x, y, d);
    forall i | 0 <= i < |ra.shapes|
      ensures ShapeEq(ra.shapes[i], rb.shapes[i])
    {
      if i < |a.shapes| {
        assert ra.shapes[i] == a.shapes[i];
        assert rb.shapes[i] == b.shapes[i];
      }
    }
  }

  /** One mouse position with the random draw that `add_shape` makes for it. */
  datatype Click = Click(x: real, y: real, sample: Sample)

  predicate ValidClicks(clicks: seq<Click>) {
    forall k :: 0 <= k < |clicks| ==> ValidSample(clicks[k].sample)
  }

  /** The shape `add_shape` appends for one click. */
  function ShapeFor(c: Click): Shape {
    Shape(c.x, c.y, c.sample.radius, RgbColor(c.sample.red, c.sample.green, c.sample.blue))
  }

  /** `add_shape` called once per click, in order. */
  function AddShapes(s: DrawingState, clicks: seq<Click>): DrawingState
    requires ValidClicks(clicks)
    decreases |clicks|
  {
    if |clicks| == 0 then s
    else
      var last := clicks[|clicks| - 1];
      AddShape(AddShapes(s, clicks[..|clicks| - 1]), last.x, last.y, last.sample)
  }

  /** The shapes `add_shape` appends for the clicks, one per click in order. */
  function ShapesFor(clicks: seq<Click>): (r: seq<Shape>)
    ensures |r| == |clicks|
    ensures forall k :: 0 <= k < |clicks| ==> r[k] == ShapeFor(clicks[k])
  {
    seq(|clicks|, k requires 0 <= k < |clicks| => ShapeFor(clicks[k]))
  }

  /** One add appends the shape for its click. */
  lemma AddShapeClick(s: DrawingState, c: Click)
    requires ValidSample(c.sample)
    ensures AddShape(s, c.x, c.y, c.sample).shapes == s.shapes + [ShapeFor(c)]
  {
  }

  /** n successive adds append one shape per click, in call order, after the existing ones. */
  lemma {:induction false} AddShapesAppends(s: DrawingState, clicks: seq<Click>)
    requires ValidClicks(clicks)
    ensures AddShapes(s, clicks).shapes == s.shapes + ShapesFor(clicks)
    decreases |clicks|
  {
    if |clicks| == 0 {
      assert s.shapes + ShapesFor(clicks) == s.shapes;
    } else {
      var init := clicks[..|clicks| - 1];
      var last := clicks[|clicks| - 1];
      AddShapesAppends(s, init);
      AddShapeClick(AddShapes(s, init), last);
      ShapesForSnoc(clicks);
      ShapesAssoc(s.shapes, ShapesFor(init), [ShapeFor(last)]);
    }
  }

  lemma ShapesForSnoc(clicks: seq<Click>)
    requires |clicks| > 0
    ensures ShapesFor(clicks) == ShapesFor(clicks[..|clicks| - 1]) + [ShapeFor(clicks[|clicks| - 1])]
  {
  }

  lemma ShapesAssoc(a: seq<Shape>, b: seq<Shape>, c: seq<Shape>)
    ensures (a + b) + c == a + (b + c)
  {
  }

  lemma {:induction false} AddShapesWellFormed(s: DrawingState, clicks: seq<Click>)
    requires ValidClicks(clicks)
    requires WellFormed(s)
    ensures WellFormed(AddShapes(s, clicks))
    decreases |clicks|
  {
    if |clicks| > 0 {
      AddShapesWellFormed(s, clicks[..|clicks| - 1]);
    }
  }

  /** From a new state, n adds give exactly the shapes of the clicks, one per click in order. */
  lemma AddShapesFromNew(clicks: seq<Click>)
    requires ValidClicks(clicks)
    ensures AddShapes(New(), clicks).shapes == ShapesFor(clicks)
  {
    AddShapesAppends(New(), clicks);
    assert New().shapes + ShapesFor(clicks) == ShapesFor(clicks);
  }
}

=== FILE: strings.dfy ===
/** Character-level string helpers shared by the model: substring search,
    splitting and joining on one separator, ASCII case mapping and decimal
    rendering of natural numbers. Strings are `seq<char>`; case mapping is the
    ASCII part of Unicode case mapping only. */
module Strings {
  import opened Wrappers

  /** `pat` starts at index `i` of `s`. */
  predicate OccursAt(s: string, pat: string, i: nat) {
    i + |pat| <= |s| && s[i..i + |pat|] == pat
  }

  /** The index of the leftmost occurrence of `pat` in `s` at or after `from`, as a
      left-to-right scan finds it. */
  function FindFrom(s: string, pat: string, from: nat): (r: Option<nat>)
    requires from <= |s|
    ensures r.Some? ==> from <= r.value && OccursAt(s, pat, r.value)
    decreases |s| - from
  {
    if OccursAt(s, pat, from) then Some(from)
    else if from == |s| then None
    else FindFrom(s, pat, from + 1)
  }

  /** The index of the leftmost occurrence of `pat` in `s` (Python `str.find`, JavaScript `indexOf`). */
  function Find(s: string, pat: string): (r: Option<nat>)
    ensures r.Some? ==> OccursAt(s, pat, r.value)
  {
    FindFrom(s, pat, 0)
  }

  /** `FindFrom` skips no occurrence, and finds nothing only when there is none. */
  lemma {:induction false} FindFromLeftmost(s: string, pat: string, from: nat)
    requires from <= |s|
    ensures FindFrom(s, pat, from).Some? ==>
      forall j :: from <= j < FindFrom(s, pat, from).value ==> !OccursAt(s, pat, j)
    ensures FindFrom(s, pat, from).None? ==> forall j :: from <= j <= |s| ==> !OccursAt(s, pat, j)
    decreases |s| - from
  {
    if !OccursAt(s, pat, from) && from < |s| {
      FindFromLeftmost(s, pat, from + 1);
    }
  }

  /** `pat` occurs somewhere in `s` (JavaScript `includes`, Python `in`). */
  predicate Contains(s: string, pat: string) {
    Find(s, pat).Some?
  }

  lemma ContainsIffOccurs(s: string, pat: string)
    ensures Contains(s, pat) <==> exists i :: 0 <= i <= |s| && OccursAt(s, pat, i)
  {
    FindFromLeftmost(s, pat, 0);
  }

  /** Python `str.split(sep)` for a one-character separator: the pieces between
      separators, empty pieces included, so there is one more piece than separators. */
  function Split(s: string, sep: char): (parts: seq<string>)
    ensures |parts| >= 1
    ensures forall k :: 0 <= k < |parts| ==> sep !in parts[k]
    decreases |s|
  {
    if |s| == 0 then [""]
    else
      var rest := Split(s[1..], sep);
      if s[0] == sep then [""] + rest
      else [[s[0]] + rest[0]] + rest[1..]
  }

  /** Python `sep.join(parts)` for a one-character separator. */
  function Join(parts: seq<string>, sep: char): string
    requires |parts| >= 1
    decreases |parts|
  {
    if |parts| == 1 then parts[0] else parts[0] + [sep] + Join(parts[1..], sep)
  }

  /** Joining the pieces of a split on the same separator restores the string. */
  lemma {:induction false} JoinSplit(s: string, sep: char)
    ensures Join(Split(s, sep), sep) == s
    decreases |s|
  {
    if |s| > 0 {
      JoinSplit(s[1..], sep);
      var rest := Split(s[1..], sep);
      if s[0] != sep {
        var parts := [[s[0]] + rest[0]] + rest[1..];
        if |rest| > 1 {
          assert parts[1..] == rest[1..];
          assert Join(rest, sep) == rest[0] + [sep] + Join(rest[1..], sep);
        }
      } else {
        assert ([""] + rest)[1..] == rest;
      }
    }
  }

  /** A string without the separator is split into itself alone. */
  lemma {:induction false} SplitNoSep(p: string, sep: char)
    requires sep !in p
    ensures Split(p, sep) == [p]
    decreases |p|
  {
    if |p| > 0 {
      SplitNoSep(p[1..], sep);
      assert [p[0]] + p[1..] == p;
    }
  }

  /** A leading piece without the separator, followed by the separator, splits off as the first piece. */
  lemma {:induction false} SplitAfterPiece(p: string, r: string, sep: char)
    requires sep !in p
    ensures Split(p + [sep] + r, sep) == [p] + Split(r, sep)
    decreases |p|
  {
    var s := p + [sep] + r;
    if |p| == 0 {
      assert s[1..] == r;
    } else {
      assert s[1..] == p[1..] + [sep] + r;
      SplitAfterPiece(p[1..], r, sep);
      assert [p[0]] + p[1..] == p;
    }
  }

  /** Splitting a join of separator-free pieces gives the pieces back. */
  lemma {:induction false} SplitJoin(parts: seq<string>, sep: char)
    requires |parts| >= 1
    requires forall k :: 0 <= k < |parts| ==> sep !in parts[k]
    ensures Split(Join(parts, sep), sep) == parts
    decreases |parts|
  {
    if |parts| == 1 {
      SplitNoSep(parts[0], sep);
    } else {
      SplitJoin(parts[1..], sep);
      SplitAfterPiece(parts[0], Join(parts[1..], sep), sep);
      assert [parts[0]] + parts[1..] == parts;
    }
  }

  /** Joins of equally many pieces of pairwise equal lengths have equal lengths. */
  lemma {:induction false} JoinSameLength(a: seq<string>, b: seq<string>, sa: char, sb: char)
    requires |a| == |b| >= 1
    requires forall k :: 0 <= k < |a| ==> |a[k]| == |b[k]|
    ensures |Join(a, sa)| == |Join(b, sb)|
    decreases |a|
  {
    if |a| > 1 {
      JoinSameLength(a[1..], b[1..], sa, sb);
    }
  }

  /** The number of times `c` occurs in `s`. */
  function CountChar(s: string, c: char): nat
    decreases |s|
  {
    if |s| == 0 then 0 else (if s[0] == c then 1 else 0) + CountChar(s[1..], c)
  }

  /** Splitting yields exactly one more piece than there are separators. */
  lemma {:induction false} SplitCount(s: string, sep: char)
    ensures |Split(s, sep)| == CountChar(s, sep) + 1
    decreases |s|
  {
    if |s| > 0 {
      SplitCount(s[1..], sep);
    }
  }

  predicate IsAsciiUpper(c: char) { 'A' <= c <= 'Z' }
  predicate IsAsciiLower(c: char) { 'a' <= c <= 'z' }
  predicate IsDigit(c: char) { '0' <= c <= '9' }

  function LowerChar(c: char): (r: char)
    ensures !IsAsciiUpper(r)
    ensures IsAsciiUpper(c) ==> IsAsciiLower(r)
    ensures !IsAsciiUpper(c) ==> r == c
  {
    if IsAsciiUpper(c) then (c as int + 32) as char else c
  }

  function UpperChar(c: char): (r: char)
    ensures !IsAsciiLower(r)
    ensures IsAsciiLower(c) ==> IsAsciiUpper(r)
    ensures !IsAsciiLower(c) ==> r == c
  {
    if IsAsciiLower(c) then (c as int - 32) as char else c
  }

  lemma LowerUpper(c: char)
    requires !IsAsciiUpper(c)
    ensures LowerChar(UpperChar(c)) == c
  {
  }

  /** `s` with every ASCII capital letter made small; other characters kept. */
  function Lower(s: string): (r: string)
    ensures |r| == |s|
    ensures forall i :: 0 <= i < |s| ==> r[i] == LowerChar(s[i])
  {
    seq(|s|, i requires 0 <= i < |s| => LowerChar(s[i]))
  }

  /** Python's `str.isspace` characters: the ASCII blanks and separators
      and the Unicode white-space code points. */
  predicate IsSpace(c: char) {
    || '\t' <= c <= '\r'
    || '\U{001C}' <= c <= ' '
    || c == '\U{0085}' || c == '\U{00A0}' || c == '\U{1680}'
    || '\U{2000}' <= c <= '\U{200A}'
    || c == '\U{2028}' || c == '\U{2029}' || c == '\U{202F}' || c == '\U{205F}' || c == '\U{3000}'
  }

  /** Every character of `s` from `lo` up to `hi` is white space. */
  predicate AllSpace(s: string, lo: int, hi: int)
    requires 0 <= lo && hi <= |s|
  {
    forall k :: lo <= k < hi ==> IsSpace(s[k])
  }

  /** Everything of `s` before `i` and from `j` on is white space. */
  predicate SpaceOutside(s: string, i: nat, j: nat)
    requires i <= j <= |s|
  {
    AllSpace(s, 0, i) && AllSpace(s, j, |s|)
  }

  /** Where the white space of `s` that starts at `i` ends: the first index from `i` on
      that holds no white space, or `|s|`. */
  function SkipSpace(s: string, i: nat): (j: nat)
    requires i <= |s|
    ensures i <= j <= |s| && AllSpace(s, i, j)
    ensures j < |s| ==> !IsSpace(s[j])
    decreases |s| - i
  {
    if i < |s| && IsSpace(s[i]) then SkipSpace(s, i + 1) else i
  }

  /** Where the white space of `s` that ends at `j` starts, looking no further back than `lo`:
      the index after the last character before `j` that is not white space, or `lo`. */
  function SkipSpaceBack(s: string, lo: nat, j: nat): (k: nat)
    requires lo <= j <= |s|
    ensures lo <= k <= j && AllSpace(s, k, j)
    ensures k > lo ==> !IsSpace(s[k - 1])
    decreases j
  {
    if lo < j && IsSpace(s[j - 1]) then SkipSpaceBack(s, lo, j - 1) else j
  }

  /** Where the stripped text starts in `s`: after the leading white space. */
  function StripStart(s: string): (i: nat)
    ensures i <= |s| && AllSpace(s, 0, i)
    ensures i < |s| ==> !IsSpace(s[i])
  {
    SkipSpace(s, 0)
  }

  /** Where the stripped text ends in `s`: before the trailing white space. */
  function StripEnd(s: string): (j: nat)
    ensures StripStart(s) <= j <= |s| && AllSpace(s, j, |s|)
    ensures j > StripStart(s) ==> !IsSpace(s[j - 1])
  {
    SkipSpaceBack(s, StripStart(s), |s|)
  }

  /** Python `str.strip()`: `s` without its leading and trailing white space. */
  function Strip(s: string): (r: string)
    ensures |r| <= |s|
    ensures |r| > 0 ==> !IsSpace(r[0]) && !IsSpace(r[|r| - 1])
    ensures (forall k :: 0 <= k < |s| ==> !IsSpace(s[k])) ==> r == s
    ensures |r| == 0 <==> forall k :: 0 <= k < |s| ==> IsSpace(s[k])
    // the result is the middle of `s`, with only white space cut at either end
    ensures exists i, j :: 0 <= i <= j <= |s| && r == s[i..j] && SpaceOutside(s, i, j)
  {
    s[StripStart(s)..StripEnd(s)]
  }

  /** Stripping twice is stripping once. */
  lemma StripIdempotent(s: string)
    ensures Strip(Strip(s)) == Strip(s)
  {
    StripStripped(Strip(s));
  }

  /** `Strip` is the only way to cut white space from the ends of `s` so that none is
      left at either end: any such slice is `Strip(s)`. */
  lemma StripUnique(s: string, i: nat, j: nat)
    requires i <= j <= |s| && SpaceOutside(s, i, j)
    requires i == j || (!IsSpace(s[i]) && !IsSpace(s[j - 1]))
    ensures Strip(s) == s[i..j]
  {
    var a, b := StripStart(s), StripEnd(s);
    if i == j {
      assert AllSpace(s, 0, |s|);
    } else {
      assert a < b by {
        assert !IsSpace(s[i]);
      }
      SameTrimmedSlice(s, i, j, a, b);
    }
  }

  /** Two slices of `s` that cut only white space and keep none at their ends are the same slice. */
  lemma SameTrimmedSlice(s: string, i: nat, j: nat, a: nat, b: nat)
    requires i < j <= |s| && SpaceOutside(s, i, j) && !IsSpace(s[i]) && !IsSpace(s[j - 1])
    requires a < b <= |s| && SpaceOutside(s, a, b) && !IsSpace(s[a]) && !IsSpace(s[b - 1])
    ensures i == a && j == b
  {
  }

  /** Text that already has no white space at either end is left alone. */
  lemma StripStripped(t: string)
    requires |t| == 0 || (!IsSpace(t[0]) && !IsSpace(t[|t| - 1]))
    ensures Strip(t) == t
  {
  }

  /** Stripping keeps only characters of its input, so it adds no capital letter. */
  lemma StripNoUpper(s: string)
    requires forall k :: 0 <= k < |s| ==> !IsAsciiUpper(s[k])
    ensures forall k :: 0 <= k < |Strip(s)| ==> !IsAsciiUpper(Strip(s)[k])
  {
    var r := Strip(s);
    var a := StripStart(s);
    assert forall k :: 0 <= k < |r| ==> r[k] == s[a + k];
  }

  /** Lower-casing text without capitals changes nothing. */
  lemma LowerNoUpper(s: string)
    requires forall k :: 0 <= k < |s| ==> !IsAsciiUpper(s[k])
    ensures Lower(s) == s
  {
  }

  function DigitChar(d: nat): (c: char)
    requires d < 10
    ensures IsDigit(c)
  {
    ('0' as int + d) as char
  }

  function DigitValue(c: char): (d: nat)
    requires IsDigit(c)
    ensures d < 10
    ensures DigitChar(d) == c
  {
    c as int - '0' as int
  }

  predicate AllDigits(s: string) {
    forall i :: 0 <= i < |s| ==> IsDigit(s[i])
  }

  /** The decimal numeral of `n` without leading zeros, as Rust's `{}` formats an integer. */
  function Decimal(n: nat): (s: string)
    ensures |s| >= 1 && AllDigits(s)
    ensures n >= 10 ==> s[0] != '0'
    decreases n
  {
    if n < 10 then [DigitChar(n)] else Decimal(n / 10) + [DigitChar(n % 10)]
  }

  /** The value of a string of decimal digits. */
  function ParseDecimal(s: string): nat
    requires AllDigits(s)
    decreases |s|
  {
    if |s| == 0 then 0 else 10 * ParseDecimal(s[..|s| - 1]) + DigitValue(s[|s| - 1])
  }

  /** Reading back a rendered numeral gives the number. */
  lemma {:induction false} ParseDecimalOfDecimal(n: nat)
    ensures ParseDecimal(Decimal(n)) == n
    decreases n
  {
    if n >= 10 {
      ParseDecimalOfDecimal(n / 10);
      var s := Decimal(n);
      assert s[..|s| - 1] == Decimal(n / 10);
    }
  }
}

=== FILE: test_cmd.dfy ===
/** The `test` subcommand: which suites run, against which browsers, in which
    order, and how the first failure ends the run. */
module TestCmd {
  import opened Wrappers
  import opened Strings
  import opened CliCommand
  import opened TestRunner

  /** One test run: the `base` crate tests, or the `app` tests in one browser. */
  datatype Suite = BaseSuite | AppSuite(browser: string)

  /** The browsers tried when none is named: Safari only on macOS. */
  function DefaultBrowsers(isMacOs: bool): (bs: seq<string>)
    ensures |bs| == (if isMacOs then 3 else 2)
    ensures bs[..2] == ["chrome", "firefox"]
    ensures isMacOs ==> bs[2] == "safari"
  {
    if isMacOs then ["chrome", "firefox", "safari"] else ["chrome", "firefox"]
  }

  function AppSuites(browsers: seq<string>): (s: seq<Suite>)
    ensures |s| == |browsers|
    ensures forall k :: 0 <= k < |browsers| ==> s[k] == AppSuite(browsers[k])
  {
    seq(|browsers|, k requires 0 <= k < |browsers| => AppSuite(browsers[k]))
  }

  /** The suites `test` runs, in order: base tests unless only `--app` was given,
      then app tests unless only `--base` was given, in the named browser or in
      each default browser. */
  function TestPlan(base: bool, app: bool, browser: Option<string>, isMacOs: bool): (plan: seq<Suite>)
    ensures BaseSuite in plan <==> base || !app
    ensures (exists k :: 0 <= k < |plan| && plan[k].AppSuite?) <==> app || !base
    ensures |plan| >= 1
    ensures !base && !app ==> BaseSuite in plan && plan[|plan| - 1].AppSuite?
    ensures base && app ==> BaseSuite in plan && plan[|plan| - 1].AppSuite?
    ensures BaseSuite in plan ==> plan[0] == BaseSuite
    ensures forall k :: 1 <= k < |plan| ==> plan[k].AppSuite?
    ensures (app || !base) && browser.Some? ==>
      plan[|plan| - 1] == AppSuite(browser.value) && |plan| == (if base || !app then 2 else 1)
  {
    var runBase := base || !app;
    var runApp := app || !base;
    var baseSuites := if runBase then [BaseSuite] else [];
    var appSuites :=
      if !runApp then []
      else if browser.Some? then [AppSuite(browser.value)]
      else AppSuites(DefaultBrowsers(isMacOs));
    assert runApp ==> |appSuites| >= 1 && appSuites[0].AppSuite?;
    var plan := baseSuites + appSuites;
    assert forall k :: 0 <= k < |appSuites| ==> appSuites[k].AppSuite?;
    assert forall k :: |baseSuites| <= k < |plan| ==> plan[k] == appSuites[k - |baseSuites|];
    assert runApp ==> plan[|baseSuites|].AppSuite?;
    plan
  }

  /** Without a named browser the app tests go to chrome, then firefox, then, on macOS only, safari. */
  lemma DefaultBrowserOrder(base: bool, isMacOs: bool)
    ensures var plan := TestPlan(base, true, None, isMacOs);
      var first := if base then 1 else 0;
      && |plan| == first + (if isMacOs then 3 else 2)
      && plan[first] == AppSuite("chrome")
      && plan[first + 1] == AppSuite("firefox")
      && (isMacOs ==> plan[first + 2] == AppSuite("safari"))
  {
  }

  /** The environment a run sees: where the app crate is, whether app tests run
      headless, whether `wasm-pack` is installed, and which spawned command (by
      position) exits unsuccessfully, if any. */
  datatype Env = Env(appPath: Path, headless: bool, hasWasmPack: bool, failAt: Option<nat>)

  function SuiteCommand(s: Suite, env: Env): Result<Command, CliError> {
    match s
    case BaseSuite => Ok(BaseTestsCommand())
    case AppSuite(b) => AppTestsCommand(env.appPath, b, env.headless, env.hasWasmPack)
  }

  /** The commands a run spawned, in order, and how it ended. */
  datatype TestRun = TestRun(spawned: seq<Command>, result: Outcome<CliError>)

  /** Runs the suites in order; the first error, or the first unsuccessful command, ends the run. */
  function RunSuites(suites: seq<Suite>, env: Env, started: nat): (r: TestRun)
    ensures |r.spawned| <= |suites|
    ensures r.result.Pass? ==> |r.spawned| == |suites|
    ensures forall k :: 0 <= k < |r.spawned| ==> SuiteCommand(suites[k], env) == Ok(r.spawned[k])
    ensures env.failAt.Some? && started <= env.failAt.value ==> |r.spawned| <= env.failAt.value - started + 1
    ensures env.failAt.Some? && started <= env.failAt.value < started + |r.spawned| ==> r.result.Fail?
    // when every suite has a command and none of them fails, every suite runs and the run passes
    ensures (forall k :: 0 <= k < |suites| ==> SuiteCommand(suites[k], env).Ok?)
      && !(env.failAt.Some? && started <= env.failAt.value < started + |suites|)
      ==> r.result == Pass && |r.spawned| == |suites|
    decreases |suites|
  {
    if |suites| == 0 then TestRun([], Pass)
    else
      match SuiteCommand(suites[0], env)
      case Err(e) => TestRun([], Fail(e))
      case Ok(c) =>
        if env.failAt == Some(started) then TestRun([c], Fail(CommandFailed(c)))
        else
          var rest := RunSuites(suites[1..], env, started + 1);
          TestRun([c] + rest.spawned, rest.result)
  }

  /** The run stops at suite `i` when the suites before it were spawned and succeeded and
      suite `i` has no command: nothing more is spawned and its error is the result. */
  lemma {:induction false} RunSuitesStopsAtError(suites: seq<Suite>, env: Env, started: nat, i: nat)
    requires i < |suites|
    requires forall k :: 0 <= k < i ==> SuiteCommand(suites[k], env).Ok?
    requires env.failAt.None? || !(started <= env.failAt.value < started + i)
    requires SuiteCommand(suites[i], env).Err?
    ensures RunSuites(suites, env, started) == TestRun(Commands(suites[..i], env), Fail(SuiteCommand(suites[i], env).error))
    decreases i
  {
    if i == 0 {
      assert suites[..0] == [];
    } else {
      RunSuitesStopsAtError(suites[1..], env, started + 1, i - 1);
      RunSuitesStep(suites, env, started, i);
    }
  }

  /** The run stops at suite `i` when the suites before it were spawned and succeeded and
      the command of suite `i` fails: that command is the last one spawned. */
  lemma {:induction false} RunSuitesStopsAtFailure(suites: seq<Suite>, env: Env, started: nat, i: nat)
    requires i < |suites|
    requires forall k :: 0 <= k < i ==> SuiteCommand(suites[k], env).Ok?
    requires SuiteCommand(suites[i], env).Ok? && env.failAt == Some(started + i)
    ensures var c := SuiteCommand(suites[i], env).value;
      RunSuites(suites, env, started) == TestRun(Commands(suites[..i], env) + [c], Fail(CommandFailed(c)))
    decreases i
  {
    if i == 0 {
      assert suites[..0] == [];
    } else {
      assert suites[1..][i - 1] == suites[i];
      RunSuitesStopsAtFailure(suites[1..], env, started + 1, i - 1);
      RunSuitesStep(suites, env, started, i);
      var first, rest := SuiteCommand(suites[0], env).value, Commands(suites[1..][..i - 1], env);
      var c := SuiteCommand(suites[i], env).value;
      assert [first] + (rest + [c]) == ([first] + rest) + [c];
    }
  }

  /** When every suite has a command and none of them fails, every command is spawned, in order. */
  lemma {:induction false} RunSuitesAllPass(suites: seq<Suite>, env: Env, started: nat)
    requires forall k :: 0 <= k < |suites| ==> SuiteCommand(suites[k], env).Ok?
    requires env.failAt.None? || !(started <= env.failAt.value < started + |suites|)
    ensures RunSuites(suites, env, started) == TestRun(Commands(suites, env), Pass)
    decreases |suites|
  {
    if |suites| > 0 {
      RunSuitesAllPass(suites[1..], env, started + 1);
    }
  }

  /** A first suite with a command that does not fail is spawned, and the run goes on with the rest. */
  lemma RunSuitesStep(suites: seq<Suite>, env: Env, started: nat, i: nat)
    requires 0 < i < |suites|
    requires forall k :: 0 <= k < i ==> SuiteCommand(suites[k], env).Ok?
    requires env.failAt != Some(started)
    ensures var c := SuiteCommand(suites[0], env).value;
      && RunSuites(suites, env, started) == TestRun([c] + RunSuites(suites[1..], env, started + 1).spawned,
                                                    RunSuites(suites[1..], env, started + 1).result)
      && Commands(suites[..i], env) == [c] + Commands(suites[1..][..i - 1], env)
  {
    assert suites[1..][..i - 1] == suites[..i][1..];
  }

  /** The commands of suites that all have one, in order. */
  function Commands(suites: seq<Suite>, env: Env): (cs: seq<Command>)
    requires forall k :: 0 <= k < |suites| ==> SuiteCommand(suites[k], env).Ok?
    ensures |cs| == |suites|
    ensures forall k :: 0 <= k < |suites| ==> SuiteCommand(suites[k], env) == Ok(cs[k])
    decreases |suites|
  {
    if |suites| == 0 then [] else [SuiteCommand(suites[0], env).value] + Commands(suites[1..], env)
  }

  /** `test`: plan the suites, then run them. */
  function HandleTestCommand(base: bool, app: bool, browser: Option<string>, isMacOs: bool, env: Env): TestRun {
    RunSuites(TestPlan(base, app, browser, isMacOs), env, 0)
  }

  /** The base tests always run before any app test; a failed base run spawns nothing else. */
  lemma BaseRunsFirst(base: bool, app: bool, browser: Option<string>, isMacOs: bool, env: Env)
    requires base || !app
    ensures var r := HandleTestCommand(base, app, browser, isMacOs, env);
      |r.spawned| >= 1 && r.spawned[0] == BaseTestsCommand()
    ensures env.failAt == Some(0) ==>
      HandleTestCommand(base, app, browser, isMacOs, env) == TestRun([BaseTestsCommand()], Fail(CommandFailed(BaseTestsCommand())))
  {
  }

  /** An unsupported named browser fails before any app test is spawned. */
  lemma UnsupportedBrowserSpawnsNoAppTest(base: bool, app: bool, browser: string, isMacOs: bool, env: Env)
    requires app || !base
    requires env.hasWasmPack && !(Lower(browser) in Browsers)
    ensures var r := HandleTestCommand(base, app, Some(browser), isMacOs, env);
      r.result.Fail? && forall k :: 0 <= k < |r.spawned| ==> r.spawned[k] == BaseTestsCommand()
  {
    var plan := TestPlan(base, app, Some(browser), isMacOs);
    var r := RunSuites(plan, env, 0);
    assert SuiteCommand(plan[|plan| - 1], env).Err?;
    assert |r.spawned| < |plan|;
  }
}

=== FILE: test_runner.dfy ===
/** Argument construction of the two test runners: the native `base` crate
    tests through `cargo`, and the browser `app` tests through `wasm-pack`. */
module TestRunner {
  import opened Wrappers
  import opened Strings
  import opened CliCommand

  /** The browsers `wasm-pack test` accepts, by lower-case name. */
  const Browsers: seq<string> := ["chrome", "firefox", "safari"]

  /** `cargo test -p base`, run in the current directory with no extra environment. */
  function BaseTestsCommand(): (c: Command)
    ensures c.program == "cargo" && c.dir.None? && c.env == []
    ensures c.args == ["test", "-p", "base"]
  {
    Command("cargo", ["test", "-p", "base"], None, [])
  }

  /** The `wasm-pack test` flag selecting a browser, chosen by case-insensitive name. */
  function BrowserFlag(browser: string): (r: Option<string>)
    ensures r.Some? <==> Lower(browser) in Browsers
    ensures r.Some? ==> r.value == "--" + Lower(browser)
  {
    match Lower(browser)
    case "chrome" => Some("--chrome")
    case "firefox" => Some("--firefox")
    case "safari" => Some("--safari")
    case _ => None
  }

  /** The `wasm-pack test` command for one browser. `wasm-pack` must be
      installed, checked first; then an unknown browser is an error. */
  function AppTestsCommand(appPath: Path, browser: string, headless: bool, hasWasmPack: bool): (r: Result<Command, CliError>)
    ensures !hasWasmPack ==> r == Err(WasmPackMissing)
    ensures hasWasmPack ==> (r.Ok? <==> Lower(browser) in Browsers)
    ensures hasWasmPack && r.Err? ==> r.error == UnsupportedBrowser(browser)
    ensures r.Ok? ==>
      && r.value.program == "wasm-pack"
      && r.value.dir == Some(appPath)
      && r.value.env == [("RUST_LOG", "warn")]
      && |r.value.args| == (if headless then 3 else 2)
      && r.value.args[0] == "test"
      && r.value.args[1] == "--" + Lower(browser)
      && (r.value.args[|r.value.args| - 1] == "--headless" <==> headless)
  {
    if !hasWasmPack then Err(WasmPackMissing)
    else
      match BrowserFlag(browser)
      case None => Err(UnsupportedBrowser(browser))
      case Some(flag) =>
        var args := ["test", flag] + (if headless then ["--headless"] else []);
        Ok(Command("wasm-pack", args, Some(appPath), [("RUST_LOG", "warn")]))
  }

  lemma LowerIdempotent(s: string)
    ensures Lower(Lower(s)) == Lower(s)
  {
  }

  /** Browser names are matched without regard to ASCII case: any spelling
      yields the command its lower-case spelling does. */
  lemma AppTestsCaseInsensitive(appPath: Path, browser: string, headless: bool)
    ensures AppTestsCommand(appPath, browser, headless, true).Ok? == AppTestsCommand(appPath, Lower(browser), headless, true).Ok?
    ensures AppTestsCommand(appPath, browser, headless, true).Ok? ==>
      AppTestsCommand(appPath, browser, headless, true) == AppTestsCommand(appPath, Lower(browser), headless, true)
  {
    LowerIdempotent(browser);
  }
}

=== FILE: text_edit.dfy ===
/** The setup script's file edits as functions on text: Python's `str.replace`
    as the rename uses it, the replace-in-file step with its failure cases, and
    the README cleanup that deletes the marked setup blocks with `re.sub`.

    The scans work on a position into the text rather than on ever shorter
    copies of it; a scan from position 0 is the operation on the whole text. */
module TextEdit {
  import opened Wrappers
  import opened Strings

  /** Python `s.replace(oldText, newText)` from position `pos` on: every
      non-overlapping occurrence of `oldText`, scanning left to right, becomes
      `newText`. An empty `oldText` occurs before every character and at the end. */
  function ReplaceFrom(s: string, oldText: string, newText: string, pos: nat): string
    requires pos <= |s|
    decreases |s| - pos
  {
    if |oldText| == 0 then
      if pos == |s| then newText else newText + [s[pos]] + ReplaceFrom(s, oldText, newText, pos + 1)
    else if OccursAt(s, oldText, pos) then newText + ReplaceFrom(s, oldText, newText, pos + |oldText|)
    else if pos == |s| then ""
    else [s[pos]] + ReplaceFrom(s, oldText, newText, pos + 1)
  }

  /** Python `s.replace(oldText, newText)`. */
  function ReplaceAll(s: string, oldText: string, newText: string): string {
    ReplaceFrom(s, oldText, newText, 0)
  }

  /** Without an occurrence of a non-empty `oldText` from `pos` on, the rest is copied. */
  lemma {:induction false} ReplaceFromAbsent(s: string, oldText: string, newText: string, pos: nat)
    requires |oldText| > 0 && pos <= |s| && FindFrom(s, oldText, pos).None?
    ensures ReplaceFrom(s, oldText, newText, pos) == s[pos..]
    decreases |s| - pos
  {
    if pos < |s| {
      ReplaceFromAbsent(s, oldText, newText, pos + 1);
      assert [s[pos]] + s[pos + 1..] == s[pos..];
    }
  }

  /** The leftmost occurrence from `pos` on, at `i`, is replaced, the text before it
      copied, and replacing resumes after the occurrence. */
  lemma {:induction false} ReplaceFromAtFind(s: string, oldText: string, newText: string, pos: nat, i: nat)
    requires |oldText| > 0 && pos <= |s| && FindFrom(s, oldText, pos) == Some(i)
    ensures pos <= i && i + |oldText| <= |s|
    ensures ReplaceFrom(s, oldText, newText, pos) == s[pos..i] + (newText + ReplaceFrom(s, oldText, newText, i + |oldText|))
    decreases |s| - pos
  {
    if OccursAt(s, oldText, pos) {
      ReplaceHere(s, oldText, newText, pos);
      assert s[pos..i] == "";
    } else {
      ReplaceFromAtFind(s, oldText, newText, pos + 1, i);
      ReplaceCharHere(s, oldText, newText, pos);
      ConsSlice(s, pos, i);
      AppendAssoc([s[pos]], s[pos + 1..i], newText + ReplaceFrom(s, oldText, newText, i + |oldText|));
    }
  }

  /** An occurrence at `pos` is replaced. */
  lemma ReplaceHere(s: string, oldText: string, newText: string, pos: nat)
    requires |oldText| > 0 && pos <= |s| && OccursAt(s, oldText, pos)
    ensures ReplaceFrom(s, oldText, newText, pos) == newText + ReplaceFrom(s, oldText, newText, pos + |oldText|)
  {
  }

  /** A character that does not begin an occurrence is copied. */
  lemma ReplaceCharHere(s: string, oldText: string, newText: string, pos: nat)
    requires |oldText| > 0 && pos < |s| && !OccursAt(s, oldText, pos)
    ensures ReplaceFrom(s, oldText, newText, pos) == [s[pos]] + ReplaceFrom(s, oldText, newText, pos + 1)
  {
  }

  /** Text without an occurrence of a non-empty `oldText` is unchanged. */
  lemma ReplaceAllAbsent(s: string, oldText: string, newText: string)
    requires |oldText| > 0 && !Contains(s, oldText)
    ensures ReplaceAll(s, oldText, newText) == s
  {
    ReplaceFromAbsent(s, oldText, newText, 0);
  }

  /** The first occurrence is replaced, the text before it kept, and replacing resumes
      after it. */
  lemma ReplaceAllAtFind(s: string, oldText: string, newText: string, i: nat)
    requires |oldText| > 0 && Find(s, oldText) == Some(i)
    ensures i + |oldText| <= |s|
    ensures ReplaceAll(s, oldText, newText) == s[..i] + (newText + ReplaceFrom(s, oldText, newText, i + |oldText|))
  {
    ReplaceFromAtFind(s, oldText, newText, 0, i);
    assert s[..i] == s[0..i];
  }

  /** Replacing a string by itself changes nothing. */
  lemma {:induction false} ReplaceFromSame(s: string, oldText: string, pos: nat)
    requires pos <= |s|
    ensures ReplaceFrom(s, oldText, oldText, pos) == s[pos..]
    decreases |s| - pos
  {
    if |oldText| == 0 {
      if pos < |s| {
        ReplaceFromSame(s, oldText, pos + 1);
        assert [s[pos]] + s[pos + 1..] == s[pos..];
      }
    } else if OccursAt(s, oldText, pos) {
      ReplaceFromSame(s, oldText, pos + |oldText|);
      assert s[pos..pos + |oldText|] + s[pos + |oldText|..] == s[pos..];
    } else if pos < |s| {
      ReplaceFromSame(s, oldText, pos + 1);
      assert [s[pos]] + s[pos + 1..] == s[pos..];
    }
  }

  lemma ReplaceAllSame(s: string, oldText: string)
    ensures ReplaceAll(s, oldText, oldText) == s
  {
    ReplaceFromSame(s, oldText, 0);
  }

  /** The number of occurrences of `oldText` the left-to-right scan replaces from `pos` on. */
  function Occurrences(s: string, oldText: string, pos: nat): nat
    requires |oldText| > 0 && pos <= |s|
    decreases |s| - pos
  {
    match FindFrom(s, oldText, pos)
    case None => 0
    case Some(i) => 1 + Occurrences(s, oldText, i + |oldText|)
  }

  /** Each replaced occurrence changes the length by the difference of the two strings. */
  lemma ReplaceFromLength(s: string, oldText: string, newText: string, pos: nat)
    requires |oldText| > 0 && pos <= |s|
    ensures |ReplaceFrom(s, oldText, newText, pos)|
      == |s| - pos + Occurrences(s, oldText, pos) * (|newText| - |oldText|)
  {
    ReplaceFromLengthSum(s, oldText, newText, pos);
    TimesIsProduct(Occurrences(s, oldText, pos), |newText| - |oldText|);
  }

  /** `n` copies of `d` added up. */
  function Times(n: nat, d: int): int {
    if n == 0 then 0 else d + Times(n - 1, d)
  }

  lemma {:induction false} TimesIsProduct(n: nat, d: int)
    ensures Times(n, d) == n * d
  {
    if n > 0 {
      TimesIsProduct(n - 1, d);
    }
  }

  /** The length law with the per-occurrence change summed occurrence by occurrence. */
  lemma {:induction false} ReplaceFromLengthSum(s: string, oldText: string, newText: string, pos: nat)
    requires |oldText| > 0 && pos <= |s|
    ensures |ReplaceFrom(s, oldText, newText, pos)|
      == |s| - pos + Times(Occurrences(s, oldText, pos), |newText| - |oldText|)
    decreases |s| - pos
  {
    var found := FindFrom(s, oldText, pos);
    if found.None? {
      ReplaceFromAbsent(s, oldText, newText, pos);
    } else {
      var i := found.value;
      var next := i + |oldText|;
      assert next <= |s| && |ReplaceFrom(s, oldText, newText, pos)|
        == i - pos + |newText| + |ReplaceFrom(s, oldText, newText, next)| by {
        ReplaceFromLengthStep(s, oldText, newText, pos, i);
      }
      ReplaceFromLengthSum(s, oldText, newText, next);
      OccurrencesStep(s, oldText, pos, i);
    }
  }

  /** One replacement step: the text up to the occurrence, the new text, the rest replaced. */
  lemma ReplaceFromLengthStep(s: string, oldText: string, newText: string, pos: nat, i: nat)
    requires |oldText| > 0 && pos <= |s| && FindFrom(s, oldText, pos) == Some(i)
    ensures pos <= i && i + |oldText| <= |s|
    ensures |ReplaceFrom(s, oldText, newText, pos)|
      == i - pos + |newText| + |ReplaceFrom(s, oldText, newText, i + |oldText|)|
  {
    ReplaceFromAtFind(s, oldText, newText, pos, i);
    var rest := ReplaceFrom(s, oldText, newText, i + |oldText|);
    assert |s[pos..i] + (newText + rest)| == (i - pos) + (|newText| + |rest|);
  }

  lemma OccurrencesStep(s: string, oldText: string, pos: nat, i: nat)
    requires |oldText| > 0 && pos <= |s| && FindFrom(s, oldText, pos) == Some(i)
    ensures i + |oldText| <= |s|
    ensures Occurrences(s, oldText, pos) == 1 + Occurrences(s, oldText, i + |oldText|)
  {
  }

  /** A file as the script finds it: absent, present but unreadable as UTF-8 text, or read. */
  datatype FileRead = Missing | Unreadable | Read(text: string)

  /** Whether the edit succeeded and the text it wrote, if it wrote one. */
  datatype FileEdit = FileEdit(ok: bool, written: Option<string>)

  /** `replace_in_file`: a missing or unreadable file fails; a text without `oldText` is a
      success that writes nothing; otherwise the replaced text is written, which fails
      when the file cannot be written. */
  function ReplaceInFile(file: FileRead, oldText: string, newText: string, writable: bool): (r: FileEdit)
    ensures file.Missing? || file.Unreadable? ==> r == FileEdit(false, None)
    ensures file.Read? && !Contains(file.text, oldText) ==> r == FileEdit(true, None)
    ensures file.Read? && Contains(file.text, oldText) ==>
      r == (if writable then FileEdit(true, Some(ReplaceAll(file.text, oldText, newText))) else FileEdit(false, None))
    ensures r.written.Some? ==> r.ok && file.Read? && r.written.value == ReplaceAll(file.text, oldText, newText)
  {
    match file
    case Missing => FileEdit(false, None)
    case Unreadable => FileEdit(false, None)
    case Read(text) =>
      if !Contains(text, oldText) then FileEdit(true, None)
      else if writable then FileEdit(true, Some(ReplaceAll(text, oldText, newText)))
      else FileEdit(false, None)
  }

  /** The file after an edit: the written text, or the file as it was. */
  function AfterEdit(file: FileRead, edit: FileEdit): FileRead {
    if edit.written.Some? then Read(edit.written.value) else file
  }

  /** A successful edit with a non-empty `oldText` leaves the file holding the replaced
      text, whether or not it had to write; a failed edit leaves the file as it was, a
      refused write being one whose `open` for writing fails before anything is truncated. */
  lemma ReplaceInFileContents(file: FileRead, oldText: string, newText: string, writable: bool)
    requires |oldText| > 0
    ensures ReplaceInFile(file, oldText, newText, writable).ok ==>
      file.Read? && AfterEdit(file, ReplaceInFile(file, oldText, newText, writable)) == Read(ReplaceAll(file.text, oldText, newText))
    ensures !ReplaceInFile(file, oldText, newText, writable).ok ==>
      AfterEdit(file, ReplaceInFile(file, oldText, newText, writable)) == file
  {
    if file.Read? && !Contains(file.text, oldText) {
      ReplaceAllAbsent(file.text, oldText, newText);
    }
  }

  const SetupStart: string := "<!-- SETUP_START -->"
  const SetupEnd: string := "<!-- SETUP_END -->"

  /** Position `e` of `s`, moved past one newline if one is there (the pattern's `\n?`). */
  function SkipNewline(s: string, e: nat): (r: nat)
    requires e <= |s|
    ensures e <= r <= |s| && r <= e + 1
  {
    if e < |s| && s[e] == '\n' then e + 1 else e
  }

  /** The end of the block whose opening marker is at `pos`: the first `close` after
      the marker, plus one newline if one follows. None when no `close` follows. */
  function BlockEnd(s: string, open: string, close: string, pos: nat): (r: Option<nat>)
    requires OccursAt(s, open, pos)
    ensures r.Some? ==> pos + |open| + |close| <= r.value <= |s|
  {
    match FindFrom(s, close, pos + |open|)
    case None => None
    case Some(k) => Some(SkipNewline(s, k + |close|))
  }

  /** `re.sub(re.escape(open) + '.*?' + re.escape(close) + '\n?', '', s, flags=re.DOTALL)`
      from position `pos` on: scanning left to right, an `open` with a `close` somewhere
      after it begins a block, which runs to the first such `close` and one optional
      newline and is deleted; every other character is kept. */
  function RemoveBlocksFrom(s: string, open: string, close: string, pos: nat): (r: string)
    requires |open| > 0 && pos <= |s|
    ensures |r| <= |s| - pos
    decreases |s| - pos
  {
    if pos == |s| then ""
    else if OccursAt(s, open, pos) && BlockEnd(s, open, close, pos).Some? then
      RemoveBlocksFrom(s, open, close, BlockEnd(s, open, close, pos).value)
    else [s[pos]] + RemoveBlocksFrom(s, open, close, pos + 1)
  }

  function RemoveBlocks(s: string, open: string, close: string): string
    requires |open| > 0
  {
    RemoveBlocksFrom(s, open, close, 0)
  }

  /** The README cleanup: the blocks between the setup markers are deleted. */
  function RemoveSetupBlocks(s: string): string {
    RemoveBlocks(s, SetupStart, SetupEnd)
  }

  /** No opening marker at or after `pos` has a `close` after it. */
  predicate NoClosedBlock(s: string, open: string, close: string, pos: nat)
    requires pos <= |s|
  {
    forall j :: pos <= j <= |s| && OccursAt(s, open, j) ==> FindFrom(s, close, j + |open|).None?
  }

  /** Where no opening marker is followed by a `close`, the text is copied unchanged. */
  lemma {:induction false} RemoveBlocksNoClosedBlock(s: string, open: string, close: string, pos: nat)
    requires |open| > 0 && pos <= |s| && NoClosedBlock(s, open, close, pos)
    ensures RemoveBlocksFrom(s, open, close, pos) == s[pos..]
    decreases |s| - pos
  {
    if pos < |s| {
      RemoveBlocksNoClosedBlock(s, open, close, pos + 1);
      assert [s[pos]] + s[pos + 1..] == s[pos..];
    }
  }

  /** Text without an opening marker is unchanged. */
  lemma RemoveBlocksNoMarker(s: string, open: string, close: string)
    requires |open| > 0 && !Contains(s, open)
    ensures RemoveBlocks(s, open, close) == s
  {
    FindFromLeftmost(s, open, 0);
    RemoveBlocksNoClosedBlock(s, open, close, 0);
  }

  /** The text before the first opening marker from `pos` on is kept, and the block from
      that marker to the first `close` after it, with one following newline, is deleted. */
  lemma {:induction false} RemoveFirstBlockFrom(s: string, open: string, close: string, pos: nat, i: nat, k: nat)
    requires |open| > 0 && pos <= |s|
    requires FindFrom(s, open, pos) == Some(i)
    requires i + |open| <= |s| && FindFrom(s, close, i + |open|) == Some(k)
    ensures pos <= i && k + |close| <= |s|
    ensures RemoveBlocksFrom(s, open, close, pos)
      == s[pos..i] + RemoveBlocksFrom(s, open, close, SkipNewline(s, k + |close|))
    decreases |s| - pos
  {
    if OccursAt(s, open, pos) {
      RemoveBlockHere(s, open, close, pos, k);
      assert s[pos..i] == "";
    } else {
      RemoveFirstBlockFrom(s, open, close, pos + 1, i, k);
      RemoveCharHere(s, open, close, pos);
      ConsSlice(s, pos, i);
      AppendAssoc([s[pos]], s[pos + 1..i], RemoveBlocksFrom(s, open, close, SkipNewline(s, k + |close|)));
    }
  }

  lemma AppendAssoc(a: string, b: string, c: string)
    ensures (a + b) + c == a + (b + c)
  {
  }

  /** A slice is its first character followed by the rest. */
  lemma ConsSlice(s: string, pos: nat, i: nat)
    requires pos < i <= |s|
    ensures [s[pos]] + s[pos + 1..i] == s[pos..i]
  {
  }

  /** A block whose opening marker is at `pos` is deleted. */
  lemma RemoveBlockHere(s: string, open: string, close: string, pos: nat, k: nat)
    requires |open| > 0 && OccursAt(s, open, pos)
    requires FindFrom(s, close, pos + |open|) == Some(k)
    ensures RemoveBlocksFrom(s, open, close, pos) == RemoveBlocksFrom(s, open, close, SkipNewline(s, k + |close|))
  {
    assert BlockEnd(s, open, close, pos) == Some(SkipNewline(s, k + |close|));
  }

  /** A character that does not begin an opening marker is kept. */
  lemma RemoveCharHere(s: string, open: string, close: string, pos: nat)
    requires |open| > 0 && pos < |s| && !OccursAt(s, open, pos)
    ensures RemoveBlocksFrom(s, open, close, pos) == [s[pos]] + RemoveBlocksFrom(s, open, close, pos + 1)
  {
  }

  /** The first block of the text is deleted, up to the first `close` after its opening
      marker (at `k`) and one following newline; the text before the marker (at `i`) is kept. */
  lemma RemoveFirstBlock(s: string, open: string, close: string, i: nat, k: nat)
    requires |open| > 0
    requires Find(s, open) == Some(i)
    requires FindFrom(s, close, i + |open|) == Some(k)
    ensures RemoveBlocks(s, open, close) == s[..i] + RemoveBlocksFrom(s, open, close, SkipNewline(s, k + |close|))
  {
    RemoveFirstBlockFrom(s, open, close, 0, i, k);
    assert s[..i] == s[0..i];
  }

  /** A first opening marker with no `close` anywhere after it, and with it the whole
      text, is left in place. */
  lemma RemoveUnclosedBlock(s: string, open: string, close: string)
    requires |open| > 0 && Contains(s, open)
    requires FindFrom(s, close, Find(s, open).value + |open|).None?
    ensures RemoveBlocks(s, open, close) == s
  {
    var i := Find(s, open).value;
    FindFromLeftmost(s, open, 0);
    forall j | 0 <= j <= |s| && OccursAt(s, open, j)
      ensures FindFrom(s, close, j + |open|).None?
    {
      FindFromNoneLater(s, close, i + |open|, j + |open|);
    }
    RemoveBlocksNoClosedBlock(s, open, close, 0);
  }

  /** A pattern absent from `a` on is absent from every later position. */
  lemma FindFromNoneLater(s: string, pat: string, a: nat, b: nat)
    requires a <= b <= |s| && FindFrom(s, pat, a).None?
    ensures FindFrom(s, pat, b).None?
  {
    FindFromLeftmost(s, pat, a);
    if FindFrom(s, pat, b).Some? {
      FindFromLeftmost(s, pat, b);
      assert false;
    }
  }
}

=== FILE: wrappers.dfy ===
/** Failure-carrying result types shared by every module of the model.
    They stand for Rust's `Option`/`Result` and for Python's `None`-or-value returns. */
module Wrappers {

  datatype Option<+T> = None | Some(value: T)

  /** A computation that produced a value or failed with an error. */
  datatype Result<+T, +E> = Ok(value: T) | Err(error: E)

  /** A computation with no value of interest that passed or failed with an error. */
  datatype Outcome<+E> = Pass | Fail(error: E)
}
